=== FILE: README.md ===
# CloudStream core in Dafny

CloudStream turns the files of a cloud drive (a 123Pan account or an
OpenList server) into `.strm` files that a media player can open. Each
`.strm` file holds a link back to CloudStream. When the player follows that
link, CloudStream works out which account and file it names, asks the
storage back end for a download address, and redirects the player there.
An administrator manages accounts and sync tasks through a web client.

This project models the rules of that core and proves properties of them:

| module | file | what it models |
|---|---|---|
| `Results`, `Clock`, `Retry` | results.dfy | option and result types, bytes, instants in nanoseconds, the bounded retry count shared by both clients |
| `Text` | text.dfy | the Go `strings` functions the core uses (ASCII) |
| `Decimal` | decimal.dfy | `strconv.ParseUint`, `ParseInt`, `FormatInt` with Go's error cases |
| `Bytes`, `Base64Url`, `Hex` | encoding.dfy | raw URL-safe base64 and lower-case hex |
| `GoPath` | gopath.dfy | `path.Clean`, `path.Join`, `filepath.Ext` |
| `UrlEscape` | url_escape.dfy | `url.PathEscape` per segment and the server's percent-decoding |
| `Models` | models.dfy | accounts, tasks, file entries, users, history rows |
| `Scanner` | scanner.dfy | the STRM sync rules of internal/core/scanner.go |
| `StreamSign` | stream_sign.dfy | signed stream links (`SignStreamURL`, `VerifyStreamSign`) |
| `Session` | session.dfy | login, session claims and the JWT middleware |
| `StreamHandler` | stream_handler.dfy | `UnifiedStreamHandler`, and the link round trip |
| `CloudBrowser` | cloud_browser.dfy | `FileBrowserHandler`, the folder picker's back end |
| `OpenListClient` | openlist_client.dfy | the OpenList API client |
| `Pan123Client` | pan123_client.dfy | the 123Pan client, its caches and download addresses |
| `Redirects` | redirects.dfy | `GetFinalURL`, the HEAD redirect loop |
| `Scheduler` | scheduler.dfy | the running-task registry |
| `Limiter` | limiter.dfy | the login rate limiter |
| `Credentials` | credentials.dfy | changing credentials and signing out |
| `Browser`, `Router`, `ApiClient`, `GlobalStore` | frontend.dfy | the web client's route guard, axios interceptors and preference store |

## How the model stands in for the outside world

- Go strings are Dafny strings. Where bytes matter, each char stands for
  one byte (`Bytes.IsBytes`). Trimming, lower-casing and white space are
  ASCII only.
- Time is a parameter: an instant in nanoseconds (`Clock`), or Unix
  seconds where the source calls `Unix()`.
- The database is a map: accounts by id, users by name, a task's history
  rows as a sequence ordered by id.
- Every network answer is a parameter:
  - a function from the attempt number to that attempt's outcome;
  - the login or token call's answer;
  - `head` for the HEAD requests of the redirect loop;
  - `resolve` for a client's download address.
  Sleeps are not taken; they are returned as the sequence of durations
  the loop would sleep.
- Cryptography is a parameter:
  - HMAC-SHA256 is the signer's `mac` function;
  - the random salt is an `Option` (None when `crypto/rand` fails);
  - bcrypt is a `check` and a `hash` function;
  - parsing a JWT is a `decode` function that yields the claims of a token
    whose structure and HS256 signature are right.
  Base64, hex, decimal and percent-encoding are concrete.
- The process-wide caches become values threaded through the calls: the
  OpenList token cache, the 123Pan access-token cache and the 123Pan list
  cache.

## Model

| member | source | states |
|---|---|---|
| Scanner.Add | internal/core/scanner.go:38-42 | after Add the tracker holds the path and exactly the paths it held before |
| Scanner.Keys | internal/core/scanner.go:51-59 | Keys lists every tracked path exactly once and nothing else |
| Scanner.ClampThreads | internal/core/scanner.go:145-151 | the worker count is within 1..16; an in-range setting is kept, and an out-of-range one goes to the nearer bound |
| Scanner.ParseExtensionsMembers | internal/core/scanner.go:565-575 | an extension is enabled exactly when some comma-separated entry, lower-cased and trimmed, equals it; a blank entry enables nothing |
| Scanner.NonBlankMembers | internal/core/scanner.go:568-573 | the map's keys are exactly the non-blank normalised entries |
| Scanner.JoinOpenListPathAsWritten | internal/core/scanner.go:577-599 | the joined path starts with exactly one '/'; parts that are all blank join to "/" |
| Scanner.JoinOpenListPath | internal/core/scanner.go:577-599 | the same as the join as written, with "0" skipped only as the first part |
| Scanner.JoinChild | internal/core/scanner.go:577-599 | joining a folder path and a plain child name appends the name as one more path element |
| Scanner.ZeroChildAsWritten | internal/core/scanner.go:581-583 | as written, a child named "0" joins back to its parent folder |
| Scanner.JoinsAgree | internal/core/scanner.go:577-599 | the corrected and the as-written join agree whenever no part after the first trims to "0" |
| Scanner.DottedJoinsAgree | internal/core/scanner.go:581-583 | a child name containing a '.' never trims to "0", so both joins give the same path |
| Scanner.ClassifiedMetaAgrees | internal/core/scanner.go:430-440 | for every file the scan does not ignore, the metadata identity is the same under the join as written |
| Scanner.RealIdentityAgrees | internal/core/scanner.go:469-473 | for a relative path with an extension, the OpenList identity the link carries is the same under the join as written |
| Scanner.StartFolder | internal/core/scanner.go:168-171 | an OpenList task configured with "" or "0" starts at "/"; any other setting is used as it is |
| Scanner.Classify | internal/core/scanner.go:431-442 | a file is a STRM source iff its extension key is enabled for STRM; it is a metadata file iff the key is enabled for metadata and not for STRM; otherwise it is ignored |
| Scanner.ExtensionKey | internal/core/scanner.go:431 | a name without a dot has the empty key, and no key contains '.' or '/' |
| Scanner.ExtensionKeyOf | internal/core/scanner.go:431 | the name "stem.ext" is looked up under ext lower-cased |
| Scanner.UndottedIgnored | internal/core/scanner.go:431-442 | a name without a dot is ignored, whatever the task's extension lists say |
| Scanner.StrmName | internal/core/scanner.go:449-450 | the .strm name ends in ".strm", and putting the original extension back in place of ".strm" gives back the file name |
| Scanner.StrmNameOf | internal/core/scanner.go:449-450 | "stem.ext" becomes "stem.strm" |
| Scanner.StrmBaseURL | internal/core/scanner.go:461-467 | the link base is never empty: one trailing '/' is dropped, and an empty result falls back to http://127.0.0.1:12398 |
| Scanner.RealIdentity | internal/core/scanner.go:469-474 | an OpenList file is identified by a rooted path; a 123Pan file by a decimal id, which parses back to the file id |
| Scanner.StreamLink | internal/core/scanner.go:478-516 | a link fails exactly when it must be signed and signing fails; it carries a signature iff the task encodes paths; its base is the account's base; its path starts with '/' and holds no '?' |
| Scanner.MetaIdentity | internal/core/scanner.go:435-440 | a metadata file of an OpenList account is fetched by its rooted path, a 123Pan one by its file id |
| Scanner.MetaIdentityChild | internal/core/scanner.go:435-440 | below a tidy OpenList folder, a metadata file is fetched by the folder path with its name appended as one more element |
| Scanner.FlushBatches | internal/core/scanner.go:254-272 | the batches hold the paths in order; no batch is empty or larger than 500, and every batch but the last holds exactly 500 |
| Scanner.FlattenMembers | internal/core/scanner.go:258-271 | a path is recorded iff it is in one of the batches |
| Scanner.RecordBatches | internal/core/scanner.go:247-275 | every tracked path is written exactly once and nothing else is; no batch exceeds 500; no transaction happens when nothing was tracked |
| Scanner.StaleIdsAppend | internal/core/scanner.go:285-316 | the rows selected over consecutive pages are those of each page, in order |
| Scanner.ScanPage | internal/core/scanner.go:299-309 | one page selects the ids of its rows whose path the scan did not produce, in row order |
| Scanner.SelectStale | internal/core/scanner.go:277-316 | paging by id, 1000 rows at a time, selects exactly what a single pass over all the history rows would |
| Scanner.StaleExactly | internal/core/scanner.go:299-309 | a history row is deleted iff the scan did not produce its path |
| Scanner.StaleOnlyFrom | internal/core/scanner.go:299-309 | an id above every listed row's id is never selected |
| Scanner.StaleFromRows | internal/core/scanner.go:299-309 | every selected id is the id of a listed row whose path the scan did not produce, so nothing else is deleted |
| StreamSign.Sign | internal/auth/jwt.go:134-165 | an empty secret fails, and so does a failed salt; a link has five ':'-separated fields that decode to the account, the expiry 24 h ahead, the HMAC of the payload, the identity and the salt |
| StreamSign.FieldsWithoutColon | internal/auth/jwt.go:164 | base64url, decimal and hex fields never contain the separator |
| StreamSign.Verify | internal/auth/jwt.go:168-209 | anything but five fields is a format error; an accepted link is unexpired, its account fits in 32 bits, and its signature is the HMAC of its own fields |
| StreamSign.VerifyFields | internal/auth/jwt.go:174-209 | an accepted link's first field decodes to its account id within 32 bits, its expiry parses and has not passed, its identity decodes, and its signature is the HMAC of those fields; an expired link is refused |
| StreamSign.VerifySign | internal/auth/jwt.go:134-209 | round trip: a signed link verifies to its account and identity until it expires |
| StreamSign.ValidUntilExpiry | internal/auth/jwt.go:189-191 | a signed link is valid exactly up to and including its expiry second |
| StreamSign.TamperedSignatureRejected | internal/auth/jwt.go:200-206 | replacing the signature field of a valid link makes it fail with a signature mismatch |
| Session.IssueClaims | internal/auth/jwt.go:80-88 | a session token names the user and the user's token version, and expires seven days after the second it was issued |
| Session.Login | internal/auth/jwt.go:57-78 | a missing field is refused; a session is issued iff the user exists and the password matches its hash |
| Session.FirstWord | internal/auth/jwt.go:98 | the token read is the longest run of non-space chars at the start |
| Session.BearerToken | internal/auth/jwt.go:97-98 | a token is read only after the literal "Bearer" and white space, and contains no white space |
| Session.BearerOfHeader | internal/auth/jwt.go:98 | "Bearer " followed by a token without white space is read back as that token |
| Session.Authenticate | internal/auth/jwt.go:90-131 | an empty header is refused as missing; a request is admitted iff its bearer token decodes, is unexpired, names an existing user and carries that user's current version; it is admitted as that user |
| Session.LoginAdmits | internal/auth/jwt.go:57-131 | a token issued at login admits its user until seven days after the login second, as long as the token version is unchanged |
| StreamHandler.IdentifierOf | internal/api/handlers/stream_handler.go:31-40 | a signed identity starting with '/' stays a path; one that parses as int64 becomes that number; anything else stays text |
| StreamHandler.Target | internal/api/handlers/stream_handler.go:22-82 | with a signature, the request names what the signature verifies to, or is refused with 403; without one, the answer is the unsigned one for the path's '/'-separated parts, cause by cause as PathTarget states it |
| StreamHandler.PathTarget | internal/api/handlers/stream_handler.go:41-81 | after one leading '/' is dropped and the rest split at '/': fewer than two parts is 400 "Invalid URL format"; a first part that is not a 32-bit decimal is 400 "Invalid Account ID"; an unknown account is 404 "Account not found"; an OpenList account gets the remaining parts rejoined and rooted; a 123Pan account gets the second part as a 64-bit file id, or 400 "Invalid File ID format for 123Pan" when it does not parse |
| StreamHandler.PartsTarget | internal/api/handlers/stream_handler.go:46-81 | the same answers, cause by cause, read from the parts of the path |
| StreamHandler.PanIgnoresRest | internal/api/handlers/stream_handler.go:72-80 | a 123Pan request reads only the account and the file id; parts after them change nothing, and it succeeds exactly when the file id parses |
| StreamHandler.Handle | internal/api/handlers/stream_handler.go:15-97 | the player is redirected iff the request names an existing account whose client resolves the identifier, and then to that address; every refusal is 400, 403, 404 or 500 |
| StreamHandler.Fetch | internal/api/handlers/stream_handler.go:84-97 | a missing account is 404, a resolution failure 500, and otherwise the redirect goes to the resolved address |
| StreamHandler.PanTarget | internal/api/handlers/stream_handler.go:43-81 | the unsigned path "/account/fileId/..." names that account and file id |
| StreamHandler.OpenListTarget | internal/api/handlers/stream_handler.go:64-71 | the unsigned path "/account" + a rooted path names that account and path |
| StreamHandler.DecodeEscaped | internal/core/scanner.go:488-493 | a link path escaped segment by segment decodes back to the path |
| StreamHandler.UnsignedPanLink | internal/core/scanner.go:504-516 | an unsigned 123Pan link, once decoded, names its account and file id |
| StreamHandler.UnsignedOpenListLink | internal/core/scanner.go:496-503 | an unsigned OpenList link, once decoded, names its account and the file's full path |
| StreamHandler.SignedLink | internal/core/scanner.go:478-494 | a signed link names its account and file through the signature until it expires |
| StreamHandler.SignedPathDecodes | internal/core/scanner.go:478-494 | the escaped path of a signed link decodes to the file's relative path, and a valid signature for the file's identity names the intended account and file |
| StreamHandler.LinkLeadsToFile | internal/api/handlers/stream_handler.go:15-97 | every link the scanner writes leads the player to the download address of the file it was written for, while its account exists and its signature is unexpired |
| CloudBrowser.ChildPath | internal/api/handlers/cloud_handler.go:112-119 | a child of "" or "/" is "/" + name; below a parent ending in '/' it is parent + name; below any other parent it is parent + "/" + name |
| CloudBrowser.ChildPathAgrees | internal/api/handlers/cloud_handler.go:59-60 | below a tidy folder, the handler's join and the scanner's corrected join both append the name |
| CloudBrowser.ZeroFolderDiffers | internal/api/handlers/cloud_handler.go:59-60 | a folder named "0" gets its own path from the handler, which the scanner's join as written does not give it |
| CloudBrowser.OpenListFile | internal/api/handlers/cloud_handler.go:59-69 | an OpenList entry is listed by its path, its name, and type 1 iff it is a folder |
| CloudBrowser.OpenListFiles | internal/api/handlers/cloud_handler.go:59-70 | the listing holds the entries one for one and in order |
| CloudBrowser.UntrashedMembers | internal/api/handlers/cloud_handler.go:72-99 | a 123Pan entry is listed iff it is on a page and not in the trash |
| CloudBrowser.Gather | internal/api/handlers/cloud_handler.go:72-99 | a failed page is a 500; a listing never offers a further page |
| CloudBrowser.PageOf | internal/api/handlers/cloud_handler.go:79-97 | a ListFiles error ends the listing with that error, and a page keeps its entries and the id to continue after |
| CloudBrowser.FirstPageDecides | internal/api/handlers/cloud_handler.go:79-97 | a first ListFiles page marked last is listed as its untrashed entries whatever would follow, and a failing first call is a 500 with the client's error |
| CloudBrowser.GatherMembers | internal/api/handlers/cloud_handler.go:72-99 | a listing is the untrashed entries of the pages read, page after page and each page in its own order (`Flattened`), and reading stops at the page marked last |
| CloudBrowser.Browse | internal/api/handlers/cloud_handler.go:21-109 | a missing account id is 400, an invalid one 400, an unknown one 404; an OpenList folder "" or "0" is the root, a listed folder gives its entries one for one and a failed listing a 500 with the client's error; a 123Pan folder gives whatever the paging loop `Gather` makes of its pages |
| OpenListClient.WithScheme | internal/openlist/client.go:40-44 | a non-empty address gets "http://" unless it already has http or https |
| OpenListClient.NormalizeBase | internal/openlist/client.go:40-44 | the kept address is trimmed, has a scheme unless blank, and ends without '/' |
| OpenListClient.NormalizeBaseStable | internal/openlist/client.go:40-44 | normalising an address that is already normalised changes nothing |
| OpenListClient.NewClient | internal/openlist/client.go:39-55 | the client keeps the account's normalised address and its trimmed token, user name and password |
| OpenListClient.Login | internal/openlist/client.go:118-161 | the login yields a token iff the answer's code is 200; a request that cannot be built returns its error bare, a failed send, an undecodable answer and another code each return their own prefixed text |
| OpenListClient.TokenExpiry | internal/openlist/client.go:94-104 | a new token expires at its own exp when that lies ahead, else a day from now |
| OpenListClient.GetToken | internal/openlist/client.go:58-116 | the static token wins; without it, user name and password are required; a token still usable five minutes ahead is reused; otherwise a login is made and only a successful one changes the cache |
| OpenListClient.TokenReused | internal/openlist/client.go:70-87 | a token obtained by logging in is reused until five minutes before it expires, and a new login is made after that |
| OpenListClient.Attempts | internal/openlist/client.go:179-222 | up to three attempts with 1 s and 2 s backoff; only transport and decode failures are retried; the number made is the one the outcomes determine; the result is the decoded answer of the last attempt, its request error, or the exhaustion error carrying the last reason |
| Retry.TriesFrom | internal/openlist/client.go:179-222 | the loop makes one more attempt after each outcome it retries, and stops at the first outcome it does not retry or after the third; the 123Pan loop (internal/pan123/client.go:172-228) counts the same way with its own retried outcomes |
| Retry.TriesExactly | internal/pan123/client.go:172-228 | n attempts are made exactly when all outcomes before the n-th are retried and the n-th is not, unless it is the third |
| OpenListClient.PostJSON | internal/openlist/client.go:163-222 | no address means no request; a token failure ends the call before any attempt; with a token, the call succeeds exactly when the final attempt decodes, with that answer, and otherwise fails with that attempt's request error or the exhaustion error; the answer is the reference `PostAnswer` |
| OpenListClient.ListPath | internal/openlist/client.go:226-231 | the directory asked for always starts with '/', and "" is the root |
| OpenListClient.ListDirectory | internal/openlist/client.go:225-249 | no address or no token is an error; with a token, a listing is returned exactly when the final attempt decodes with code 200, and it is that answer's content; any other code fails with the code and message; the answer is the reference `ListAnswer` |
| OpenListClient.GetRawURL | internal/openlist/client.go:252-276 | an empty path is refused before any request; with a token, a result is returned exactly when the final attempt decodes with code 200 and a non-empty raw_url, and it is that raw_url; another code and a missing raw_url each fail with their own text |
| OpenListClient.TestConnection | internal/openlist/client.go:278-284 | the account's cached token is dropped first, so a client with credentials logs in afresh; other accounts' tokens stay; the answer, error included, is the listing of "/" with that cache |
| Pan123Client.CleanupCache | internal/pan123/client.go:47-61 | a cache within 3000 pages is kept; otherwise only unexpired pages stay, and if those are still too many, none |
| Pan123Client.CleanupSettles | internal/pan123/client.go:47-61 | a second cleanup changes nothing |
| Pan123Client.Cached | internal/pan123/client.go:232-243 | a page is served from the cache iff the account caches and the entry has not expired |
| Pan123Client.Store | internal/pan123/client.go:271-279 | a fetched page is cached for the account's TTL in minutes, and nothing is stored without a positive TTL |
| Pan123Client.FetchToken | internal/pan123/client.go:112-143 | a token is obtained iff the answer's code is 0, it carries a token and its expiry parses |
| Pan123Client.GetAccessToken | internal/pan123/client.go:83-150 | a usable cached token is reused; otherwise the fetched token replaces it; the account always has an entry afterwards and other accounts are untouched |
| Pan123Client.ClearTokenCache | internal/pan123/client.go:152-159 | only the given account's token is dropped |
| Pan123Client.ClearedTokenFetched | internal/pan123/client.go:83-159 | after a clear the next request fetches a token, which is then reused until five minutes before it expires |
| Pan123Client.SendAuthorized | internal/pan123/client.go:162-228 | up to three attempts with 1 s and 2 s backoff and a 3 s pause after each 429; code 0 returns the data, any other code but 429 fails at once |
| Pan123Client.ListParams | internal/pan123/client.go:249-258 | the query always names the folder, limit, trashed 0 and ascending file-id order, and carries lastFileId iff it is positive |
| Pan123Client.ListFiles | internal/pan123/client.go:230-284 | a non-123Pan account lists nothing and reports -1; a cached page is served without a request; otherwise a token failure is an error, and with a token a page is returned exactly when the final attempt answers code 0 with decodable data, and it is that answer's fileList and lastFileId, which are stored |
| Pan123Client.AsFileInfo | internal/pan123/client.go:309-322 | an OpenList entry keeps its name and size, has id 0, is never trashed, and is a folder iff it was one |
| Pan123Client.AsFileInfos | internal/pan123/client.go:309-322 | the entries are converted one for one and in order |
| Pan123Client.ListOpenListDirectory | internal/pan123/client.go:286-334 | an account that is not an OpenList one fails; a cached listing is served; otherwise the server's entries are converted and cached |
| Pan123Client.OpenListListingCached | internal/pan123/client.go:286-334 | a fetched listing is served from the cache for its TTL, whatever the server would answer by then |
| Pan123Client.PanFileId | internal/pan123/client.go:344-364 | an int64 is used as it is, a string only when it parses as one, any other type is an error |
| Pan123Client.GetDownloadURL | internal/pan123/client.go:337-388 | an OpenList account needs a path and uses its raw URL; a 123Pan identifier must give a file id; with a token, an address is returned exactly when the final attempt answers code 0 with a non-empty downloadUrl, and it is that downloadUrl |
| Redirects.ScanScheme | internal/utils/network.go:28-31 | a scheme is a letter then letters, digits, '+', '-' or '.' up to a ':'; a leading ':' is a parse error |
| Redirects.Scheme | internal/utils/network.go:32-34 | a non-empty scheme starts with a letter and is followed by ':' |
| Redirects.NextURL | internal/utils/network.go:73-78 | a location starting with "http" is taken as it is; anything else is put below the current scheme and host |
| Redirects.Follow | internal/utils/network.go:47-86 | at most eleven requests; the eleven-request limit, a revisit, a request that cannot be made or sent, a non-redirect answer and a redirect without Location each end the loop with their own outcome and the address added to the chain; a result is the last address requested |
| Redirects.GetFinalURL | internal/utils/network.go:22-86 | an address without a scheme is refused before any request; the first request is the address itself; a result is the last address requested |
| Redirects.FollowAlong | internal/utils/network.go:47-79 | along distinct addresses each redirecting to the next, the loop reaches the last one with all the others requested |
| Redirects.ChainAnswered | internal/utils/network.go:68-84 | a chain of at most eleven distinct addresses, each redirecting to the next and the last answered without a redirect, gives the last address, with every address requested |
| Redirects.ChainWithoutLocation | internal/utils/network.go:68-72 | such a chain whose last answer is a redirect without a Location header fails with the invalid-location error |
| Redirects.FollowChain | internal/utils/network.go:47-79 | no address is requested twice, and each one after the first is where the previous one's redirect led |
| Redirects.LoopMeansRevisit | internal/utils/network.go:47-50 | the loop error lists the whole chain, and is raised only when the last address answered with a redirect whose target is already in the chain |
| Redirects.TwoCycle | internal/utils/network.go:47-50 | two addresses redirecting to each other fail with the loop error after both are requested |
| Redirects.Direct | internal/utils/network.go:81-84 | an address answered without a redirect is itself the result |
| Scheduler.Claim | internal/core/scheduler.go:66-75 | a task is started iff it is not registered, and is registered afterwards; a refused start changes nothing |
| Scheduler.Stop | internal/core/scheduler.go:78-84 | stopping cancels a registered task without unregistering it; an unknown id is ignored |
| Scheduler.Finish | internal/core/scanner.go:130-135 | a returning scan releases only its own id |
| Scheduler.Refresh | internal/core/scheduler.go:27-33 | every registered task is cancelled and the registry emptied |
| Scheduler.SingleRunner | internal/core/scheduler.go:47-52 | while a task is registered, no manual or scheduled start of it succeeds until its scan returns or a refresh |
| Scheduler.StoppedStillRunning | internal/core/scheduler.go:78-91 | a stopped task reports as running until its scan returns, and can then be started again |
| Limiter.Attempt | internal/auth/limiter.go:22-49 | a first attempt or one more than a minute after the window began starts a new window; otherwise the count goes up; a request passes iff the count is at most 5; other addresses are untouched |
| Limiter.WindowCap | internal/auth/limiter.go:35-48 | within one window no more than the remaining allowance of five is admitted, however the attempts are spaced |
| Limiter.FirstMinuteCap | internal/auth/limiter.go:28-48 | a new address gets at most five admissions in the minute after its first attempt |
| Limiter.OtherAddressesUntouched | internal/auth/limiter.go:28-40 | attempts from one address never change another address's window |
| Credentials.UpdateCredentials | internal/api/handlers/settings_handler.go:49-112 | no current password is 400 and a wrong one 401, both without change; after the password check the webhook is stored, then a taken new name is 409, mismatched new passwords 400, a failed hash 500, a failed save 500 with its error, a webhook-only request 200 "设置已更新"; the credentials change iff the name or password changes and every step succeeds, bumping the token version and leaving other users untouched |
| Credentials.CredentialChangeEndsSessions | internal/api/handlers/settings_handler.go:103-111 | after a credential change no token issued before it is admitted |
| Credentials.WebhookChangeKeepsSessions | internal/api/handlers/settings_handler.go:73-77 | a request that only changes the webhook leaves every session as it was |
| Credentials.Logout | internal/api/handlers/auth_handler.go:11-28 | logout always answers 200; it bumps the signed-in user's token version and leaves everyone else alone |
| Credentials.LogoutRevokes | internal/api/handlers/auth_handler.go:11-28 | the token used to sign out is no longer admitted, while other users' sessions stay |
| Router.Match | frontend/src/router/index.js:9-25 | the match is the first route of the table whose path equals the location's up to ASCII case and one trailing '/', or there is none |
| Router.Guard | frontend/src/router/index.js:27-34 | a redirect always goes to /login; with a token, or to a public page, navigation proceeds |
| Router.OnlyLoginPublic | frontend/src/router/index.js:12 | a path is public exactly when it matches "/login" up to ASCII case and one trailing '/' |
| Router.LoginVariants | frontend/src/router/index.js:12 | "/login/", "/LOGIN" and "/Login/" resolve to the public login route |
| Router.LoginNearMisses | frontend/src/router/index.js:12 | "/login//" and "/logins" are not public |
| Router.RedirectSettles | frontend/src/router/index.js:27-34 | without a token every path that does not match the login route redirects to /login, and the login route itself is let through |
| ApiClient.WithAuthorization | frontend/src/api/index.js:12-18 | a stored token is sent as "Bearer <token>"; without one the headers are unchanged |
| ApiClient.HeaderCarriesToken | frontend/src/api/index.js:15 | the server's middleware reads the header the client sets as the stored token |
| ApiClient.ServerText | frontend/src/api/index.js:34 | the message shown is the body's message, else its error, else axios's own message |
| ApiClient.OnRejected | frontend/src/api/index.js:22-38 | exactly one toast, the timeout text for a timeout; the error is passed on; a 401 away from the login page clears the token and goes to /login, and nothing else does |
| ApiClient.SignedOutAfter401 | frontend/src/api/index.js:23-28 | after a 401 the next requests carry no token, and every path that does not match the login route leads back to /login |
| GlobalStore.Init | frontend/src/store/global.js:5-10 | the title is the saved one or "CloudStream", the theme is dark unless "light" was saved, and the document shows the title |
| GlobalStore.ToggleTheme | frontend/src/store/global.js:12-15 | the theme flips and the new theme is saved |
| GlobalStore.SetSiteTitle | frontend/src/store/global.js:17-22 | state, storage and document take the title as given |
| GlobalStore.ToggleTwice | frontend/src/store/global.js:12-15 | two toggles give back the theme |
| GlobalStore.ThemeSurvivesReload | frontend/src/store/global.js:10-14 | a reloaded store shows the theme last toggled to |
| GlobalStore.TitleSurvivesReload | frontend/src/store/global.js:6-7 | a reloaded store shows the title last set, except that a blank one shows as "CloudStream" |
| Decimal.ParseUint | internal/api/handlers/stream_handler.go:51 | a value is read iff the text is non-empty decimal digits within the width; a range error falls back to the maximum, a syntax error to 0 |
| Decimal.ParseUintFormat | internal/auth/jwt.go:140 | a formatted account id parses back to itself |
| Decimal.ParseIntFormat | internal/core/scanner.go:473 | a formatted int64 parses back to itself |
| Base64Url.DecodeEncode | internal/auth/jwt.go:141 | decoding what was encoded gives back the bytes |
| Hex.EncodeInjective | internal/auth/jwt.go:161 | different digests have different hex texts |
| UrlEscape.UnescapeEscape | internal/core/scanner.go:488-493 | decoding a path escaped segment by segment gives back the path |
| GoPath.CleanRootedPlain | internal/core/scanner.go:595 | cleaning a rooted path of plain names leaves it as it is |
| Text.JoinSplit | internal/api/handlers/stream_handler.go:44-66 | joining the parts of a split gives back the text |
| Text.SplitJoin | internal/auth/jwt.go:164-169 | splitting a join of parts without the separator gives back the parts |

## Left out

- Concurrency: the mutexes, the worker pool and the ticker of a scan are not modelled.
- The directory walk of a scan is not modelled. This includes its own 429 retry (internal/core/scanner.go:344-402) and the folder-id bookkeeping.
- File-system effects are not modelled: writing .strm files, downloading metadata files, removing files and empty directories, and reading logs.
- The notifier and the webhook test handler send HTTP messages only and are not modelled.
- The logger is not modelled.
- The cron scheduler (gocron) is not modelled. A scheduled firing is an event of `Scheduler.Replay`.
- internal/core/scanner.go:122-123 and internal/core/scheduler.go:13-17 both declare `taskMutex` and `runningTasks` in package core, with different value types. The model reads them as the one registry that scheduler.go describes. `Scheduler.Finish` is the release at internal/core/scanner.go:130-135.
- bcrypt, AES (internal/utils/crypto.go), HMAC-SHA256 and the JWT library are parameters. They are not definitions.
- The `version` claim is a float64 in the JWT library; the model keeps it as an integer.
- `time.Parse` of 123Pan's expiredAt field is a parameter, in either layout (`TokenOutcome.expiry`).
- Pan123Client.FetchToken: an expiry that does not parse gives "解析 Token 过期时间失败" without the ": " and time.Parse's own error text that the source appends, because time.Parse is a parameter that only says whether the text parses.
- JSON encoding and decoding are parameters. Each answer arrives decoded, or as the decode error.
- `url.Parse` is modelled only as far as the redirect loop reads it: the scheme and the host.
- `GetFinalURL` re-serialises the parsed address (`url.URL.String()`). The model uses the address as given.
- `resp.Location()` is taken as the location the server's answer yields. Its resolution against the request URL happens inside that parameter.
- The User-Agent header and the timeouts are not modelled.
- Unicode white space, case folding and UTF-8 validity are not modelled. Chars are bytes.
- `fmt.Sscanf` is modelled only for the one format the middleware uses.
- `CloudBrowser.Gather` yields None when the recorded 123Pan answers end before a last page. The handler would go on asking the server.
- Pan123Client: the asynchronous cleanup that `NewClient` starts is not modelled (internal/pan123/client.go:69-81). `Pan123Client.CleanupCache` is the cleanup itself.
- OpenList: the nil-client check is not modelled, because an OpenList account always has a client.
- Router.Match: vue-router picks among matching routes by a score rather than by table order. No two paths of this table match the same location, so the two agree. The location's path is taken as vue-router has already decoded it.
- The Vue views, and the axios progress and toast widgets, are not modelled. A toast is the text it shows.
- The account, task and settings CRUD handlers only store what they receive, and are not modelled.
- The web client's code differs from its written description in three places, and the model follows the code:
  - `setSiteTitle` accepts a blank title;
  - the fallback text "未知错误" is always overwritten before it is shown;
  - a 401 while on a login path leaves the token in place.
- The request timeout is 60000 ms, as written in frontend/src/api/index.js:9.

## Findings

| source | as written | input that shows it | evidently intended | confidence | as-written member | corrected member |
|---|---|---|---|---|---|---|
| internal/core/scanner.go:581-583 | joinOpenListPath skips a part that trims to "0" at every position, not only the first | `joinOpenListPath("/Movies", "0")` returns "/Movies", so at scanner.go:401 the walk descends into an OpenList folder named "0" with its parent's path. It lists the parent again instead of the folder, meets "0" again and descends once more, so it never reaches the folder's own files and the recursion has no end of its own (only the local path grows by "0" each time). | "0" stands for the 123Pan root id only as the first part; a later part "0" is a real name | not executed | Scanner.ZeroChildAsWritten | Scanner.JoinChild |

=== FILE: cloud_browser.dfy ===
/** The folder picker's back end (internal/api/handlers/cloud_handler.go,
    FileBrowserHandler): one folder of either storage back end, listed as
    id, name and type. The database becomes a map from account id to
    account; the back ends' answers are parameters. */
module CloudBrowser {
  import opened Results
  import opened Text
  import opened GoPath
  import opened Decimal
  import opened Models
  import opened Scanner

  /** One entry of the answer; for OpenList the id is the entry's path. */
  datatype CloudFile = CloudFile(fileId: string, fileName: string, kind: int)

  /** The JSON reply: the entries and the id to continue after, or a status
      with a message. */
  datatype BrowseReply = Listing(files: seq<CloudFile>, lastFileId: int) | Failure(status: int, message: string)

  /** The whole folder is always listed at once, so there is never a page
      to continue with. */
  const NoMorePages: int := -1

  /** The handler's own path join: a child of the root, or of a folder with
      or without a trailing '/'. */
  function ChildPath(parent: string, name: string): (r: string)
    ensures HasSuffix(r, name)
    ensures parent == "" || parent == "/" ==> r == "/" + name
    ensures parent != "" && parent != "/" ==> HasPrefix(r, parent) && |r| <= |parent| + 1 + |name|
    ensures parent != "/" && HasSuffix(parent, "/") ==> r == parent + name
    ensures parent != "" && !HasSuffix(parent, "/") ==> r == parent + "/" + name
  {
    if parent == "" || parent == "/" then "/" + name
    else if HasSuffix(parent, "/") then parent + name
    else parent + "/" + name
  }

  /** A rooted path of tidy names does not end in '/' unless it is the root. */
  lemma RootedEnd(segs: seq<string>)
    requires TidyNames(segs) && |segs| > 0
    ensures !HasSuffix(Rooted(segs), "/") && Rooted(segs) != ""
  {
    var last := segs[|segs| - 1];
    JoinLastChar(segs, '/');
    var p := Rooted(segs);
    assert p[|p| - 1] == last[|last| - 1];
    assert last[|last| - 1] in last;
  }

  lemma ChildPathRooted(segs: seq<string>, name: string)
    requires TidyNames(segs) && TidyName(name)
    ensures ChildPath(Rooted(segs), name) == Rooted(segs + [name])
  {
    if |segs| == 0 {
      assert Rooted(segs) == "/";
      assert segs + [name] == [name];
    } else {
      RootedEnd(segs);
      JoinSnoc(segs, name, '/');
    }
  }

  /** Below a tidy folder path, the handler's join and the scanner's
      corrected join agree: both append the name as one more element. */
  lemma ChildPathAgrees(segs: seq<string>, name: string)
    requires TidyNames(segs) && TidyName(name)
    ensures ChildPath(Rooted(segs), name) == Rooted(segs + [name])
    ensures ChildPath(Rooted(segs), name) == JoinOpenListPath([Rooted(segs), name])
  {
    JoinChild(segs, name);
    ChildPathRooted(segs, name);
  }

  /** A folder named "0" is listed under its own path by the handler, while
      the scanner's join as written maps it back onto its parent. */
  lemma ZeroFolderDiffers(segs: seq<string>)
    requires TidyNames(segs)
    ensures ChildPath(Rooted(segs), "0") != JoinOpenListPathAsWritten([Rooted(segs), "0"])
    ensures ChildPath(Rooted(segs), "0") == JoinOpenListPath([Rooted(segs), "0"])
  {
    assert TidyName("0");
    ChildPathAgrees(segs, "0");
    ZeroChildAsWritten(segs);
    assert |Rooted(segs + ["0"])| > |Rooted(segs)| by {
      if |segs| > 0 {
        JoinSnoc(segs, "0", '/');
      }
    }
  }

  /** What strconv.ParseInt returns whether or not it also reports an
      error: the value, 0 for bad syntax, the nearest bound when out of
      range. */
  function ValueOrFallback(p: Parsed): int {
    match p
    case Valid(n) => n
    case Invalid(fallback, _) => fallback
  }

  /** One OpenList entry below `parent`: its path is the id, and the type
      is 1 for a folder and 0 for a file. */
  function OpenListFile(parent: string, item: OpenListEntry): (c: CloudFile)
    ensures c.fileName == item.name && c.fileId == ChildPath(parent, item.name)
    ensures c.kind == 1 <==> item.isDir
    ensures c.kind == 0 <==> !item.isDir
  {
    CloudFile(ChildPath(parent, item.name), item.name, if item.isDir then 1 else 0)
  }

  /** OpenList entries as the handler reports them below `parent`, one for
      one and in order. */
  function OpenListFiles(parent: string, items: seq<OpenListEntry>): (r: seq<CloudFile>)
    ensures |r| == |items|
    ensures forall i :: 0 <= i < |items| ==> r[i] == OpenListFile(parent, items[i])
  {
    if |items| == 0 then []
    else [OpenListFile(parent, items[0])] + OpenListFiles(parent, items[1..])
  }

  function PanFile(f: FileInfo): CloudFile {
    CloudFile(FormatInt(f.fileId), f.fileName, f.fileType)
  }

  /** The untrashed entries of one 123Pan page, in order. */
  function Untrashed(files: seq<FileInfo>): (r: seq<CloudFile>)
    ensures |r| <= |files|
  {
    if |files| == 0 then []
    else (if files[0].trashed == 0 then [PanFile(files[0])] else []) + Untrashed(files[1..])
  }

  lemma {:induction false} UntrashedMembers(files: seq<FileInfo>, c: CloudFile)
    ensures c in Untrashed(files) <==> exists i :: 0 <= i < |files| && files[i].trashed == 0 && PanFile(files[i]) == c
    decreases |files|
  {
    if |files| > 0 {
      UntrashedMembers(files[1..], c);
      if c in Untrashed(files[1..]) {
        var i :| 0 <= i < |files[1..]| && files[1..][i].trashed == 0 && PanFile(files[1..][i]) == c;
        assert files[i + 1] == files[1..][i];
      }
      if exists i :: 0 <= i < |files| && files[i].trashed == 0 && PanFile(files[i]) == c {
        var i :| 0 <= i < |files| && files[i].trashed == 0 && PanFile(files[i]) == c;
        if i > 0 {
          assert files[1..][i - 1] == files[i];
        }
      }
    }
  }

  /** One answer of the 123Pan listing call: a page and the id to continue
      after (-1 on the last page), or a failure. */
  datatype PageAnswer = Page(files: seq<FileInfo>, next: int) | PageFailed(reason: string)

  /** How the handler reads one ListFiles result: an error ends the
      listing, and a page carries its entries and the id to continue after. */
  function PageOf(r: Result<(seq<FileInfo>, int), string>): (a: PageAnswer)
    ensures a.PageFailed? <==> r.Err?
    ensures r.Err? ==> a.reason == r.error
    ensures r.Ok? ==> a.files == r.value.0 && a.next == r.value.1
  {
    match r
    case Err(e) => PageFailed(e)
    case Ok((files, next)) => Page(files, next)
  }

  /** The paging loop over the successive answers of the listing call, each
      requested after the previous page's `next`; None when the answers end
      before the last page. */
  function Gather(answers: seq<PageAnswer>): (r: Option<BrowseReply>)
    ensures r.Some? && r.value.Failure? ==> r.value.status == 500
    ensures r.Some? && r.value.Listing? ==> r.value.lastFileId == NoMorePages
    decreases |answers|
  {
    if |answers| == 0 then None
    else match answers[0]
      case PageFailed(reason) => Some(Failure(500, "获取文件列表失败: " + reason))
      case Page(files, next) =>
        if next == -1 then Some(Listing(Untrashed(files), NoMorePages))
        else match Gather(answers[1..])
          case Some(Listing(rest, _)) => Some(Listing(Untrashed(files) + rest, NoMorePages))
          case other => other
  }

  /** The number of answers the loop consumes: up to and including the
      first failure or last page. */
  function Consumed(answers: seq<PageAnswer>): (n: nat)
    ensures n <= |answers|
    decreases |answers|
  {
    if |answers| == 0 then 0
    else if answers[0].PageFailed? || answers[0].next == -1 then 1
    else 1 + Consumed(answers[1..])
  }

  /** The untrashed entries of the first `n` pages, page after page and
      each page in its own order. */
  function Flattened(answers: seq<PageAnswer>, n: nat): seq<CloudFile>
    requires n <= |answers| && forall i :: 0 <= i < n ==> answers[i].Page?
    decreases n
  {
    if n == 0 then [] else Untrashed(answers[0].files) + Flattened(answers[1..], n - 1)
  }

  /** A listing holds exactly the untrashed entries of the pages read, in
      page order and each page in its own order, and no page after the
      last one is read. */
  lemma {:induction false} GatherMembers(answers: seq<PageAnswer>, c: CloudFile)
    requires Gather(answers).Some? && Gather(answers).value.Listing?
    ensures c in Gather(answers).value.files <==>
      exists i :: 0 <= i < Consumed(answers) && answers[i].Page? && c in Untrashed(answers[i].files)
    ensures forall i :: 0 <= i < Consumed(answers) ==> answers[i].Page?
    ensures Consumed(answers) > 0 && answers[Consumed(answers) - 1].next == -1
    ensures Gather(answers).value.files == Flattened(answers, Consumed(answers))
    decreases |answers|
  {
    if answers[0].next != -1 {
      GatherMembers(answers[1..], c);
      var rest := Gather(answers[1..]).value.files;
      assert Gather(answers).value.files == Untrashed(answers[0].files) + rest;
      PagesShift(answers, Consumed(answers[1..]), rest, c);
    }
  }

  /** The pages read after the first one, seen from the whole sequence of
      answers: everything shifts by one. */
  lemma PagesShift(answers: seq<PageAnswer>, n: nat, rest: seq<CloudFile>, c: CloudFile)
    requires 0 < n < |answers| && answers[0].Page?
    requires c in rest <==> exists i :: 0 <= i < n && answers[1..][i].Page? && c in Untrashed(answers[1..][i].files)
    requires forall i :: 0 <= i < n ==> answers[1..][i].Page?
    ensures c in Untrashed(answers[0].files) + rest <==>
      exists i :: 0 <= i < n + 1 && answers[i].Page? && c in Untrashed(answers[i].files)
    ensures forall i :: 0 <= i < n + 1 ==> answers[i].Page?
    ensures answers[n] == answers[1..][n - 1]
  {
    assert forall i :: 0 < i <= n ==> answers[i] == answers[1..][i - 1];
    if c in rest {
      var i :| 0 <= i < n && answers[1..][i].Page? && c in Untrashed(answers[1..][i].files);
      assert answers[i + 1] == answers[1..][i];
    }
  }

  const PageLimit: int := 100

  /** A folder whose first ListFiles page is marked last is listed as that
      page's untrashed entries; a failing first call is a 500. */
  lemma FirstPageDecides(first: Result<(seq<FileInfo>, int), string>, rest: seq<PageAnswer>)
    ensures first.Ok? && first.value.1 == -1 ==>
      Gather([PageOf(first)] + rest) == Some(Listing(Untrashed(first.value.0), NoMorePages))
    ensures first.Err? ==>
      Gather([PageOf(first)] + rest) == Some(Failure(500, "获取文件列表失败: " + first.error))
  {
    assert ([PageOf(first)] + rest)[0] == PageOf(first);
  }

  /** FileBrowserHandler. `list` is the OpenList client's ListDirectory for
      a path; `pages` the 123Pan client's successive ListFiles results for a
      folder id, each read through PageOf (requested PageLimit at a time). None when the 123Pan
      answers end before a last page. */
  function Browse(accountId: string, parent: string, accounts: map<nat, Account>,
                  list: string -> Result<seq<OpenListEntry>, string>,
                  pages: int -> seq<PageAnswer>): (r: Option<BrowseReply>)
    ensures accountId == "" ==> r == Some(Failure(400, "请求必须包含 accountId"))
    ensures accountId != "" && ParseUint(accountId, W32).Invalid? ==> r == Some(Failure(400, "无效的账户ID"))
    ensures ParseUint(accountId, W32).Valid? && ParseUint(accountId, W32).n !in accounts ==>
      r == Some(Failure(404, "找不到指定的云账户"))
    ensures r.Some? && r.value.Listing? ==>
      && r.value.lastFileId == NoMorePages
      && ParseUint(accountId, W32).Valid?
      && ParseUint(accountId, W32).n in accounts
    ensures (ParseUint(accountId, W32).Valid? && ParseUint(accountId, W32).n in accounts
             && accounts[ParseUint(accountId, W32).n].kind == OpenList) ==>
      var dir := if parent == "" || parent == "0" then "/" else parent;
      && (list(dir).Ok? ==> r == Some(Listing(OpenListFiles(dir, list(dir).value), NoMorePages)))
      && (list(dir).Err? ==> r == Some(Failure(500, "获取 OpenList 文件列表失败: " + list(dir).error)))
    ensures (ParseUint(accountId, W32).Valid? && ParseUint(accountId, W32).n in accounts
             && accounts[ParseUint(accountId, W32).n].kind != OpenList) ==>
      r == Gather(pages(ValueOrFallback(ParseInt64(parent))))
    ensures r.Some? && r.value.Listing? && accounts[ParseUint(accountId, W32).n].kind == OpenList ==>
      var dir := if parent == "" || parent == "0" then "/" else parent;
      list(dir).Ok? && r.value.files == OpenListFiles(dir, list(dir).value)
    ensures r.Some? && r.value.Listing? && accounts[ParseUint(accountId, W32).n].kind != OpenList ==>
      r == Gather(pages(ValueOrFallback(ParseInt64(parent))))
    ensures r.None? ==> accounts[ParseUint(accountId, W32).n].kind != OpenList
  {
    if accountId == "" then
      assert ParseUint(accountId, W32).Invalid?;
      Some(Failure(400, "请求必须包含 accountId"))
    else match ParseUint(accountId, W32)
      case Invalid(_, _) => Some(Failure(400, "无效的账户ID"))
      case Valid(id) =>
        if id !in accounts then Some(Failure(404, "找不到指定的云账户"))
        else if accounts[id].kind == OpenList then
          var dir := if parent == "" || parent == "0" then "/" else parent;
          match list(dir)
          case Err(e) => Some(Failure(500, "获取 OpenList 文件列表失败: " + e))
          case Ok(items) => Some(Listing(OpenListFiles(dir, items), NoMorePages))
        else Gather(pages(ValueOrFallback(ParseInt64(parent))))
  }
}

=== FILE: credentials.dfy ===
/** Changing the administrator's credentials and signing out
    (internal/api/handlers/settings_handler.go, UpdateCredentialsHandler, and
    internal/api/handlers/auth_handler.go, LogoutHandler). Both end existing
    sessions by moving the user's TokenVersion on. The user table is a map
    from user name to row. */
module Credentials {
  import opened Results
  import opened Models
  import opened Session

  /** HTTP status, the body's `code`, and its `message`. */
  datatype Reply = Reply(status: int, code: int, message: string)

  const CredentialsUpdated: string := "凭证更新成功，请重新登录"
  const SettingsUpdated: string := "设置已更新"

  datatype CredentialsRequest = CredentialsRequest(
    newUsername: string,
    currentPassword: string,
    newPassword: string,
    confirmPassword: string,
    webhookURL: string)

  /** Every row is filed under its own user name. */
  predicate Keyed(users: map<string, User>) {
    forall k :: k in users ==> users[k].username == k
  }

  /** The current password was given and matches the signed-in user's. */
  predicate Confirmed(users: map<string, User>, current: string, req: CredentialsRequest, check: (string, string) -> bool) {
    req.currentPassword != "" && current in users && check(req.currentPassword, users[current].passwordHash)
  }

  /** The request asks for a user name other than the current one. */
  predicate Renames(current: string, req: CredentialsRequest) {
    req.newUsername != "" && req.newUsername != current
  }

  /** The table with only the signed-in user's webhook address replaced. */
  function Webhooked(users: map<string, User>, current: string, req: CredentialsRequest): map<string, User>
    requires current in users
  {
    users[current := users[current].(webhookURL := req.webhookURL)]
  }

  /** UpdateCredentialsHandler for the signed-in user `current`. `check` is
      bcrypt's password comparison, `hash` bcrypt's hashing (None when it
      fails), `saveError` the database's answer to the final save. The
      webhook address is stored as soon as the current password is
      confirmed, even when a later step refuses the request. */
  function UpdateCredentials(users: map<string, User>, current: string, req: CredentialsRequest,
                             check: (string, string) -> bool, hash: string -> Option<string>,
                             saveError: Option<string>): (r: (map<string, User>, Reply))
    requires Keyed(users)
    ensures Keyed(r.0)
    ensures req.currentPassword == "" ==> r == (users, Reply(400, 1, "参数错误"))
    ensures r.1.status == 401 <==>
      req.currentPassword != "" && (current !in users || !check(req.currentPassword, users[current].passwordHash))
    ensures r.1.status == 401 ==> r.0 == users
    ensures r.1.status != 400 && r.1.status != 401 ==>
      current in users && exists k :: k in r.0 && r.0[k].webhookURL == req.webhookURL
    ensures forall k :: k in users && k != current ==> k in r.0 && r.0[k] == users[k]
    ensures (req.currentPassword != "" && r.1.status != 401 && r.1.message != CredentialsUpdated) ==>
      current in users && r.0 == users[current := users[current].(webhookURL := req.webhookURL)]
    ensures r.1.message == CredentialsUpdated <==>
      && req.currentPassword != "" && current in users && check(req.currentPassword, users[current].passwordHash)
      && ((req.newUsername != "" && req.newUsername != current) || req.newPassword != "")
      && !(req.newUsername != "" && req.newUsername != current && req.newUsername in users)
      && (req.newPassword != "" ==> req.newPassword == req.confirmPassword && hash(req.newPassword).Some?)
      && saveError.None?
    ensures Confirmed(users, current, req, check) && Renames(current, req) && req.newUsername in users ==>
      r == (Webhooked(users, current, req), Reply(409, 1, "新用户名已被占用"))
    ensures (Confirmed(users, current, req, check) && !(Renames(current, req) && req.newUsername in users)
             && req.newPassword != "" && req.newPassword != req.confirmPassword) ==>
      r == (Webhooked(users, current, req), Reply(400, 1, "两次输入的新密码不一致"))
    ensures (Confirmed(users, current, req, check) && !(Renames(current, req) && req.newUsername in users)
             && req.newPassword != "" && req.newPassword == req.confirmPassword && hash(req.newPassword).None?) ==>
      r == (Webhooked(users, current, req), Reply(500, 1, "密码加密失败"))
    ensures Confirmed(users, current, req, check) && !Renames(current, req) && req.newPassword == "" ==>
      r == (Webhooked(users, current, req), Reply(200, 0, SettingsUpdated))
    ensures (Confirmed(users, current, req, check) && !(Renames(current, req) && req.newUsername in users)
             && (req.newPassword != "" ==> req.newPassword == req.confirmPassword && hash(req.newPassword).Some?)
             && (Renames(current, req) || req.newPassword != "") && saveError.Some?) ==>
      r == (Webhooked(users, current, req), Reply(500, 1, "更新凭证失败: " + saveError.value))
    ensures r.1.message == CredentialsUpdated ==> r.1 == Reply(200, 0, CredentialsUpdated)
    ensures r.1.message == CredentialsUpdated ==>
      var name := if req.newUsername != "" then req.newUsername else current;
      && name in r.0
      && r.0[name].tokenVersion == users[current].tokenVersion + 1
      && (name != current ==> current !in r.0)
      && (req.newPassword != "" ==> r.0[name].passwordHash == hash(req.newPassword).value)
      && (req.newPassword == "" ==> r.0[name].passwordHash == users[current].passwordHash)
  {
    if req.currentPassword == "" then (users, Reply(400, 1, "参数错误"))
    else if current !in users || !check(req.currentPassword, users[current].passwordHash) then
      (users, Reply(401, 1, "当前密码不正确"))
    else
      var u := users[current];
      var u1 := if req.webhookURL != u.webhookURL then u.(webhookURL := req.webhookURL) else u;
      var saved := users[current := u1];
      assert saved[current].webhookURL == req.webhookURL;
      var renamed := req.newUsername != "" && req.newUsername != u1.username;
      if renamed && req.newUsername in users then (saved, Reply(409, 1, "新用户名已被占用"))
      else
        var u2 := if renamed then u1.(username := req.newUsername) else u1;
        if req.newPassword != "" && req.newPassword != req.confirmPassword then
          (saved, Reply(400, 1, "两次输入的新密码不一致"))
        else if req.newPassword != "" && hash(req.newPassword).None? then
          (saved, Reply(500, 1, "密码加密失败"))
        else
          var u3 := if req.newPassword != "" then u2.(passwordHash := hash(req.newPassword).value) else u2;
          var changed := renamed || req.newPassword != "";
          if !changed then (saved, Reply(200, 0, SettingsUpdated))
          else if saveError.Some? then
            var message := "更新凭证失败: " + saveError.value;
            assert message[0] != CredentialsUpdated[0];
            (saved, Reply(500, 1, message))
          else
            var u4 := u3.(tokenVersion := u3.tokenVersion + 1);
            var after := (saved - {current})[u4.username := u4];
            assert after[u4.username].webhookURL == req.webhookURL;
            (after, Reply(200, 0, CredentialsUpdated))
  }

  /** After a successful credential change no token of the previous
      credentials is admitted any more: it names a user that is gone or
      carries a version that is behind. */
  lemma CredentialChangeEndsSessions(users: map<string, User>, current: string, req: CredentialsRequest,
                                     check: (string, string) -> bool, hash: string -> Option<string>,
                                     saveError: Option<string>,
                                     header: string, decode: string -> Option<Claims>, now: int)
    requires Keyed(users)
    requires Authenticate(header, decode, now, users) == Ok(current)
    requires UpdateCredentials(users, current, req, check, hash, saveError).1.message == CredentialsUpdated
    ensures Authenticate(header, decode, now, UpdateCredentials(users, current, req, check, hash, saveError).0).Err?
  {
    var after := UpdateCredentials(users, current, req, check, hash, saveError).0;
    var c := decode(BearerToken(header)).value;
    assert c.username == current && c.version == users[current].tokenVersion;
    if current in after {
      assert after[current].tokenVersion == users[current].tokenVersion + 1;
    }
  }

  /** A request that only touches the webhook address leaves every session
      as it was. */
  lemma WebhookChangeKeepsSessions(users: map<string, User>, current: string, req: CredentialsRequest,
                                   check: (string, string) -> bool, hash: string -> Option<string>,
                                   saveError: Option<string>,
                                   header: string, decode: string -> Option<Claims>, now: int)
    requires Keyed(users)
    requires req.newUsername == "" || req.newUsername == current
    requires req.newPassword == ""
    ensures Authenticate(header, decode, now, UpdateCredentials(users, current, req, check, hash, saveError).0)
      == Authenticate(header, decode, now, users)
  {
    var after := UpdateCredentials(users, current, req, check, hash, saveError).0;
    assert after.Keys == users.Keys;
    assert forall k :: k in after ==> after[k].tokenVersion == users[k].tokenVersion;
  }

  /** LogoutHandler for the user name the middleware recorded, if any. */
  function Logout(users: map<string, User>, signedIn: Option<string>): (r: (map<string, User>, Reply))
    ensures r.1.status == 200 && r.1.code == 0
    ensures r.0.Keys == users.Keys
    ensures forall k :: k in users && Some(k) != signedIn ==> r.0[k] == users[k]
    ensures signedIn.Some? && signedIn.value in users ==>
      && r.0[signedIn.value] == users[signedIn.value].(tokenVersion := users[signedIn.value].tokenVersion + 1)
      && r.1.message == "安全退出成功"
    ensures signedIn.None? || signedIn.value !in users ==> r.0 == users
  {
    match signedIn
    case None => (users, Reply(200, 0, "未登录"))
    case Some(name) =>
      if name !in users then (users, Reply(200, 0, "用户不存在"))
      else
        var u := users[name];
        (users[name := u.(tokenVersion := u.tokenVersion + 1)], Reply(200, 0, "安全退出成功"))
  }

  /** Signing out revokes the token used to sign out, and leaves the other
      users' sessions alone. */
  lemma LogoutRevokes(users: map<string, User>, header: string, other: string,
                      decode: string -> Option<Claims>, now: int)
    requires Authenticate(header, decode, now, users).Ok?
    ensures var name := Authenticate(header, decode, now, users).value;
      Authenticate(header, decode, now, Logout(users, Some(name)).0) == Err(RevokedToken)
    ensures var name := Authenticate(header, decode, now, users).value;
      Authenticate(other, decode, now, users).Ok? && Authenticate(other, decode, now, users).value != name
      ==> Authenticate(other, decode, now, Logout(users, Some(name)).0) == Authenticate(other, decode, now, users)
  {
  }
}

=== FILE: decimal.dfy ===
/** Base-10 integer text as Go's strconv reads and writes it:
    FormatUint/FormatInt and ParseUint/ParseInt with base 10. */
module Decimal {

  datatype NumError = ErrSyntax | ErrRange

  /** What strconv returns: a valid number, or an error together with the
      value strconv hands back beside it (0 on a syntax error, the clamped
      bound on a range error). */
  datatype Parsed = Valid(n: int) | Invalid(fallback: int, reason: NumError)

  /** The bit sizes the service passes to strconv. */
  datatype Width = W32 | W64

  const MaxUint32: nat := 0xFFFF_FFFF
  const MaxUint64: nat := 0xFFFF_FFFF_FFFF_FFFF
  /** 2^63: one past the largest int64, and the magnitude of the smallest. */
  const Int64Bound: int := 0x8000_0000_0000_0000

  function MaxUint(w: Width): nat {
    match w
    case W32 => MaxUint32
    case W64 => MaxUint64
  }

  predicate InInt64(i: int) {
    -Int64Bound <= i < Int64Bound
  }

  predicate IsDigit(c: char) {
    '0' <= c <= '9'
  }

  predicate AllDigits(s: string) {
    forall i :: 0 <= i < |s| ==> IsDigit(s[i])
  }

  function DigitValue(c: char): nat
    requires IsDigit(c)
  {
    c as int - '0' as int
  }

  function DigitChar(d: nat): (c: char)
    requires d < 10
    ensures IsDigit(c) && DigitValue(c) == d
  {
    (d + '0' as int) as char
  }

  /** The number a digit string denotes, read left to right after `acc`. */
  function ValueFrom(acc: nat, s: string): nat
    requires AllDigits(s)
    decreases |s|
  {
    if |s| == 0 then acc else ValueFrom(acc * 10 + DigitValue(s[0]), s[1..])
  }

  /** The digit loop of strconv.ParseUint: a non-digit is a syntax error and
      passing maxVal a range error, whichever the scan meets first. */
  function ScanDigits(s: string, acc: nat, maxVal: nat): Parsed {
    if |s| == 0 then Valid(acc)
    else if !IsDigit(s[0]) then Invalid(0, ErrSyntax)
    else if acc * 10 + DigitValue(s[0]) > maxVal then Invalid(maxVal, ErrRange)
    else ScanDigits(s[1..], acc * 10 + DigitValue(s[0]), maxVal)
  }

  lemma {:induction false} ValueFromGrows(acc: nat, s: string)
    requires AllDigits(s)
    ensures ValueFrom(acc, s) >= acc
    decreases |s|
  {
    if |s| > 0 {
      ValueFromGrows(acc * 10 + DigitValue(s[0]), s[1..]);
    }
  }

  /** The scan accepts exactly the digit strings whose value stays in range,
      and then yields that value. */
  lemma {:induction false} ScanDigitsValue(s: string, acc: nat, maxVal: nat)
    requires acc <= maxVal
    ensures ScanDigits(s, acc, maxVal).Valid?
      <==> AllDigits(s) && ValueFrom(acc, s) <= maxVal
    ensures ScanDigits(s, acc, maxVal).Valid? ==> ScanDigits(s, acc, maxVal).n == ValueFrom(acc, s)
  {
    if |s| > 0 && IsDigit(s[0]) {
      var next := acc * 10 + DigitValue(s[0]);
      if next > maxVal {
        if AllDigits(s) {
          ValueFromGrows(next, s[1..]);
        }
      } else {
        ScanDigitsValue(s[1..], next, maxVal);
        assert AllDigits(s) <==> AllDigits(s[1..]);
      }
    }
  }

  /** strconv.ParseUint(s, 10, bitSize). */
  function ParseUint(s: string, w: Width): (r: Parsed)
    ensures r.Valid? <==> |s| > 0 && AllDigits(s) && ValueFrom(0, s) <= MaxUint(w)
    ensures r.Valid? ==> r.n == ValueFrom(0, s) && 0 <= r.n <= MaxUint(w)
    ensures r.Invalid? && r.reason == ErrRange ==> r.fallback == MaxUint(w)
    ensures r.Invalid? && r.reason == ErrSyntax ==> r.fallback == 0
  {
    if |s| == 0 then Invalid(0, ErrSyntax)
    else
      ScanDigitsValue(s, 0, MaxUint(w));
      ScanRangeFallback(s, 0, MaxUint(w));
      ScanDigits(s, 0, MaxUint(w))
  }

  lemma {:induction false} ScanRangeFallback(s: string, acc: nat, maxVal: nat)
    ensures var r := ScanDigits(s, acc, maxVal);
      r.Invalid? ==> (r.reason == ErrRange && r.fallback == maxVal) || (r.reason == ErrSyntax && r.fallback == 0)
  {
    if |s| > 0 && IsDigit(s[0]) && acc * 10 + DigitValue(s[0]) <= maxVal {
      ScanRangeFallback(s[1..], acc * 10 + DigitValue(s[0]), maxVal);
    }
  }

  /** strconv.ParseInt(s, 10, 64): an optional sign, then ParseUint's digits;
      out-of-range values are clamped to the int64 bounds. */
  function ParseInt64(s: string): (r: Parsed)
    ensures r.Valid? ==> InInt64(r.n)
    ensures r.Invalid? && r.reason == ErrSyntax ==> r.fallback == 0
    ensures r.Invalid? && r.reason == ErrRange ==> r.fallback in {Int64Bound - 1, -Int64Bound}
    ensures |s| > 0 && IsDigit(s[0]) ==> (r.Valid? <==> ParseUint(s, W64).Valid? && ParseUint(s, W64).n < Int64Bound)
  {
    if |s| == 0 then Invalid(0, ErrSyntax)
    else
      var neg := s[0] == '-';
      var digits := if s[0] == '+' || s[0] == '-' then s[1..] else s;
      var u := ParseUint(digits, W64);
      if u.Invalid? && u.reason == ErrSyntax then Invalid(0, ErrSyntax)
      else
        var un := if u.Valid? then u.n else u.fallback;
        if !neg && un >= Int64Bound then Invalid(Int64Bound - 1, ErrRange)
        else if neg && un > Int64Bound then Invalid(-Int64Bound, ErrRange)
        else Valid(if neg then -un else un)
  }

  /** strconv.FormatUint(n, 10): the shortest decimal spelling. */
  function FormatNat(n: nat): (r: string)
    ensures |r| >= 1 && AllDigits(r)
    ensures r[0] == '0' ==> n == 0
  {
    if n < 10 then [DigitChar(n)] else FormatNat(n / 10) + [DigitChar(n % 10)]
  }

  /** strconv.FormatInt(i, 10). */
  function FormatInt(i: int): (r: string)
    ensures |r| >= 1
    ensures forall k :: 0 <= k < |r| ==> IsDigit(r[k]) || r[k] == '-'
  {
    if i < 0 then "-" + FormatNat(-i) else FormatNat(i)
  }

  lemma {:induction false} ValueFromAppend(acc: nat, a: string, b: string)
    requires AllDigits(a) && AllDigits(b)
    ensures AllDigits(a + b)
    ensures ValueFrom(acc, a + b) == ValueFrom(ValueFrom(acc, a), b)
    decreases |a|
  {
    assert AllDigits(a + b) by {
      forall k | 0 <= k < |a + b| ensures IsDigit((a + b)[k]) {
        if k < |a| { assert (a + b)[k] == a[k]; } else { assert (a + b)[k] == b[k - |a|]; }
      }
    }
    if |a| > 0 {
      assert (a + b)[0] == a[0];
      assert (a + b)[1..] == a[1..] + b;
      ValueFromAppend(acc * 10 + DigitValue(a[0]), a[1..], b);
    } else {
      assert a + b == b;
    }
  }

  /** Reading back a formatted number gives the number. */
  lemma {:induction false} ValueOfFormat(n: nat)
    ensures ValueFrom(0, FormatNat(n)) == n
  {
    if n >= 10 {
      ValueOfFormat(n / 10);
      ValueFromAppend(0, FormatNat(n / 10), [DigitChar(n % 10)]);
    }
  }

  /** ParseUint inverts FormatUint for every value the width can hold. */
  lemma ParseUintFormat(n: nat, w: Width)
    requires n <= MaxUint(w)
    ensures ParseUint(FormatNat(n), w) == Valid(n)
  {
    ValueOfFormat(n);
  }

  /** ParseInt inverts FormatInt on the int64 range. */
  lemma ParseIntFormat(i: int)
    requires InInt64(i)
    ensures ParseInt64(FormatInt(i)) == Valid(i)
  {
    if i < 0 {
      ParseUintFormat(-i, W64);
      assert ("-" + FormatNat(-i))[1..] == FormatNat(-i);
    } else {
      ParseUintFormat(i, W64);
    }
  }
}

=== FILE: encoding.dfy ===
/** Byte views of Go strings, and the two text encodings the stream signature
    uses: unpadded base64url (RFC 4648 section 5, padding omitted as section
    3.2 allows) and lower-case hexadecimal. */
module Bytes {
  import opened Results

  /** A string every char of which stands for one byte. */
  predicate IsBytes(s: string) {
    forall i :: 0 <= i < |s| ==> s[i] as int < 256
  }

  /** `[]byte(s)` */
  function ToBytes(s: string): (b: seq<Byte>)
    ensures |b| == |s|
  {
    seq(|s|, i requires 0 <= i < |s| => (s[i] as int) % 256)
  }

  /** `string(b)` */
  function FromBytes(b: seq<Byte>): (s: string)
    ensures |s| == |b| && IsBytes(s)
  {
    seq(|b|, i requires 0 <= i < |b| => b[i] as char)
  }

  lemma FromToBytes(s: string)
    requires IsBytes(s)
    ensures FromBytes(ToBytes(s)) == s
  {
  }

  lemma ToFromBytes(b: seq<Byte>)
    ensures ToBytes(FromBytes(b)) == b
  {
  }
}

module Base64Url {
  import opened Results
  import opened Bytes

  /** The URL-safe alphabet: A-Z, a-z, 0-9, '-', '_'. */
  function Letter(v: nat): char
    requires v < 64
  {
    if v < 26 then ('A' as int + v) as char
    else if v < 52 then ('a' as int + v - 26) as char
    else if v < 62 then ('0' as int + v - 52) as char
    else if v == 62 then '-'
    else '_'
  }

  /** The position of a char in the alphabet, if it is one of its letters. */
  function Index(c: char): (r: Option<nat>)
    ensures r.Some? ==> r.value < 64
  {
    if 'A' <= c <= 'Z' then Some(c as int - 'A' as int)
    else if 'a' <= c <= 'z' then Some(c as int - 'a' as int + 26)
    else if '0' <= c <= '9' then Some(c as int - '0' as int + 52)
    else if c == '-' then Some(62)
    else if c == '_' then Some(63)
    else None
  }

  predicate InAlphabet(c: char) {
    Index(c).Some?
  }

  lemma IndexOfLetter(v: nat)
    requires v < 64
    ensures Index(Letter(v)) == Some(v)
  {
  }

  /** Three bytes become four letters. */
  function EncodeGroup(a: Byte, b: Byte, c: Byte): seq<char> {
    [Letter(a / 4), Letter((a % 4) * 16 + b / 16), Letter((b % 16) * 4 + c / 64), Letter(c % 64)]
  }

  /** base64.RawURLEncoding.EncodeToString: only alphabet letters, no padding,
      and a length of ceil(8n/6). */
  function Encode(b: seq<Byte>): (r: string)
    ensures forall i :: 0 <= i < |r| ==> InAlphabet(r[i])
    ensures |r| == (|b| / 3) * 4 + (if |b| % 3 == 0 then 0 else |b| % 3 + 1)
  {
    if |b| >= 3 then
      IndexOfLetter(b[0] / 4);
      IndexOfLetter((b[0] % 4) * 16 + b[1] / 16);
      IndexOfLetter((b[1] % 16) * 4 + b[2] / 64);
      IndexOfLetter(b[2] % 64);
      EncodeGroup(b[0], b[1], b[2]) + Encode(b[3..])
    else if |b| == 2 then
      IndexOfLetter(b[0] / 4);
      IndexOfLetter((b[0] % 4) * 16 + b[1] / 16);
      IndexOfLetter((b[1] % 16) * 4);
      [Letter(b[0] / 4), Letter((b[0] % 4) * 16 + b[1] / 16), Letter((b[1] % 16) * 4)]
    else if |b| == 1 then
      IndexOfLetter(b[0] / 4);
      IndexOfLetter((b[0] % 4) * 16);
      [Letter(b[0] / 4), Letter((b[0] % 4) * 16)]
    else []
  }

  /** Decoding of newline-free text: a lone trailing letter or a char outside
      the alphabet is corrupt input; the unused low bits of a final partial
      group are ignored, as Go's non-strict decoder does. */
  function DecodeLetters(s: string): Option<seq<Byte>> {
    if |s| == 0 then Some([])
    else if |s| == 1 then None
    else if Index(s[0]).None? || Index(s[1]).None? then None
    else
      var v0, v1 := Index(s[0]).value, Index(s[1]).value;
      var first: Byte := v0 * 4 + v1 / 16;
      if |s| == 2 then Some([first])
      else if Index(s[2]).None? then None
      else
        var v2 := Index(s[2]).value;
        var second: Byte := (v1 % 16) * 16 + v2 / 4;
        if |s| == 3 then Some([first, second])
        else if Index(s[3]).None? then None
        else
          var v3 := Index(s[3]).value;
          var third: Byte := (v2 % 4) * 64 + v3;
          match DecodeLetters(s[4..])
          case None => None
          case Some(rest) => Some([first, second, third] + rest)
  }

  function DropNewlines(s: string): (r: string)
    ensures '\n' !in r && '\r' !in r
  {
    if |s| == 0 then ""
    else if s[0] == '\n' || s[0] == '\r' then DropNewlines(s[1..])
    else [s[0]] + DropNewlines(s[1..])
  }

  /** base64.RawURLEncoding.DecodeString: line breaks are skipped. */
  function Decode(s: string): Option<seq<Byte>> {
    DecodeLetters(DropNewlines(s))
  }

  lemma DropNewlinesNoop(s: string)
    requires forall i :: 0 <= i < |s| ==> InAlphabet(s[i])
    ensures DropNewlines(s) == s
  {
    if |s| > 0 {
      DropNewlinesNoop(s[1..]);
      assert [s[0]] + s[1..] == s;
    }
  }

  lemma GroupRoundTrip(a: Byte, b: Byte, c: Byte)
    ensures (a / 4) * 4 + ((a % 4) * 16 + b / 16) / 16 == a
    ensures (((a % 4) * 16 + b / 16) % 16) * 16 + ((b % 16) * 4 + c / 64) / 4 == b
    ensures (((b % 16) * 4 + c / 64) % 4) * 64 + c % 64 == c
  {
  }

  /** Decoding an encoding gives back the bytes. */
  lemma {:induction false} DecodeEncode(b: seq<Byte>)
    ensures Decode(Encode(b)) == Some(b)
  {
    DropNewlinesNoop(Encode(b));
    DecodeLettersEncode(b);
  }

  /** Four letters in front of decodable text give three bytes more. */
  lemma DecodeQuad(s: string, v0: nat, v1: nat, v2: nat, v3: nat)
    requires |s| >= 4 && DecodeLetters(s[4..]).Some?
    requires Index(s[0]) == Some(v0) && Index(s[1]) == Some(v1)
    requires Index(s[2]) == Some(v2) && Index(s[3]) == Some(v3)
    ensures DecodeLetters(s) == Some([v0 * 4 + v1 / 16, (v1 % 16) * 16 + v2 / 4, (v2 % 4) * 64 + v3] + DecodeLetters(s[4..]).value)
  {
  }

  /** A full group of four letters decodes to its three bytes, in front of
      whatever the text after it decodes to. */
  lemma DecodeGroup(a: Byte, b: Byte, c: Byte, t: string)
    requires DecodeLetters(t).Some?
    ensures DecodeLetters(EncodeGroup(a, b, c) + t) == Some([a, b, c] + DecodeLetters(t).value)
  {
    var s := EncodeGroup(a, b, c) + t;
    var v0, v1, v2, v3 := a / 4, (a % 4) * 16 + b / 16, (b % 16) * 4 + c / 64, c % 64;
    assert [v0 * 4 + v1 / 16, (v1 % 16) * 16 + v2 / 4, (v2 % 4) * 64 + v3] == [a, b, c] by {
      GroupRoundTrip(a, b, c);
    }
    assert s[4..] == t;
    assert Index(s[0]) == Some(v0) by { IndexOfLetter(v0); }
    assert Index(s[1]) == Some(v1) by { IndexOfLetter(v1); }
    assert Index(s[2]) == Some(v2) by { IndexOfLetter(v2); }
    assert Index(s[3]) == Some(v3) by { IndexOfLetter(v3); }
    DecodeQuad(s, v0, v1, v2, v3);
  }

  lemma PairRoundTrip(a: Byte, b: Byte)
    ensures (a / 4) * 4 + ((a % 4) * 16 + b / 16) / 16 == a
    ensures (((a % 4) * 16 + b / 16) % 16) * 16 + ((b % 16) * 4) / 4 == b
  {
  }

  /** Three letters at the end decode to two bytes. */
  lemma DecodeTriple(v0: nat, v1: nat, v2: nat)
    requires v0 < 64 && v1 < 64 && v2 < 64
    ensures DecodeLetters([Letter(v0), Letter(v1), Letter(v2)]) == Some([v0 * 4 + v1 / 16, (v1 % 16) * 16 + v2 / 4])
  {
    IndexOfLetter(v0);
    IndexOfLetter(v1);
    IndexOfLetter(v2);
  }

  /** Two letters at the end decode to one byte. */
  lemma DecodeCouple(v0: nat, v1: nat)
    requires v0 < 64 && v1 < 64
    ensures DecodeLetters([Letter(v0), Letter(v1)]) == Some([v0 * 4 + v1 / 16])
  {
    IndexOfLetter(v0);
    IndexOfLetter(v1);
  }

  lemma TwoBytesRoundTrip(b: seq<Byte>)
    requires |b| == 2
    ensures var v0, v1, v2 := b[0] / 4, (b[0] % 4) * 16 + b[1] / 16, (b[1] % 16) * 4;
      [v0 * 4 + v1 / 16, (v1 % 16) * 16 + v2 / 4] == b
  {
    var v0, v1, v2 := b[0] / 4, (b[0] % 4) * 16 + b[1] / 16, (b[1] % 16) * 4;
    assert v0 * 4 + v1 / 16 == b[0] && (v1 % 16) * 16 + v2 / 4 == b[1] by {
      PairRoundTrip(b[0], b[1]);
    }
    assert b == [b[0], b[1]];
  }

  lemma OneByteRoundTrip(b: seq<Byte>)
    requires |b| == 1
    ensures [(b[0] / 4) * 4 + ((b[0] % 4) * 16) / 16] == b
  {
    assert (b[0] / 4) * 4 + ((b[0] % 4) * 16) / 16 == b[0] by { PairRoundTrip(b[0], 0); }
    assert b == [b[0]];
  }

  lemma DecodeTwoBytes(b: seq<Byte>)
    requires |b| == 2
    ensures DecodeLetters(Encode(b)) == Some(b)
  {
    var v0, v1, v2 := b[0] / 4, (b[0] % 4) * 16 + b[1] / 16, (b[1] % 16) * 4;
    var e := [Letter(v0), Letter(v1), Letter(v2)];
    assert DecodeLetters(e) == Some(b) by {
      DecodeTriple(v0, v1, v2);
      TwoBytesRoundTrip(b);
    }
    assert Encode(b) == e;
  }

  lemma DecodeOneByte(b: seq<Byte>)
    requires |b| == 1
    ensures DecodeLetters(Encode(b)) == Some(b)
  {
    var v0, v1 := b[0] / 4, (b[0] % 4) * 16;
    var e := [Letter(v0), Letter(v1)];
    assert DecodeLetters(e) == Some(b) by {
      DecodeCouple(v0, v1);
      OneByteRoundTrip(b);
    }
    assert Encode(b) == e;
  }

  lemma {:induction false} DecodeLettersEncode(b: seq<Byte>)
    ensures DecodeLetters(Encode(b)) == Some(b)
    decreases |b|
  {
    if |b| >= 3 {
      assert Encode(b) == EncodeGroup(b[0], b[1], b[2]) + Encode(b[3..]);
      DecodeLettersEncode(b[3..]);
      DecodeGroup(b[0], b[1], b[2], Encode(b[3..]));
      assert [b[0], b[1], b[2]] + b[3..] == b;
    } else if |b| == 2 {
      DecodeTwoBytes(b);
    } else if |b| == 1 {
      DecodeOneByte(b);
    }
  }
}

module Hex {
  import opened Results

  function HexDigit(v: nat): char
    requires v < 16
  {
    if v < 10 then ('0' as int + v) as char else ('a' as int + v - 10) as char
  }

  predicate IsHexDigit(c: char) {
    '0' <= c <= '9' || 'a' <= c <= 'f'
  }

  /** hex.EncodeToString: two lower-case digits per byte, high nibble first. */
  function Encode(b: seq<Byte>): (r: string)
    ensures |r| == 2 * |b|
    ensures forall i :: 0 <= i < |r| ==> IsHexDigit(r[i])
  {
    if |b| == 0 then "" else [HexDigit(b[0] / 16), HexDigit(b[0] % 16)] + Encode(b[1..])
  }

  /** Different byte strings never share a hex spelling. */
  lemma {:induction false} EncodeInjective(a: seq<Byte>, b: seq<Byte>)
    requires Encode(a) == Encode(b)
    ensures a == b
  {
    if |a| > 0 {
      var ea, eb := Encode(a), Encode(b);
      assert ea[0] == eb[0] && ea[1] == eb[1];
      assert a[0] == b[0];
      assert ea[2..] == Encode(a[1..]) && eb[2..] == Encode(b[1..]);
      EncodeInjective(a[1..], b[1..]);
    }
  }
}

=== FILE: frontend.dfy ===
/** The browser's localStorage: keys to strings. getItem answers null for a
    missing key; like the empty string, null is falsy. */
module Browser {
  type LocalStorage = map<string, string>

  const TokenKey: string := "jwt_token"

  /** getItem(key) is truthy. */
  predicate Truthy(storage: LocalStorage, key: string) {
    key in storage && storage[key] != ""
  }
}

/** The web client's navigation guard (frontend/src/router/index.js). */
module Router {
  import opened Results
  import opened Browser
  import Text

  /** A route of the table with the parent path applied to its children;
      `noAuth` is the route's meta flag. */
  datatype RouteRecord = RouteRecord(path: string, noAuth: bool)

  /** The route table: the login page, and the layout with its four pages
      ('/' itself redirects to '/dashboard'). */
  const Routes: seq<RouteRecord> := [
    RouteRecord("/login", true),
    RouteRecord("/", false),
    RouteRecord("/dashboard", false),
    RouteRecord("/accounts", false),
    RouteRecord("/tasks", false),
    RouteRecord("/settings", false)
  ]

  /** Equal up to the case of ASCII letters: by default routes are not
      case-sensitive, and only ASCII letters have another case here. */
  predicate SameText(a: string, b: string) {
    |a| == |b| && forall i :: 0 <= i < |a| ==> Text.LowerChar(a[i]) == Text.LowerChar(b[i])
  }

  /** A route's path matches a location's path ignoring ASCII case and, as
      routes are not strict by default, with one trailing '/' allowed. */
  predicate RouteMatches(route: string, path: string) {
    SameText(route, path) || SameText(route + "/", path)
  }

  /** The first route of `table` whose path matches `path`. */
  function Match(table: seq<RouteRecord>, path: string): (r: Option<RouteRecord>)
    ensures r.Some? ==> r.value in table && RouteMatches(r.value.path, path)
    ensures r.None? ==> forall i :: 0 <= i < |table| ==> !RouteMatches(table[i].path, path)
    ensures r.Some? ==>
      exists i :: 0 <= i < |table| && table[i] == r.value && (forall j :: 0 <= j < i ==> !RouteMatches(table[j].path, path))
  {
    if |table| == 0 then None
    else if RouteMatches(table[0].path, path) then Some(table[0])
    else
      var r := Match(table[1..], path);
      if r.Some? then
        var i :| 0 <= i < |table[1..]| && table[1..][i] == r.value &&
          (forall j :: 0 <= j < i ==> !RouteMatches(table[1..][j].path, path));
        assert table[i + 1] == r.value;
        assert forall j :: 1 <= j < i + 1 ==> table[j] == table[1..][j - 1];
        r
      else r
  }

  /** to.meta.noAuth of the resolved target; an unknown path has no meta. */
  predicate Public(path: string) {
    var m := Match(Routes, path);
    m.Some? && m.value.noAuth
  }

  /** What beforeEach tells the router. */
  datatype Navigation = Proceed | RedirectTo(path: string)

  /** beforeEach: a visitor without a token is sent to the login page unless
      the target is public. The guard only reads storage. */
  function Guard(storage: LocalStorage, to: string): (n: Navigation)
    ensures n.RedirectTo? ==> n.path == "/login"
    ensures Truthy(storage, TokenKey) ==> n == Proceed
    ensures Public(to) ==> n == Proceed
  {
    if !Truthy(storage, TokenKey) && !Public(to) then RedirectTo("/login") else Proceed
  }

  /** Only the login page is public: "/login", in any ASCII case, with or
      without one trailing '/'. */
  lemma {:induction false} OnlyLoginPublic(path: string)
    ensures Public(path) <==> RouteMatches("/login", path)
  {
    var m := Match(Routes, path);
    if m.Some? && m.value.noAuth {
      assert m.value in Routes;
      var i :| 0 <= i < |Routes| && Routes[i] == m.value;
      assert i == 0;
    }
    if RouteMatches("/login", path) {
      assert Match(Routes, path) == Some(Routes[0]);
    }
  }

  /** Variants of the login path the matcher accepts. */
  lemma LoginVariants()
    ensures Public("/login/") && Public("/LOGIN") && Public("/Login/")
  {
    assert RouteMatches("/login", "/login/");
    assert RouteMatches("/login", "/LOGIN");
    assert RouteMatches("/login", "/Login/");
    OnlyLoginPublic("/login/");
    OnlyLoginPublic("/LOGIN");
    OnlyLoginPublic("/Login/");
  }

  /** Near misses of the login path, which the matcher does not accept. */
  lemma LoginNearMisses()
    ensures !Public("/login//") && !Public("/logins")
  {
    assert !RouteMatches("/login", "/logins") by {
      assert Text.LowerChar(("/login" + "/")[6]) != Text.LowerChar("/logins"[6]);
    }
    OnlyLoginPublic("/login//");
    OnlyLoginPublic("/logins");
  }

  /** Without a token every page but the login page leads to it, and the
      login page itself is let through, so the redirect ends there. */
  lemma RedirectSettles(storage: LocalStorage, to: string)
    requires !Truthy(storage, TokenKey)
    ensures Guard(storage, to) == (if RouteMatches("/login", to) then Proceed else RedirectTo("/login"))
    ensures Guard(storage, "/login") == Proceed
  {
    OnlyLoginPublic(to);
    OnlyLoginPublic("/login");
  }
}

/** The axios instance of the web client (frontend/src/api/index.js): the
    header put on every request and how failed requests are reported. */
module ApiClient {
  import opened Results
  import opened Text
  import opened Browser
  import Session
  import Router

  const BaseURL: string := "/api/v1"
  const TimeoutMillis: nat := 60000

  /** The headers of an outgoing request. */
  type Headers = map<string, string>

  /** The request interceptor: a stored token is sent as a bearer token;
      without one the headers are left as they are. */
  function WithAuthorization(storage: LocalStorage, headers: Headers): (h: Headers)
    ensures Truthy(storage, TokenKey) ==> h == headers["Authorization" := "Bearer " + storage[TokenKey]]
    ensures !Truthy(storage, TokenKey) ==> h == headers
  {
    if Truthy(storage, TokenKey) then headers["Authorization" := "Bearer " + storage[TokenKey]] else headers
  }

  /** The server reads the header the interceptor sets as the stored token,
      for any token the login endpoint hands out (a JWT has no white
      space). */
  lemma HeaderCarriesToken(storage: LocalStorage, headers: Headers)
    requires Truthy(storage, TokenKey)
    requires forall i :: 0 <= i < |storage[TokenKey]| ==> !IsSpace(storage[TokenKey][i])
    ensures "Authorization" in WithAuthorization(storage, headers)
    ensures Session.BearerToken(WithAuthorization(storage, headers)["Authorization"]) == storage[TokenKey]
  {
    Session.BearerOfHeader(storage[TokenKey]);
  }

  /** A successful answer; the caller receives only its data. */
  datatype Response<T> = Response(status: int, data: T)

  function OnFulfilled<T>(res: Response<T>): T {
    res.data
  }

  /** The JSON body of a failed answer: its `message` and `error` fields,
      when they are strings. */
  datatype ErrorBody = ErrorBody(message: Option<string>, error: Option<string>)

  /** A rejected request: axios's code and message, and the answer when
      there was one. */
  datatype RequestError = RequestError(code: string, message: string, status: Option<int>, body: Option<ErrorBody>)

  /** The error interceptor's effects: the storage afterwards, the page it
      navigates to, the toasts it shows, and the error the caller's promise
      is rejected with. */
  datatype Handled = Handled(storage: LocalStorage, navigate: Option<string>, toasts: seq<string>, rejected: RequestError)

  const TimeoutText: string := "请求超时，请检查网络或稍后重试"

  /** A JS string is truthy when present and non-empty. */
  predicate Present(s: Option<string>) {
    s.Some? && s.value != ""
  }

  /** `data.message || data.error || err.message` */
  function ServerText(err: RequestError): (t: string)
    ensures err.body.Some? && Present(err.body.value.message) ==> t == err.body.value.message.value
    ensures err.body.Some? && !Present(err.body.value.message) && Present(err.body.value.error) ==> t == err.body.value.error.value
    ensures !(err.body.Some? && (Present(err.body.value.message) || Present(err.body.value.error))) ==> t == err.message
  {
    if err.body.Some? && Present(err.body.value.message) then err.body.value.message.value
    else if err.body.Some? && Present(err.body.value.error) then err.body.value.error.value
    else err.message
  }

  predicate TimedOut(err: RequestError) {
    err.code == "ECONNABORTED" && Contains(err.message, "timeout")
  }

  /** The response error interceptor. `pathname` is the page's path. */
  function OnRejected(storage: LocalStorage, pathname: string, err: RequestError): (r: Handled)
    ensures |r.toasts| == 1 && r.rejected == err
    ensures TimedOut(err) ==> r.toasts[0] == TimeoutText
    ensures !TimedOut(err) ==> r.toasts[0] == ServerText(err)
    ensures r.navigate.Some? <==> err.status == Some(401) && !Contains(pathname, "/login")
    ensures r.navigate.Some? ==> r.navigate.value == "/login" && r.storage == storage - {TokenKey}
    ensures r.navigate.None? ==> r.storage == storage
  {
    var signedOut := err.status == Some(401) && !Contains(pathname, "/login");
    var storage' := if signedOut then storage - {TokenKey} else storage;
    var navigate := if signedOut then Some("/login") else None;
    var text := if TimedOut(err) then TimeoutText else ServerText(err);
    Handled(storage', navigate, [text], err)
  }

  /** After a 401 away from the login page, the next requests carry no
      token and every page but the login page leads back to it. */
  lemma SignedOutAfter401(storage: LocalStorage, pathname: string, err: RequestError, headers: Headers, to: string)
    requires err.status == Some(401) && !Contains(pathname, "/login")
    requires "Authorization" !in headers
    ensures var after := OnRejected(storage, pathname, err).storage;
      && "Authorization" !in WithAuthorization(after, headers)
      && Router.Guard(after, to) == (if Router.RouteMatches("/login", to) then Router.Proceed else Router.RedirectTo("/login"))
  {
    var after := OnRejected(storage, pathname, err).storage;
    assert !Truthy(after, TokenKey);
    Router.RedirectSettles(after, to);
  }
}

/** The preference store of the web client (frontend/src/store/global.js):
    the site title and the colour theme, kept in localStorage. */
module GlobalStore {
  import opened Browser

  const TitleKey: string := "site_title"
  const ThemeKey: string := "theme"
  const DefaultTitle: string := "CloudStream"

  /** The store's state together with the document title. */
  datatype Store = Store(siteTitle: string, isDark: bool, documentTitle: string)

  function ThemeName(isDark: bool): string {
    if isDark then "dark" else "light"
  }

  /** The store as it is created: the saved title or the default, dark
      unless the saved theme is "light", and the document titled to match. */
  function Init(storage: LocalStorage): (s: Store)
    ensures Truthy(storage, TitleKey) ==> s.siteTitle == storage[TitleKey]
    ensures !Truthy(storage, TitleKey) ==> s.siteTitle == DefaultTitle
    ensures s.isDark <==> !(ThemeKey in storage && storage[ThemeKey] == "light")
    ensures s.documentTitle == s.siteTitle && s.siteTitle != ""
  {
    var title := if Truthy(storage, TitleKey) then storage[TitleKey] else DefaultTitle;
    Store(title, !(ThemeKey in storage && storage[ThemeKey] == "light"), title)
  }

  /** toggleTheme: the theme flips and is saved. */
  function ToggleTheme(s: Store, storage: LocalStorage): (r: (Store, LocalStorage))
    ensures r.0.isDark == !s.isDark
    ensures r.0.siteTitle == s.siteTitle && r.0.documentTitle == s.documentTitle
    ensures r.1 == storage[ThemeKey := ThemeName(r.0.isDark)]
  {
    var dark := !s.isDark;
    (s.(isDark := dark), storage[ThemeKey := ThemeName(dark)])
  }

  /** setSiteTitle: state, storage and document take the title as given,
      blank or not. */
  function SetSiteTitle(s: Store, storage: LocalStorage, title: string): (r: (Store, LocalStorage))
    ensures r.0.siteTitle == title && r.0.documentTitle == title && r.0.isDark == s.isDark
    ensures r.1 == storage[TitleKey := title]
  {
    (s.(siteTitle := title, documentTitle := title), storage[TitleKey := title])
  }

  /** Two toggles give back the theme; the saved theme then matches it, so
      storage that already held that theme is as it was. */
  lemma ToggleTwice(s: Store, storage: LocalStorage)
    ensures var once := ToggleTheme(s, storage);
      var twice := ToggleTheme(once.0, once.1);
      && twice.0 == s
      && twice.1 == storage[ThemeKey := ThemeName(s.isDark)]
      && (ThemeKey in storage && storage[ThemeKey] == ThemeName(s.isDark) ==> twice.1 == storage)
  {
    var once := ToggleTheme(s, storage);
    assert once.1[ThemeKey := ThemeName(s.isDark)] == storage[ThemeKey := ThemeName(s.isDark)];
  }

  /** A store created again from the storage a toggle saved shows the same
      theme. */
  lemma ThemeSurvivesReload(s: Store, storage: LocalStorage)
    ensures Init(ToggleTheme(s, storage).1).isDark == ToggleTheme(s, storage).0.isDark
  {
  }

  /** A title set survives a reload unless it is blank: the blank title is
      saved and shown, but a new store shows the default instead. */
  lemma TitleSurvivesReload(s: Store, storage: LocalStorage, title: string)
    ensures var after := SetSiteTitle(s, storage, title);
      Init(after.1).siteTitle == (if title == "" then DefaultTitle else title)
      && after.0.siteTitle == title
  {
  }
}

=== FILE: gopath.dfy ===
/** Slash-separated path handling from Go's `path` package (Clean, Join) and
    the extension rule of `path/filepath` (Ext) on '/'-separated systems. */
module GoPath {
  import opened Text

  /** A path element that Clean keeps as it is. */
  predicate PlainSegment(s: string) {
    s != "" && s != "." && s != ".." && '/' !in s
  }

  predicate PlainSegments(segs: seq<string>) {
    forall i :: 0 <= i < |segs| ==> PlainSegment(segs[i])
  }

  /** A non-empty string without separators. */
  predicate Element(s: string) {
    s != "" && '/' !in s
  }

  /** The lexical walk of path.Clean over the elements of a path: empty and
      "." elements vanish, ".." removes the element before it; at the root a
      ".." is dropped, in a relative path an unmatched ".." is kept. */
  function Resolve(segs: seq<string>, stack: seq<string>, rooted: bool): (r: seq<string>)
    requires rooted ==> ".." !in stack
    ensures rooted ==> ".." !in r
    ensures (forall i :: 0 <= i < |stack| ==> Element(stack[i]))
      && (forall i :: 0 <= i < |segs| ==> '/' !in segs[i])
      ==> forall i :: 0 <= i < |r| ==> Element(r[i])
  {
    if |segs| == 0 then stack
    else
      var s := segs[0];
      if s == "" || s == "." then Resolve(segs[1..], stack, rooted)
      else if s == ".." then
        if |stack| > 0 && stack[|stack| - 1] != ".." then Resolve(segs[1..], stack[..|stack| - 1], rooted)
        else if rooted then Resolve(segs[1..], stack, rooted)
        else Resolve(segs[1..], stack + [".."], rooted)
      else Resolve(segs[1..], stack + [s], rooted)
  }

  /** path.Clean: the shortest equivalent path; "." for an empty relative one. */
  function Clean(p: string): (r: string)
    ensures |r| > 0
    ensures HasPrefix(p, "/") <==> HasPrefix(r, "/")
    ensures HasPrefix(r, "/") ==> !HasPrefix(r[1..], "/")
  {
    var rooted := HasPrefix(p, "/");
    var body := Join(Resolve(Split(p, '/'), [], rooted), '/');
    if rooted then
      assert body != "" ==> body[0] != '/' by {
        if body != "" { NoLeadingSeparator(Resolve(Split(p, '/'), [], rooted)); }
      }
      assert ("/" + body)[1..] == body;
      "/" + body
    else if body == "" then
      assert "."[0] != '/';
      "."
    else
      assert body[0] != '/' by { NoLeadingSeparator(Resolve(Split(p, '/'), [], rooted)); }
      body
  }

  lemma NoLeadingSeparator(segs: seq<string>)
    requires forall i :: 0 <= i < |segs| ==> Element(segs[i])
    requires Join(segs, '/') != ""
    ensures Join(segs, '/')[0] != '/'
  {
    SplitFirstPart(segs);
    assert segs[0][0] in segs[0];
  }

  lemma SplitFirstPart(segs: seq<string>)
    requires |segs| > 0 && segs[0] != ""
    ensures Join(segs, '/')[0] == segs[0][0]
  {
  }

  /** path.Join: the non-empty elements joined with '/' and cleaned; "" when
      every element is empty. */
  function PathJoin(elems: seq<string>): (r: string)
    ensures (forall i :: 0 <= i < |elems| ==> elems[i] == "") <==> r == ""
    ensures HasPrefix(r, "/") ==> !HasPrefix(r[1..], "/")
  {
    if |elems| == 0 then ""
    else if elems[0] != "" then Clean(Join(elems, '/'))
    else PathJoin(elems[1..])
  }

  /** filepath.Ext: the suffix from the final '.' of the last element, or "". */
  function Ext(p: string): (r: string)
    ensures r != "" ==> r[0] == '.' && HasSuffix(p, r) && '.' !in r[1..] && '/' !in r
    ensures '.' !in p ==> r == ""
    ensures '/' !in p && '.' in p ==> r != ""
  {
    if |p| == 0 || p[|p| - 1] == '/' then ""
    else if p[|p| - 1] == '.' then "."
    else
      var e := Ext(p[..|p| - 1]);
      assert '.' in p ==> '.' in p[..|p| - 1];
      if e == "" then "" else e + [p[|p| - 1]]
  }

  /** Clean walks plain elements without changing them. */
  lemma {:induction false} ResolvePlain(segs: seq<string>, stack: seq<string>, rooted: bool)
    requires PlainSegments(segs)
    requires rooted ==> ".." !in stack
    ensures Resolve(segs, stack, rooted) == stack + segs
  {
    if |segs| > 0 {
      ResolvePlain(segs[1..], stack + [segs[0]], rooted);
      assert stack + [segs[0]] + segs[1..] == stack + segs;
    }
  }

  /** A rooted path of plain elements is already clean. */
  lemma CleanRootedPlain(segs: seq<string>)
    requires PlainSegments(segs)
    ensures Clean("/" + Join(segs, '/')) == "/" + Join(segs, '/')
  {
    var p := "/" + Join(segs, '/');
    assert p == [] + ['/'] + Join(segs, '/');
    SplitAround([], Join(segs, '/'), '/');
    if |segs| == 0 {
      assert Split(p, '/') == ["", ""];
      assert Resolve(["", ""], [], true) == [];
    } else {
      SplitJoin(segs, '/');
      assert Split(p, '/') == [""] + segs;
      ResolvePlain(segs, [], true);
      assert Resolve([""] + segs, [], true) == segs;
    }
    assert HasPrefix(p, "/");
    assert Join(Resolve(Split(p, '/'), [], true), '/') == Join(segs, '/');
  }

  /** A relative path of one or more plain elements is already clean. */
  lemma CleanRelativePlain(segs: seq<string>)
    requires |segs| > 0 && PlainSegments(segs)
    ensures Clean(Join(segs, '/')) == Join(segs, '/')
  {
    var p := Join(segs, '/');
    SplitJoin(segs, '/');
    ResolvePlain(segs, [], false);
    SplitFirstPart(segs);
    assert segs[0][0] in segs[0];
    CleanFixed(p, segs);
  }

  /** A relative path that Clean resolves back into its own elements is
      left as it is. */
  lemma CleanFixed(p: string, segs: seq<string>)
    requires p != "" && p[0] != '/'
    requires Resolve(Split(p, '/'), [], false) == segs && Join(segs, '/') == p
    ensures Clean(p) == p
  {
    assert !HasPrefix(p, "/") by {
      assert p[..1] == [p[0]];
    }
  }
}

=== FILE: limiter.dfy ===
/** The login rate limiter (internal/auth/limiter.go): per client address, a
    counter that restarts when more than a minute has passed since the
    window began; the sixth and later attempts of a window are refused
    with 429. */
module Limiter {
  import opened Clock

  /** Attempts admitted per window. */
  const MaxAttempts: int := 5

  /** rateLimiter: attempts counted since `start` (an instant in ns). */
  datatype Window = Window(count: int, start: int)

  /** One login attempt from `ip` at instant `now`: the updated table and
      whether the request may proceed to the login handler. */
  function Attempt(table: map<string, Window>, ip: string, now: int): (r: (map<string, Window>, bool))
    ensures r.0.Keys == table.Keys + {ip}
    ensures forall other :: other in table && other != ip ==> r.0[other] == table[other]
    ensures ip !in table || now - table[ip].start > Minute ==> r.0[ip] == Window(1, now) && r.1
    ensures ip in table && now - table[ip].start <= Minute ==>
      r.0[ip] == Window(table[ip].count + 1, table[ip].start)
    ensures r.1 <==> r.0[ip].count <= MaxAttempts
  {
    var w := if ip in table then table[ip] else Window(0, now);
    var window := if now - w.start > Minute then Window(0, now) else w;
    var counted := window.(count := window.count + 1);
    (table[ip := counted], counted.count <= MaxAttempts)
  }

  /** A series of attempts from one address; the number admitted. */
  function Admitted(table: map<string, Window>, ip: string, times: seq<int>): (r: (map<string, Window>, nat))
    ensures r.1 <= |times|
    decreases |times|
  {
    if |times| == 0 then (table, 0)
    else
      var step := Attempt(table, ip, times[0]);
      var rest := Admitted(step.0, ip, times[1..]);
      (rest.0, rest.1 + (if step.1 then 1 else 0))
  }

  function Room(count: int): nat {
    if count >= MaxAttempts then 0 else MaxAttempts - count
  }

  /** Within one window, attempts beyond the five the window allows are all
      refused, however they are spaced. */
  lemma {:induction false} WindowCap(table: map<string, Window>, ip: string, times: seq<int>)
    requires ip in table && table[ip].count >= 0
    requires forall i :: 0 <= i < |times| ==> times[i] - table[ip].start <= Minute
    ensures Admitted(table, ip, times).1 <= Room(table[ip].count)
    decreases |times|
  {
    if |times| > 0 {
      var step := Attempt(table, ip, times[0]);
      assert step.0[ip] == Window(table[ip].count + 1, table[ip].start);
      WindowCap(step.0, ip, times[1..]);
    }
  }

  /** An address seen for the first time gets at most five admissions in the
      minute that follows its first attempt. */
  lemma FirstMinuteCap(table: map<string, Window>, ip: string, first: int, later: seq<int>)
    requires ip !in table
    requires forall i :: 0 <= i < |later| ==> later[i] - first <= Minute
    ensures Admitted(table, ip, [first] + later).1 <= MaxAttempts
  {
    var step := Attempt(table, ip, first);
    assert ([first] + later)[1..] == later;
    WindowCap(step.0, ip, later);
  }

  /** Attempts from one address never change another address's window. */
  lemma {:induction false} OtherAddressesUntouched(table: map<string, Window>, ip: string, times: seq<int>, other: string)
    requires other in table && other != ip
    ensures other in Admitted(table, ip, times).0
    ensures Admitted(table, ip, times).0[other] == table[other]
    decreases |times|
  {
    if |times| > 0 {
      OtherAddressesUntouched(Attempt(table, ip, times[0]).0, ip, times[1..], other);
    }
  }
}

=== FILE: models.dfy ===
/** The records the modelled logic reads: cloud accounts, scan tasks, listing
    entries of both storage back ends, and the administrator account. Only
    the fields the modelled functions use are kept. */
module Models {

  /** `Account.Type`; any value other than the two known ones behaves like
      neither in the scanner and like 123Pan in link resolution. */
  datatype AccountType = Pan123 | OpenList | OtherType

  datatype Account = Account(
    id: nat,
    kind: AccountType,
    strmBaseURL: string,
    openListURL: string,
    openListToken: string,
    openListUsername: string,
    openListPassword: string,
    cacheTTL: int)

  datatype Task = Task(
    id: nat,
    accountID: nat,
    sourceFolderID: string,
    threads: int,
    strmExtensions: string,
    metaExtensions: string,
    syncDelete: bool,
    encodePath: bool)

  /** A 123Pan listing entry (pan123.FileInfo); FileType 1 is a folder. */
  datatype FileInfo = FileInfo(fileId: int, fileName: string, fileType: int, size: int, trashed: int)

  predicate IsDir(f: FileInfo) {
    f.fileType == 1
  }

  /** An OpenList listing entry (openlist.FileInfo). */
  datatype OpenListEntry = OpenListEntry(name: string, size: int, isDir: bool)

  /** The administrator row; TokenVersion invalidates older session tokens. */
  datatype User = User(username: string, passwordHash: string, tokenVersion: int, webhookURL: string)

  /** A row of the task_files table: a local file a task produced. */
  datatype TaskFile = TaskFile(id: nat, taskID: nat, filePath: string)

  /** The dynamic type of the `interface{}` identifier handed to
      GetDownloadURL: a path or numeric string, an int64 file id, or a value
      of some other type. */
  datatype Identifier = StringId(text: string) | Int64Id(n: int) | OtherId
}

=== FILE: openlist_client.dfy ===
/** The OpenList API client (internal/openlist/client.go): how an account's
    settings become a client, which token a request carries, the
    process-wide token cache, the three-attempt request loop and the path
    rules of the two calls the service makes. Every answer of the network
    is a parameter: `login` is what the login call returns, `outcome(i)` what
    attempt i of a request returns. Instants are nanoseconds. */
module OpenListClient {
  import opened Results
  import opened Clock
  import opened Retry
  import opened Text
  import opened Decimal
  import opened Models

  /** The client's settings as NewClient derives them from the account. */
  datatype Client = Client(
    accountID: nat,
    baseURL: string,
    staticToken: string,
    username: string,
    password: string,
    cacheTTL: int)

  /** A base address with a scheme: "http://" is put in front of a
      non-empty address that has neither scheme. */
  function WithScheme(base: string): (r: string)
    ensures base == "" ==> r == ""
    ensures base != "" ==> HasPrefix(r, "http://") || HasPrefix(r, "https://")
    ensures HasPrefix(base, "http://") || HasPrefix(base, "https://") ==> r == base
  {
    if base != "" && !HasPrefix(base, "http://") && !HasPrefix(base, "https://") then "http://" + base
    else base
  }

  /** The base address NewClient keeps: trimmed, given a scheme, and with
      every trailing '/' removed. */
  function NormalizeBase(url: string): (r: string)
    ensures r == "" || r[|r| - 1] != '/'
    ensures TrimSpace(url) == "" ==> r == ""
    ensures HasPrefix(WithScheme(TrimSpace(url)), r)
    ensures forall i :: |r| <= i < |WithScheme(TrimSpace(url))| ==> WithScheme(TrimSpace(url))[i] == '/'
  {
    TrimRight(WithScheme(TrimSpace(url)), '/')
  }

  /** An address NewClient produced, with a scheme and no white space at its
      end, is kept as it is when normalised again. */
  lemma NormalizeBaseStable(url: string)
    requires var b := NormalizeBase(url);
      (HasPrefix(b, "http://") || HasPrefix(b, "https://")) && !IsSpace(b[|b| - 1])
    ensures NormalizeBase(NormalizeBase(url)) == NormalizeBase(url)
  {
    BaseFixed(NormalizeBase(url));
  }

  /** An address with a scheme that ends in neither '/' nor white space is
      its own normal form. */
  lemma BaseFixed(b: string)
    requires HasPrefix(b, "http://") || HasPrefix(b, "https://")
    requires b[|b| - 1] != '/' && !IsSpace(b[|b| - 1])
    ensures NormalizeBase(b) == b
  {
    assert b[0] == 'h';
    assert TrimLeftSpace(b) == b;
    assert TrimRightSpace(b) == b;
    assert TrimRight(b, '/') == b;
  }

  /** NewClient. */
  function NewClient(account: Account): (c: Client)
    ensures c.accountID == account.id && c.cacheTTL == account.cacheTTL
    ensures c.baseURL == NormalizeBase(account.openListURL)
    ensures c.staticToken == TrimSpace(account.openListToken)
    ensures c.username == TrimSpace(account.openListUsername)
    ensures c.password == TrimSpace(account.openListPassword)
  {
    Client(account.id, NormalizeBase(account.openListURL), TrimSpace(account.openListToken),
           TrimSpace(account.openListUsername), TrimSpace(account.openListPassword), account.cacheTTL)
  }

  // ---------------------------------------------------------------------
  // Tokens

  datatype CacheItem = CacheItem(token: string, expiresAt: int)

  /** The process-wide cache: account id to the token last obtained by
      logging in. */
  type TokenCache = map<nat, CacheItem>

  /** A cached token is renewed five minutes before it expires. */
  const RenewMargin: int := 5 * Minute

  /** The lifetime assumed for a token whose own expiry is unknown. */
  const DefaultTokenLife: int := 24 * Hour

  predicate Usable(item: CacheItem, now: int) {
    now < item.expiresAt - RenewMargin
  }

  /** What the login call returns: a request that cannot be built (for an
      address net/url rejects), no answer, an undecodable answer, or the
      answer's code, message and token. */
  datatype LoginOutcome =
    | LoginRequestInvalid(err: string)
    | LoginUnreachable(err: string)
    | LoginUndecodable(err: string)
    | LoginAnswer(code: int, message: string, token: string)

  /** login(): the token of an answer with code 200. */
  function Login(o: LoginOutcome): (r: Result<string, string>)
    ensures r.Ok? <==> o.LoginAnswer? && o.code == 200
    ensures r.Ok? ==> r.value == o.token
    ensures o.LoginRequestInvalid? ==> r == Err(o.err)
    ensures o.LoginUnreachable? ==> r == Err("登录请求失败: " + o.err)
    ensures o.LoginUndecodable? ==> r == Err("解析登录响应失败: " + o.err)
    ensures o.LoginAnswer? && o.code != 200 ==> r == Err("登录失败(code=" + FormatInt(o.code) + "): " + o.message)
  {
    match o
    case LoginRequestInvalid(e) => Err(e)
    case LoginUnreachable(e) => Err("登录请求失败: " + e)
    case LoginUndecodable(e) => Err("解析登录响应失败: " + e)
    case LoginAnswer(code, message, token) =>
      if code != 200 then Err("登录失败(code=" + FormatInt(code) + "): " + message) else Ok(token)
  }

  /** When a freshly obtained token is taken to expire: its `exp` claim (in
      Unix seconds, when the token parses and carries one) if that lies in
      the future, else a day from now. */
  function TokenExpiry(now: int, exp: Option<int>): (t: int)
    ensures t > now
    ensures exp.Some? && exp.value * Second > now ==> t == exp.value * Second
    ensures !(exp.Some? && exp.value * Second > now) ==> t == now + DefaultTokenLife
  {
    if exp.Some? && exp.value * Second > now then exp.value * Second else now + DefaultTokenLife
  }

  const NoCredentials: string := "未配置 Token 且未配置用户名/密码"

  /** getToken: the static token first; without one, user name and password
      are required; then a usable cached token; then a login, whose token is
      cached. */
  function GetToken(c: Client, cache: TokenCache, now: int, login: LoginOutcome, exp: Option<int>): (r: (Result<string, string>, TokenCache))
    ensures c.staticToken != "" ==> r == (Ok(c.staticToken), cache)
    ensures c.staticToken == "" && (c.username == "" || c.password == "") ==> r == (Err(NoCredentials), cache)
    ensures (c.staticToken == "" && c.username != "" && c.password != ""
             && c.accountID in cache && Usable(cache[c.accountID], now)) ==>
      r == (Ok(cache[c.accountID].token), cache)
    ensures r.1 != cache ==>
      && Login(login).Ok?
      && r.0 == Ok(Login(login).value)
      && r.1 == cache[c.accountID := CacheItem(Login(login).value, TokenExpiry(now, exp))]
    ensures r.0.Err? ==> r.1 == cache
  {
    if c.staticToken != "" then (Ok(c.staticToken), cache)
    else if c.username == "" || c.password == "" then (Err(NoCredentials), cache)
    else if c.accountID in cache && Usable(cache[c.accountID], now) then (Ok(cache[c.accountID].token), cache)
    else match Login(login)
      case Err(e) => (Err(e), cache)
      case Ok(token) => (Ok(token), cache[c.accountID := CacheItem(token, TokenExpiry(now, exp))])
  }

  /** A token obtained by logging in is reused, whatever a login would now
      answer, until five minutes before it expires; from then on the client
      logs in again. */
  lemma TokenReused(c: Client, cache: TokenCache, now: int, login: LoginOutcome, exp: Option<int>,
                    later: int, login2: LoginOutcome, exp2: Option<int>)
    requires c.staticToken == "" && c.username != "" && c.password != ""
    requires GetToken(c, cache, now, login, exp).1 != cache
    ensures var cache1 := GetToken(c, cache, now, login, exp).1;
      var expiry := TokenExpiry(now, exp);
      && (later < expiry - RenewMargin ==>
            GetToken(c, cache1, later, login2, exp2) == (Ok(Login(login).value), cache1))
      && (later >= expiry - RenewMargin ==>
            GetToken(c, cache1, later, login2, exp2).0 == Login(login2))
  {
  }

  // ---------------------------------------------------------------------
  // Requests

  /** The decoded answer of an API call; `content` is a listing's entries
      and `rawURL` a file's download address. */
  datatype ApiResponse = ApiResponse(code: int, message: string, content: seq<OpenListEntry>, rawURL: string)

  /** What one attempt of a request comes to. */
  datatype Attempt =
    | RequestInvalid(err: string)
    | Unreachable(err: string)
    | Unreadable(err: string)
    | Undecodable(err: string, status: int)
    | Decoded(response: ApiResponse)

  /** The outcomes after which the loop tries again. */
  predicate Retryable(a: Attempt) {
    a.Unreachable? || a.Unreadable? || a.Undecodable?
  }

  /** The error a retryable outcome leaves behind. */
  function Reason(a: Attempt): string
    requires Retryable(a)
  {
    match a
    case Unreachable(e) => e
    case Unreadable(e) => e
    case Undecodable(e, status) => "解析响应失败: " + e + ", status: " + FormatInt(status)
  }

  function Exhausted(lastErr: string): string {
    "请求 OpenList 失败(重试3次): " + lastErr
  }

  /** The outcome the loop ends on. */
  function Final(outcome: nat -> Attempt): Attempt {
    outcome(Tries(outcome, Retryable) - 1)
  }

  /** The attempt loop of doPostJSON: `tries` attempts are made, and before
      attempt i > 0 the loop sleeps 2^(i-1) seconds. */
  method Attempts(outcome: nat -> Attempt) returns (r: Result<ApiResponse, string>, tries: nat, waits: seq<int>)
    ensures 1 <= tries <= MaxAttempts
    ensures |waits| == tries - 1 && forall j :: 0 <= j < |waits| ==> waits[j] == Pow2(j) * Second
    ensures forall j :: 0 <= j < tries - 1 ==> Retryable(outcome(j))
    ensures r.Ok? <==> outcome(tries - 1).Decoded?
    ensures r.Ok? ==> r.value == outcome(tries - 1).response
    ensures outcome(tries - 1).RequestInvalid? ==> r == Err(outcome(tries - 1).err)
    ensures Retryable(outcome(tries - 1)) ==> tries == MaxAttempts && r == Err(Exhausted(Reason(outcome(tries - 1))))
    ensures tries == Tries(outcome, Retryable)
  {
    waits := [];
    var lastErr := "";
    var i := 0;
    while i < MaxAttempts
      invariant 0 <= i <= MaxAttempts
      invariant |waits| == (if i == 0 then 0 else i - 1)
      invariant forall j :: 0 <= j < |waits| ==> waits[j] == Pow2(j) * Second
      invariant forall j :: 0 <= j < i ==> Retryable(outcome(j))
      invariant i > 0 ==> lastErr == Reason(outcome(i - 1))
    {
      if i > 0 {
        waits := waits + [Pow2(i - 1) * Second];
      }
      var a := outcome(i);
      TriesExactly(outcome, Retryable, i + 1);
      match a {
        case RequestInvalid(e) =>
          return Err(e), i + 1, waits;
        case Decoded(response) =>
          return Ok(response), i + 1, waits;
        case _ =>
          lastErr := Reason(a);
      }
      i := i + 1;
    }
    TriesExactly(outcome, Retryable, MaxAttempts);
    return Err(Exhausted(lastErr)), MaxAttempts, waits;
  }

  const NoBaseURL: string := "OpenList 地址未配置"

  /** What doPostJSON answers: no address, then the token, then the outcome
      the retry loop ends on. */
  function PostAnswer(c: Client, cache: TokenCache, now: int, login: LoginOutcome, exp: Option<int>,
                      outcome: nat -> Attempt): Result<ApiResponse, string>
  {
    if c.baseURL == "" then Err(NoBaseURL)
    else if GetToken(c, cache, now, login, exp).0.Err? then Err(GetToken(c, cache, now, login, exp).0.error)
    else match Final(outcome)
      case Decoded(response) => Ok(response)
      case RequestInvalid(e) => Err(e)
      case _ => Err(Exhausted(Reason(Final(outcome))))
  }

  /** What ListDirectory answers: the entries of a code-200 answer. */
  function ListAnswer(c: Client, cache: TokenCache, now: int, login: LoginOutcome, exp: Option<int>,
                      outcome: nat -> Attempt): Result<seq<OpenListEntry>, string>
  {
    match PostAnswer(c, cache, now, login, exp, outcome)
    case Err(e) => Err(e)
    case Ok(response) =>
      if response.code != 200 then Err("OpenList 列表失败(code=" + FormatInt(response.code) + "): " + response.message)
      else Ok(response.content)
  }

  /** What GetRawURL answers for a non-empty path: the raw_url of a
      code-200 answer, if it has one. */
  function RawAnswer(c: Client, cache: TokenCache, now: int, login: LoginOutcome, exp: Option<int>,
                     outcome: nat -> Attempt): Result<string, string>
  {
    match PostAnswer(c, cache, now, login, exp, outcome)
    case Err(e) => Err(e)
    case Ok(response) =>
      if response.code != 200 then Err("OpenList 获取文件失败(code=" + FormatInt(response.code) + "): " + response.message)
      else if response.rawURL == "" then Err("OpenList 未返回 raw_url")
      else Ok(response.rawURL)
  }

  /** doPostJSON: no address means no request at all; a missing token ends
      the call before any attempt. Returns the updated token cache and the
      number of attempts and waits made. */
  method PostJSON(c: Client, cache: TokenCache, now: int, login: LoginOutcome, exp: Option<int>,
                  outcome: nat -> Attempt)
    returns (r: Result<ApiResponse, string>, cache': TokenCache, tries: nat, waits: seq<int>)
    ensures c.baseURL == "" ==> r == Err(NoBaseURL) && cache' == cache && tries == 0
    ensures c.baseURL != "" ==> cache' == GetToken(c, cache, now, login, exp).1
    ensures c.baseURL != "" && GetToken(c, cache, now, login, exp).0.Err? ==>
      r == Err(GetToken(c, cache, now, login, exp).0.error) && tries == 0
    ensures tries <= MaxAttempts && |waits| == (if tries == 0 then 0 else tries - 1)
    ensures r.Ok? ==> tries > 0 && outcome(tries - 1).Decoded? && r.value == outcome(tries - 1).response
    ensures c.baseURL != "" && GetToken(c, cache, now, login, exp).0.Ok? ==>
      && tries == Tries(outcome, Retryable)
      && (r.Ok? <==> Final(outcome).Decoded?)
      && (r.Ok? ==> r.value == Final(outcome).response)
      && (Final(outcome).RequestInvalid? ==> r == Err(Final(outcome).err))
      && (Retryable(Final(outcome)) ==> r == Err(Exhausted(Reason(Final(outcome)))))
    ensures r == PostAnswer(c, cache, now, login, exp, outcome)
  {
    if c.baseURL == "" {
      return Err(NoBaseURL), cache, 0, [];
    }
    var token;
    token, cache' := GetToken(c, cache, now, login, exp).0, GetToken(c, cache, now, login, exp).1;
    if token.Err? {
      return Err(token.error), cache', 0, [];
    }
    r, tries, waits := Attempts(outcome);
  }

  /** The directory ListDirectory asks for: "" is the root, and a missing
      leading '/' is supplied. */
  function ListPath(p: string): (r: string)
    ensures HasPrefix(r, "/")
    ensures p == "" ==> r == "/"
    ensures HasPrefix(p, "/") ==> r == p
    ensures p != "" && !HasPrefix(p, "/") ==> r == "/" + p
  {
    if p == "" then "/" else if HasPrefix(p, "/") then p else "/" + p
  }

  /** ListDirectory: the entries of an answer with code 200. `path` is the
      directory the request named. */
  method ListDirectory(c: Client, cache: TokenCache, now: int, login: LoginOutcome, exp: Option<int>,
                       outcome: nat -> Attempt, dir: string)
    returns (r: Result<seq<OpenListEntry>, string>, cache': TokenCache, path: string)
    ensures path == ListPath(dir)
    ensures c.baseURL == "" ==> r == Err(NoBaseURL) && cache' == cache
    ensures c.baseURL != "" ==> cache' == GetToken(c, cache, now, login, exp).1
    ensures c.baseURL == "" || GetToken(c, cache, now, login, exp).0.Err? ==> r.Err?
    ensures c.baseURL != "" && GetToken(c, cache, now, login, exp).0.Ok? ==>
      && (r.Ok? <==> Final(outcome).Decoded? && Final(outcome).response.code == 200)
      && (r.Ok? ==> r.value == Final(outcome).response.content)
      && (Final(outcome).Decoded? && Final(outcome).response.code != 200 ==>
            r == Err("OpenList 列表失败(code=" + FormatInt(Final(outcome).response.code) + "): " + Final(outcome).response.message))
    ensures r == ListAnswer(c, cache, now, login, exp, outcome)
  {
    path := ListPath(dir);
    var answer, tries, waits;
    answer, cache', tries, waits := PostJSON(c, cache, now, login, exp, outcome);
    if answer.Err? {
      return Err(answer.error), cache', path;
    }
    var response := answer.value;
    if response.code != 200 {
      return Err("OpenList 列表失败(code=" + FormatInt(response.code) + "): " + response.message), cache', path;
    }
    r := Ok(response.content);
  }

  /** GetRawURL: an empty path is refused before any request; an answer
      without a download address is an error. */
  method GetRawURL(c: Client, cache: TokenCache, now: int, login: LoginOutcome, exp: Option<int>,
                   outcome: nat -> Attempt, file: string)
    returns (r: Result<string, string>, cache': TokenCache, tries: nat)
    ensures file == "" ==> r == Err("path 不能为空") && cache' == cache && tries == 0
    ensures file != "" && c.baseURL != "" ==> cache' == GetToken(c, cache, now, login, exp).1
    ensures r.Ok? ==>
      (&& r.value != "" && tries > 0 && outcome(tries - 1).Decoded?
       && outcome(tries - 1).response.code == 200 && r.value == outcome(tries - 1).response.rawURL)
    ensures file != "" && (c.baseURL == "" || GetToken(c, cache, now, login, exp).0.Err?) ==> r.Err? && tries == 0
    ensures file != "" && c.baseURL != "" && GetToken(c, cache, now, login, exp).0.Ok? ==>
      && tries == Tries(outcome, Retryable)
      && (r.Ok? <==> Final(outcome).Decoded? && Final(outcome).response.code == 200 && Final(outcome).response.rawURL != "")
      && (r.Ok? ==> r.value == Final(outcome).response.rawURL)
      && (Final(outcome).Decoded? && Final(outcome).response.code != 200 ==>
            r == Err("OpenList 获取文件失败(code=" + FormatInt(Final(outcome).response.code) + "): " + Final(outcome).response.message))
      && (Final(outcome).Decoded? && Final(outcome).response.code == 200 && Final(outcome).response.rawURL == "" ==>
            r == Err("OpenList 未返回 raw_url"))
    ensures file != "" ==> r == RawAnswer(c, cache, now, login, exp, outcome)
  {
    if file == "" {
      return Err("path 不能为空"), cache, 0;
    }
    var answer, waits;
    answer, cache', tries, waits := PostJSON(c, cache, now, login, exp, outcome);
    if answer.Err? {
      return Err(answer.error), cache', tries;
    }
    var response := answer.value;
    if response.code != 200 {
      return Err("OpenList 获取文件失败(code=" + FormatInt(response.code) + "): " + response.message), cache', tries;
    }
    if response.rawURL == "" {
      return Err("OpenList 未返回 raw_url"), cache', tries;
    }
    r := Ok(response.rawURL);
  }

  /** TestConnection: the account's cached token is dropped first, so a
      client without a static token logs in afresh; other accounts' tokens
      stay. The answer is the listing of "/" with that cache, whose error
      the connection test reports. */
  method TestConnection(c: Client, cache: TokenCache, now: int, login: LoginOutcome, exp: Option<int>,
                        outcome: nat -> Attempt)
    returns (r: Result<seq<OpenListEntry>, string>, cache': TokenCache)
    ensures forall id :: id in cache && id != c.accountID ==> id in cache' && cache'[id] == cache[id]
    ensures c.baseURL != "" && c.staticToken == "" && c.username != "" && c.password != "" ==>
      (c.accountID in cache' <==> Login(login).Ok?)
      && (c.accountID in cache' ==> cache'[c.accountID] == CacheItem(Login(login).value, TokenExpiry(now, exp)))
    ensures r == ListAnswer(c, cache - {c.accountID}, now, login, exp, outcome)
    ensures c.baseURL == "" ==> r == Err(NoBaseURL)
  {
    var evicted := cache - {c.accountID};
    var path;
    r, cache', path := ListDirectory(c, evicted, now, login, exp, outcome, "/");
  }
}

=== FILE: pan123_client.dfy ===
/** The 123Pan client (internal/pan123/client.go), which also fronts OpenList
    accounts for the scanner and the stream handler: the access-token cache,
    the list cache and its size bound, the three-attempt request loop and
    how a download address is found for either kind of account. Every answer
    of the network is a parameter; instants are nanoseconds. */
module Pan123Client {
  import opened Results
  import opened Clock
  import opened Retry
  import opened Decimal
  import opened Models

  // ---------------------------------------------------------------------
  // The list cache

  /** One cached page: its entries, the id to continue after, and when the
      entry stops being served. */
  datatype ListCacheItem = ListCacheItem(data: seq<FileInfo>, next: int, expiresAt: int)

  type ListCache = map<string, ListCacheItem>

  /** The number of cached pages above which the cache is cleaned up. */
  const CacheBound: nat := 3000

  predicate Expired(item: ListCacheItem, now: int) {
    now > item.expiresAt
  }

  /** cleanupCache: a cache within the bound stays as it is; otherwise the
      expired pages go, and if that is not enough, all of them. */
  function CleanupCache(cache: ListCache, now: int): (r: ListCache)
    ensures |r| <= CacheBound
    ensures |cache| <= CacheBound ==> r == cache
    ensures forall k :: k in r ==> k in cache && r[k] == cache[k]
    ensures |cache| > CacheBound ==> forall k :: k in r ==> !Expired(r[k], now)
    ensures |cache| > CacheBound && r != map[] ==>
      forall k :: k in cache && !Expired(cache[k], now) ==> k in r
  {
    if |cache| <= CacheBound then cache
    else
      var kept := map k | k in cache && !Expired(cache[k], now) :: cache[k];
      if |kept| > CacheBound then map[] else kept
  }

  /** After a cleanup no further cleanup changes anything. */
  lemma CleanupSettles(cache: ListCache, now: int, later: int)
    ensures CleanupCache(CleanupCache(cache, now), later) == CleanupCache(cache, now)
  {
  }

  /** A page served from the cache when the account caches at all and the
      entry has not expired. */
  function Cached(cache: ListCache, key: string, cacheTTL: int, now: int): (r: Option<ListCacheItem>)
    ensures r.Some? <==> cacheTTL > 0 && key in cache && now < cache[key].expiresAt
    ensures r.Some? ==> r.value == cache[key]
  {
    if cacheTTL > 0 && key in cache && now < cache[key].expiresAt then Some(cache[key]) else None
  }

  /** The cache after storing a freshly fetched page for `cacheTTL` minutes;
      an account with no positive TTL stores nothing. */
  function Store(cache: ListCache, key: string, cacheTTL: int, now: int, data: seq<FileInfo>, next: int): (r: ListCache)
    ensures cacheTTL <= 0 ==> r == cache
    ensures cacheTTL > 0 ==> key in r && r[key].data == data && r[key].next == next
    ensures cacheTTL > 0 ==> r[key].expiresAt == now + cacheTTL * Minute
    ensures forall k :: k in cache && k != key ==> k in r && r[k] == cache[k]
  {
    if cacheTTL > 0 then cache[key := ListCacheItem(data, next, now + cacheTTL * Minute)] else cache
  }

  // ---------------------------------------------------------------------
  // Access tokens

  datatype TokenItem = TokenItem(token: string, expiresAt: int)

  /** The per-account token cache; an entry is created, empty, the first
      time an account asks for a token. */
  type TokenCache = map<nat, TokenItem>

  const RenewMargin: int := 5 * Minute

  predicate Usable(item: TokenItem, now: int) {
    item.token != "" && now < item.expiresAt - RenewMargin
  }

  /** What the access_token call returns. `expiry` is the instant its
      expiredAt text parses to, in either accepted layout, or None. */
  datatype TokenOutcome =
    | TokenRequestInvalid(err: string)
    | TokenUnreachable(err: string)
    | TokenUndecodable(err: string)
    | TokenAnswer(code: int, message: string, accessToken: string, expiry: Option<int>)

  /** The token a successful answer carries and its expiry. */
  function FetchToken(o: TokenOutcome): (r: Result<TokenItem, string>)
    ensures r.Ok? <==> o.TokenAnswer? && o.code == 0 && o.accessToken != "" && o.expiry.Some?
    ensures r.Ok? ==> r.value == TokenItem(o.accessToken, o.expiry.value)
  {
    match o
    case TokenRequestInvalid(e) => Err("创建 AccessToken 请求失败: " + e)
    case TokenUnreachable(e) => Err("请求 AccessToken 失败: " + e)
    case TokenUndecodable(e) => Err("解析 AccessToken 响应失败: " + e)
    case TokenAnswer(code, message, token, expiry) =>
      if code != 0 then Err("获取 AccessToken API 错误 (code: " + FormatInt(code) + "): " + message)
      else if token == "" then Err("API 未返回有效的 AccessToken")
      else if expiry.None? then Err("解析 Token 过期时间失败")
      else Ok(TokenItem(token, expiry.value))
  }

  /** getAccessToken: a usable cached token, or a fetched one that replaces
      it. The account always has an entry afterwards. */
  function GetAccessToken(id: nat, cache: TokenCache, now: int, o: TokenOutcome): (r: (Result<string, string>, TokenCache))
    ensures id in r.1
    ensures forall k :: k in cache && k != id ==> k in r.1 && r.1[k] == cache[k]
    ensures forall k :: k in r.1 ==> k in cache || k == id
    ensures id in cache && Usable(cache[id], now) ==> r == (Ok(cache[id].token), cache)
    ensures !(id in cache && Usable(cache[id], now)) ==>
      (r.0.Ok? <==> FetchToken(o).Ok?)
      && (r.0.Ok? ==> r.0.value == FetchToken(o).value.token && r.1[id] == FetchToken(o).value)
    ensures r.0.Err? && id in cache ==> r.1 == cache
  {
    var entry := if id in cache then cache[id] else TokenItem("", 0);
    var cache' := if id in cache then cache else cache[id := entry];
    if Usable(entry, now) then (Ok(entry.token), cache')
    else match FetchToken(o)
      case Err(e) => (Err(e), cache')
      case Ok(item) => (Ok(item.token), cache[id := item])
  }

  /** ClearTokenCache: only the given account's token goes. */
  function ClearTokenCache(cache: TokenCache, id: nat): (r: TokenCache)
    ensures id !in r
    ensures forall k :: k != id ==> (k in r <==> k in cache) && (k in r ==> r[k] == cache[k])
  {
    cache - {id}
  }

  /** After the cache is cleared the next request fetches a token, and a
      fetched token is then reused until five minutes before it expires. */
  lemma ClearedTokenFetched(cache: TokenCache, id: nat, now: int, o: TokenOutcome, later: int, o2: TokenOutcome)
    ensures GetAccessToken(id, ClearTokenCache(cache, id), now, o).0 == (
      match FetchToken(o)
      case Ok(item) => Ok(item.token)
      case Err(e) => Err(e))
    ensures var after := GetAccessToken(id, ClearTokenCache(cache, id), now, o).1;
      FetchToken(o).Ok? && later < FetchToken(o).value.expiresAt - RenewMargin ==>
        GetAccessToken(id, after, later, o2) == (Ok(FetchToken(o).value.token), after)
  {
  }

  // ---------------------------------------------------------------------
  // Authorized requests

  /** What one attempt of an authorized request comes to; `data` is the
      answer's data field. */
  datatype Attempt<D> =
    | RequestInvalid(err: string)
    | Unreachable(err: string)
    | Unreadable(err: string)
    | Undecodable(err: string)
    | Answered(code: int, message: string, data: D)

  /** Code 429 is the rate limit. */
  const RateLimited: int := 429

  /** The outcomes after which the loop tries again: no answer, or the rate
      limit. */
  predicate Retryable<D>(a: Attempt<D>) {
    a.Unreachable? || a.Unreadable? || a.Undecodable? || (a.Answered? && a.code == RateLimited)
  }

  function Reason<D>(a: Attempt<D>): string
    requires Retryable(a)
  {
    match a
    case Unreachable(e) => e
    case Unreadable(e) => e
    case Undecodable(e) => "解析 JSON 失败: " + e
    case Answered(_, _, _) => "API 频率限制 (429)"
  }

  /** The pause after a rate-limited answer. */
  const RatePause: int := 3 * Second

  /** The number of rate-limited answers among the first n attempts. */
  function Throttled<D>(outcome: nat -> Attempt<D>, n: nat): nat {
    if n == 0 then 0
    else Throttled(outcome, n - 1) + (if outcome(n - 1).Answered? && outcome(n - 1).code == RateLimited then 1 else 0)
  }

  function Exhausted(lastErr: string): string {
    "请求 123Pan 失败(重试3次): " + lastErr
  }

  /** The outcome the loop ends on. */
  function Final<D>(outcome: nat -> Attempt<D>): Attempt<D> {
    outcome(Tries(outcome, Retryable<D>) - 1)
  }

  /** sendAuthorizedRequest: attempt i > 0 is preceded by a 2^(i-1) s
      backoff, and every rate-limited answer adds a 3 s pause. Code 0
      returns the data; any other code except 429 fails at once. */
  method SendAuthorized<D>(outcome: nat -> Attempt<D>)
    returns (r: Result<D, string>, tries: nat, backoff: seq<int>, pauses: nat)
    ensures 1 <= tries <= MaxAttempts
    ensures |backoff| == tries - 1 && forall j :: 0 <= j < |backoff| ==> backoff[j] == Pow2(j) * Second
    ensures pauses == Throttled(outcome, tries)
    ensures forall j :: 0 <= j < tries - 1 ==> Retryable(outcome(j))
    ensures r.Ok? <==> outcome(tries - 1).Answered? && outcome(tries - 1).code == 0
    ensures r.Ok? ==> r.value == outcome(tries - 1).data
    ensures outcome(tries - 1).RequestInvalid? ==> r == Err("创建请求失败: " + outcome(tries - 1).err)
    ensures outcome(tries - 1).Answered? && outcome(tries - 1).code != 0 && outcome(tries - 1).code != RateLimited ==>
      r == Err("123Pan API 错误 (code: " + FormatInt(outcome(tries - 1).code) + "): " + outcome(tries - 1).message)
    ensures Retryable(outcome(tries - 1)) ==> tries == MaxAttempts && r == Err(Exhausted(Reason(outcome(tries - 1))))
    ensures tries == Tries(outcome, Retryable<D>)
  {
    backoff := [];
    pauses := 0;
    var lastErr := "";
    var i := 0;
    while i < MaxAttempts
      invariant 0 <= i <= MaxAttempts
      invariant |backoff| == (if i == 0 then 0 else i - 1)
      invariant forall j :: 0 <= j < |backoff| ==> backoff[j] == Pow2(j) * Second
      invariant forall j :: 0 <= j < i ==> Retryable(outcome(j))
      invariant pauses == Throttled(outcome, i)
      invariant i > 0 ==> lastErr == Reason(outcome(i - 1))
    {
      if i > 0 {
        backoff := backoff + [Pow2(i - 1) * Second];
      }
      var a := outcome(i);
      TriesExactly(outcome, Retryable<D>, i + 1);
      match a {
        case RequestInvalid(e) =>
          return Err("创建请求失败: " + e), i + 1, backoff, pauses;
        case Answered(code, message, data) =>
          if code == RateLimited {
            pauses := pauses + 1;
            lastErr := Reason(a);
          } else if code != 0 {
            return Err("123Pan API 错误 (code: " + FormatInt(code) + "): " + message), i + 1, backoff, pauses;
          } else {
            return Ok(data), i + 1, backoff, pauses;
          }
        case _ =>
          lastErr := Reason(a);
      }
      i := i + 1;
    }
    TriesExactly(outcome, Retryable<D>, MaxAttempts);
    return Err(Exhausted(lastErr)), MaxAttempts, backoff, pauses;
  }

  // ---------------------------------------------------------------------
  // Listings

  /** The data field of a listing answer, or why it does not decode. */
  datatype ListData = ListData(fileList: seq<FileInfo>, lastFileId: int) | ListGarbled(err: string)

  /** The query of a listing request; the id to continue after is sent only
      when it is positive. */
  function ListParams(parentFileId: int, limit: int, lastFileId: int): (q: map<string, string>)
    ensures "lastFileId" in q <==> lastFileId > 0
    ensures "parentFileId" in q && "limit" in q && "trashed" in q && "orderBy" in q && "orderDirection" in q
    ensures lastFileId > 0 ==> q["lastFileId"] == FormatInt(lastFileId)
    ensures q["parentFileId"] == FormatInt(parentFileId) && q["limit"] == FormatInt(limit)
    ensures q["trashed"] == "0" && q["orderBy"] == "fileId" && q["orderDirection"] == "asc"
  {
    var q := map["parentFileId" := FormatInt(parentFileId), "limit" := FormatInt(limit), "trashed" := "0",
                 "orderBy" := "fileId", "orderDirection" := "asc"];
    if lastFileId > 0 then q["lastFileId" := FormatInt(lastFileId)] else q
  }

  function ListKey(accountID: nat, parentFileId: int, lastFileId: int): string {
    "list:" + FormatInt(accountID) + ":" + FormatInt(parentFileId) + ":" + FormatInt(lastFileId)
  }

  /** ListFiles. `outcome` is the listing request's attempts for the query
      `params`; `o` the token call's answer. An account that is not a 123Pan
      one lists nothing and reports -1. */
  method ListFiles(account: Account, lists: ListCache, tokens: TokenCache, now: int, o: TokenOutcome,
                   outcome: nat -> Attempt<ListData>, parentFileId: int, limit: int, lastFileId: int)
    returns (r: Result<(seq<FileInfo>, int), string>, lists': ListCache, tokens': TokenCache, params: Option<map<string, string>>)
    ensures account.kind != Pan123 ==> r == Ok(([], -1)) && lists' == lists && tokens' == tokens && params.None?
    ensures account.kind == Pan123 && Cached(lists, ListKey(account.id, parentFileId, lastFileId), account.cacheTTL, now).Some? ==>
      var item := lists[ListKey(account.id, parentFileId, lastFileId)];
      r == Ok((item.data, item.next)) && lists' == lists && tokens' == tokens && params.None?
    ensures params.Some? ==> params.value == ListParams(parentFileId, limit, lastFileId)
    ensures r.Ok? && params.Some? ==>
      lists' == Store(lists, ListKey(account.id, parentFileId, lastFileId), account.cacheTTL, now, r.value.0, r.value.1)
    ensures r.Err? ==> lists' == lists
    ensures account.kind == Pan123 && Cached(lists, ListKey(account.id, parentFileId, lastFileId), account.cacheTTL, now).None? ==>
      var token := GetAccessToken(account.id, tokens, now, o).0;
      && tokens' == GetAccessToken(account.id, tokens, now, o).1
      && (token.Err? ==> r == Err("获取 AccessToken 失败: " + token.error) && params.None?)
      && (token.Ok? ==>
            && params.Some?
            && (r.Ok? <==> Final(outcome).Answered? && Final(outcome).code == 0 && Final(outcome).data.ListData?)
            && (r.Ok? ==> r.value == (Final(outcome).data.fileList, Final(outcome).data.lastFileId)))
  {
    if account.kind != Pan123 {
      return Ok(([], -1)), lists, tokens, None;
    }
    var key := ListKey(account.id, parentFileId, lastFileId);
    var hit := Cached(lists, key, account.cacheTTL, now);
    if hit.Some? {
      return Ok((hit.value.data, hit.value.next)), lists, tokens, None;
    }
    var token;
    token, tokens' := GetAccessToken(account.id, tokens, now, o).0, GetAccessToken(account.id, tokens, now, o).1;
    if token.Err? {
      return Err("获取 AccessToken 失败: " + token.error), lists, tokens', None;
    }
    params := Some(ListParams(parentFileId, limit, lastFileId));
    var answer, tries, backoff, pauses := SendAuthorized(outcome);
    if answer.Err? {
      return Err(answer.error), lists, tokens', params;
    }
    match answer.value {
      case ListGarbled(e) =>
        return Err("解析文件列表数据失败: " + e), lists, tokens', params;
      case ListData(files, next) =>
        lists' := Store(lists, key, account.cacheTTL, now, files, next);
        r := Ok((files, next));
    }
  }

  /** An OpenList entry as the scanner sees it: no id, never trashed, type 1
      for a folder. */
  function AsFileInfo(e: OpenListEntry): (f: FileInfo)
    ensures f.fileId == 0 && f.trashed == 0 && f.fileName == e.name && f.size == e.size
    ensures IsDir(f) <==> e.isDir
    ensures f.fileType == 0 || f.fileType == 1
  {
    FileInfo(0, e.name, if e.isDir then 1 else 0, e.size, 0)
  }

  function AsFileInfos(entries: seq<OpenListEntry>): (r: seq<FileInfo>)
    ensures |r| == |entries|
    ensures forall i :: 0 <= i < |entries| ==> r[i] == AsFileInfo(entries[i])
  {
    if |entries| == 0 then [] else [AsFileInfo(entries[0])] + AsFileInfos(entries[1..])
  }

  function OpenListKey(accountID: nat, parentPath: string): string {
    "list:" + FormatInt(accountID) + ":" + parentPath
  }

  /** ListOpenListDirectory. `list` is the OpenList client's answer for the
      directory. The client exists exactly for OpenList accounts. */
  function ListOpenListDirectory(account: Account, lists: ListCache, now: int, parentPath: string,
                                 list: Result<seq<OpenListEntry>, string>): (r: (Result<seq<FileInfo>, string>, ListCache))
    ensures account.kind != OpenList ==> r == (Err("OpenList 客户端未初始化"), lists)
    ensures (account.kind == OpenList && list.Err?
             && Cached(lists, OpenListKey(account.id, parentPath), account.cacheTTL, now).None?) ==>
      r == (Err("OpenList 列表失败: " + list.error), lists)
    ensures account.kind == OpenList && Cached(lists, OpenListKey(account.id, parentPath), account.cacheTTL, now).Some? ==>
      r == (Ok(lists[OpenListKey(account.id, parentPath)].data), lists)
    ensures (account.kind == OpenList && list.Ok?
             && Cached(lists, OpenListKey(account.id, parentPath), account.cacheTTL, now).None?) ==>
      r.0 == Ok(AsFileInfos(list.value))
      && r.1 == Store(lists, OpenListKey(account.id, parentPath), account.cacheTTL, now, AsFileInfos(list.value), 0)
  {
    if account.kind != OpenList then (Err("OpenList 客户端未初始化"), lists)
    else
      var key := OpenListKey(account.id, parentPath);
      match Cached(lists, key, account.cacheTTL, now)
      case Some(item) => (Ok(item.data), lists)
      case None =>
        match list
        case Err(e) => (Err("OpenList 列表失败: " + e), lists)
        case Ok(entries) =>
          var files := AsFileInfos(entries);
          (Ok(files), Store(lists, key, account.cacheTTL, now, files, 0))
  }

  /** A listing fetched from the server is served from the cache for the
      TTL, whatever the server would answer by then. */
  lemma {:induction false} OpenListListingCached(account: Account, lists: ListCache, now: int, parentPath: string,
                                                 entries: seq<OpenListEntry>, later: int,
                                                 list2: Result<seq<OpenListEntry>, string>)
    requires account.kind == OpenList && account.cacheTTL > 0
    requires now <= later < now + account.cacheTTL * Minute
    requires Cached(lists, OpenListKey(account.id, parentPath), account.cacheTTL, now).None?
    ensures var first := ListOpenListDirectory(account, lists, now, parentPath, Ok(entries));
      first.0.Ok? ==> ListOpenListDirectory(account, first.1, later, parentPath, list2) == (first.0, first.1)
  {
    var key := OpenListKey(account.id, parentPath);
    var first := ListOpenListDirectory(account, lists, now, parentPath, Ok(entries));
    assert first.1[key] == ListCacheItem(AsFileInfos(entries), 0, now + account.cacheTTL * Minute);
  }

  // ---------------------------------------------------------------------
  // Download addresses

  /** The data field of a download_info answer. */
  datatype DownloadData = DownloadInfo(downloadURL: string) | DownloadGarbled(err: string)

  /** The 123Pan file id an identifier names: an int64 as it is, a string
      that parses as one, nothing else. */
  function PanFileId(identifier: Identifier): (r: Result<int, string>)
    ensures identifier.Int64Id? ==> r == Ok(identifier.n)
    ensures identifier.StringId? ==> (r.Ok? <==> ParseInt64(identifier.text).Valid?)
    ensures identifier.StringId? && r.Ok? ==> r.value == ParseInt64(identifier.text).n
    ensures identifier.OtherId? ==> r == Err("123Pan ID 类型错误")
  {
    match identifier
    case Int64Id(n) => Ok(n)
    case StringId(s) =>
      (match ParseInt64(s)
       case Valid(n) => Ok(n)
       case Invalid(_, _) => Err("无效的 FileID: " + s))
    case OtherId => Err("123Pan ID 类型错误")
  }

  /** GetDownloadURL. For an OpenList account `rawURL` is the OpenList
      client's GetRawURL; for any other account the token call answers `o`
      and the download_info request's attempts are `outcome`. `fileId` is
      the id the request asked for. */
  method GetDownloadURL(account: Account, identifier: Identifier, tokens: TokenCache, now: int,
                        rawURL: string -> Result<string, string>, o: TokenOutcome,
                        outcome: nat -> Attempt<DownloadData>)
    returns (r: Result<string, string>, tokens': TokenCache, fileId: Option<int>)
    ensures account.kind == OpenList ==> tokens' == tokens && fileId.None?
    ensures account.kind == OpenList && identifier.StringId? ==> r == rawURL(identifier.text)
    ensures account.kind == OpenList && !identifier.StringId? ==> r == Err("OpenList 需要路径参数")
    ensures account.kind != OpenList && PanFileId(identifier).Err? ==>
      r == Err(PanFileId(identifier).error) && tokens' == tokens && fileId.None?
    ensures fileId.Some? ==> PanFileId(identifier) == Ok(fileId.value)
    ensures account.kind != OpenList && r.Ok? ==> r.value != "" && fileId.Some?
    ensures account.kind != OpenList && PanFileId(identifier).Ok? ==>
      var token := GetAccessToken(account.id, tokens, now, o).0;
      && fileId == Some(PanFileId(identifier).value)
      && tokens' == GetAccessToken(account.id, tokens, now, o).1
      && (token.Err? ==> r == Err("获取 AccessToken 失败: " + token.error))
      && (token.Ok? ==>
            && (r.Ok? <==> Final(outcome).Answered? && Final(outcome).code == 0
                           && Final(outcome).data.DownloadInfo? && Final(outcome).data.downloadURL != "")
            && (r.Ok? ==> r.value == Final(outcome).data.downloadURL))
  {
    if account.kind == OpenList {
      if !identifier.StringId? {
        return Err("OpenList 需要路径参数"), tokens, None;
      }
      return rawURL(identifier.text), tokens, None;
    }
    var id := PanFileId(identifier);
    if id.Err? {
      return Err(id.error), tokens, None;
    }
    fileId := Some(id.value);
    var token;
    token, tokens' := GetAccessToken(account.id, tokens, now, o).0, GetAccessToken(account.id, tokens, now, o).1;
    if token.Err? {
      return Err("获取 AccessToken 失败: " + token.error), tokens', fileId;
    }
    var answer, tries, backoff, pauses := SendAuthorized(outcome);
    if answer.Err? {
      return Err(answer.error), tokens', fileId;
    }
    match answer.value {
      case DownloadGarbled(e) =>
        return Err("解析下载链接失败: " + e), tokens', fileId;
      case DownloadInfo(url) =>
        if url == "" {
          return Err("API 未返回下载链接"), tokens', fileId;
        }
        r := Ok(url);
    }
  }
}

=== FILE: redirects.dfy ===
/** GetFinalURL (internal/utils/network.go): HEAD requests follow a chain of
    redirects to the address that finally answers. `head` is the server's
    answer to a HEAD request for an address; a redirect's location is given
    as net/http's Response.Location returns it. */
module Redirects {
  import opened Results
  import opened Text

  const MaxRedirectAttempts: nat := 10

  /** The most requests one call makes: the first and ten redirects. */
  const MaxRequests: nat := MaxRedirectAttempts + 1

  /** Why no final address was found. */
  datatype RedirectError =
    | InvalidURL(reason: string)
    | MissingScheme(url: string)
    | LoopDetected(chain: seq<string>)
    | RequestNotCreated(err: string)
    | RequestFailed(err: string)
    | InvalidLocationHeader
    | MaxRedirectsExceeded

  /** The error's text as the service reports it. */
  function Message(e: RedirectError): string {
    match e
    case InvalidURL(reason) => "非法 URL： " + reason
    case MissingScheme(url) => "URL 缺少协议头： " + url
    case LoopDetected(chain) => "检测到循环重定向，重定向链: " + Arrows(chain)
    case RequestNotCreated(err) => "创建请求失败: " + err
    case RequestFailed(err) => "发送 HTTP 请求失败：" + err
    case InvalidLocationHeader => "重定向 Location 头无效"
    case MaxRedirectsExceeded => "超过最大重定向次数限制（10）"
  }

  /** A server's answer to a HEAD request. */
  datatype HeadOutcome =
    | RequestInvalid(err: string)
    | Failed(err: string)
    | Status(code: int, location: Option<string>)

  predicate IsRedirect(code: int) {
    300 <= code < 400
  }

  // ---------------------------------------------------------------------
  // The parts of net/url the loop reads

  predicate IsLetter(c: char) {
    'a' <= c <= 'z' || 'A' <= c <= 'Z'
  }

  predicate SchemeChar(c: char) {
    IsLetter(c) || '0' <= c <= '9' || c == '+' || c == '-' || c == '.'
  }

  /** How url.Parse reads a scheme: letters, then also digits, '+', '-' or
      '.', up to a ':'. A ':' first is an error; any other char ends the
      scan with no scheme. */
  datatype SchemeScan = NoScheme | LeadingColon | SchemeEnds(at: nat)

  function ScanScheme(s: string, i: nat): (r: SchemeScan)
    requires i <= |s|
    ensures r.SchemeEnds? ==> 0 < r.at < |s| && s[r.at] == ':' && i <= r.at
    ensures r.SchemeEnds? ==> forall k :: i <= k < r.at ==> SchemeChar(s[k])
    ensures r.LeadingColon? ==> i == 0 && |s| > 0 && s[0] == ':'
    decreases |s| - i
  {
    if i == |s| then NoScheme
    else if IsLetter(s[i]) then ScanScheme(s, i + 1)
    else if SchemeChar(s[i]) then (if i == 0 then NoScheme else ScanScheme(s, i + 1))
    else if s[i] == ':' then (if i == 0 then LeadingColon else SchemeEnds(i))
    else NoScheme
  }

  /** The scheme of an address, "" when it has none. */
  function Scheme(s: string): (r: string)
    ensures r != "" ==> HasPrefix(s, r + ":") && IsLetter(r[0])
  {
    match ScanScheme(s, 0)
    case SchemeEnds(n) =>
      assert IsLetter(s[0]) by {
        assert ScanScheme(s, 0) != NoScheme;
      }
      s[..n]
    case _ => ""
  }

  /** The text up to the first of the given chars. */
  function Before(s: string, stops: set<char>): (r: string)
    ensures HasPrefix(s, r)
    ensures forall i :: 0 <= i < |r| ==> r[i] !in stops
  {
    if |s| == 0 || s[0] in stops then "" else [s[0]] + Before(s[1..], stops)
  }

  /** The text after the last '@', or all of it. */
  function AfterLastAt(s: string): (r: string)
    ensures '@' !in r
  {
    if |s| == 0 then ""
    else if s[|s| - 1] == '@' then ""
    else AfterLastAt(s[..|s| - 1]) + [s[|s| - 1]]
  }

  /** The host of an address "scheme://authority/...": the authority up to
      the path, query or fragment, without user information. */
  function Host(s: string): string {
    var rest := s[|Scheme(s)| + (if Scheme(s) == "" then 0 else 1)..];
    if HasPrefix(rest, "//") then AfterLastAt(Before(rest[2..], {'/', '?', '#'})) else ""
  }

  /** The address a redirect leads to: the location when it starts with
      "http", else the location below the current request's scheme and
      host. */
  function NextURL(current: string, location: string): (r: string)
    ensures HasPrefix(location, "http") ==> r == location
    ensures !HasPrefix(location, "http") ==> r == Scheme(current) + "://" + Host(current) + location
    ensures HasSuffix(r, location)
  {
    if HasPrefix(location, "http") then location else Scheme(current) + "://" + Host(current) + location
  }

  /** `head` answers `a` with a redirect that leads to `b`. */
  predicate Leads(head: string -> HeadOutcome, a: string, b: string) {
    && head(a).Status? && IsRedirect(head(a).code) && head(a).location.Some?
    && NextURL(a, head(a).location.value) == b
  }

  /** The addresses joined with " -> ", as the loop error lists them. */
  function Arrows(chain: seq<string>): string {
    if |chain| == 0 then ""
    else if |chain| == 1 then chain[0]
    else chain[0] + " -> " + Arrows(chain[1..])
  }

  // ---------------------------------------------------------------------
  // The loop

  /** The loop from address `current` on, with the addresses already
      requested in `chain`; returns the outcome and the whole chain of
      requested addresses. */
  function Follow(current: string, head: string -> HeadOutcome, chain: seq<string>): (r: (Result<string, RedirectError>, seq<string>))
    requires |chain| <= MaxRequests
    ensures |chain| <= |r.1| <= MaxRequests && r.1[..|chain|] == chain
    ensures r.0.Ok? ==> |r.1| > |chain| && r.0.value == r.1[|r.1| - 1]
    ensures r.0.Ok? ==> head(r.0.value).Status? && !IsRedirect(head(r.0.value).code)
    ensures r.0 == Err(MaxRedirectsExceeded) ==> |r.1| == MaxRequests
    ensures |chain| == MaxRequests ==> r == (Err(MaxRedirectsExceeded), chain)
    ensures |chain| < MaxRequests && current in chain ==> r == (Err(LoopDetected(chain)), chain)
    ensures |chain| < MaxRequests && current !in chain && head(current).RequestInvalid? ==>
      r == (Err(RequestNotCreated(head(current).err)), chain + [current])
    ensures |chain| < MaxRequests && current !in chain && head(current).Failed? ==>
      r == (Err(RequestFailed(head(current).err)), chain + [current])
    ensures |chain| < MaxRequests && current !in chain && head(current).Status? && !IsRedirect(head(current).code) ==>
      r == (Ok(current), chain + [current])
    ensures |chain| < MaxRequests && current !in chain && head(current).Status? && IsRedirect(head(current).code) && head(current).location.None? ==>
      r == (Err(InvalidLocationHeader), chain + [current])
    decreases MaxRequests - |chain|
  {
    if |chain| == MaxRequests then (Err(MaxRedirectsExceeded), chain)
    else if current in chain then (Err(LoopDetected(chain)), chain)
    else
      var chain' := chain + [current];
      match head(current)
      case RequestInvalid(e) => (Err(RequestNotCreated(e)), chain')
      case Failed(e) => (Err(RequestFailed(e)), chain')
      case Status(code, location) =>
        if !IsRedirect(code) then (Ok(current), chain')
        else if location.None? then (Err(InvalidLocationHeader), chain')
        else
          var r := Follow(NextURL(current, location.value), head, chain');
          assert r.1[..|chain|] == r.1[..|chain'|][..|chain|];
          r
  }

  /** GetFinalURL: an address with no scheme is refused before any request.
      The second component is the chain of requested addresses. */
  function GetFinalURL(raw: string, head: string -> HeadOutcome): (r: (Result<string, RedirectError>, seq<string>))
    ensures ScanScheme(raw, 0).LeadingColon? ==> r == (Err(InvalidURL("missing protocol scheme")), [])
    ensures !ScanScheme(raw, 0).LeadingColon? && Scheme(raw) == "" ==> r == (Err(MissingScheme(raw)), [])
    ensures |r.1| <= MaxRequests
    ensures |r.1| > 0 ==> Scheme(raw) != "" && r.1[0] == raw
    ensures r.0.Ok? ==> |r.1| > 0 && r.0.value == r.1[|r.1| - 1]
  {
    if ScanScheme(raw, 0).LeadingColon? then (Err(InvalidURL("missing protocol scheme")), [])
    else if Scheme(raw) == "" then (Err(MissingScheme(raw)), [])
    else Follow(raw, head, [])
  }

  /** Along a chain of distinct addresses, each redirecting to the next,
      the loop reaches the last address with all the others requested. */
  lemma {:induction false} FollowAlong(a: seq<string>, k: nat, head: string -> HeadOutcome)
    requires 0 < |a| <= MaxRequests && Distinct(a) && k < |a|
    requires forall j :: 0 <= j < |a| - 1 ==> Leads(head, a[j], a[j + 1])
    ensures Follow(a[k], head, a[..k]) == Follow(a[|a| - 1], head, a[..|a| - 1])
    decreases |a| - k
  {
    if k < |a| - 1 {
      FreshAt(a, k);
      FollowRedirects(a[k], a[k + 1], head, a[..k]);
      SliceExtends(a, k);
      FollowAlong(a, k + 1, head);
    }
  }

  /** A redirect to `next` continues the loop there with `current` added. */
  lemma FollowRedirects(current: string, next: string, head: string -> HeadOutcome, chain: seq<string>)
    requires |chain| < MaxRequests && current !in chain && Leads(head, current, next)
    ensures Follow(current, head, chain) == Follow(next, head, chain + [current])
  {
  }

  /** In a sequence without repeats, no element occurs before its place. */
  lemma FreshAt<T>(a: seq<T>, k: nat)
    requires Distinct(a) && k < |a|
    ensures a[k] !in a[..k]
  {
    assert forall i :: 0 <= i < k ==> a[..k][i] == a[i] != a[k];
  }

  lemma SliceExtends<T>(a: seq<T>, k: nat)
    requires k < |a|
    ensures a[..k] + [a[k]] == a[..k + 1]
  {
  }

  /** A chain of at most eleven distinct addresses, each redirecting to the
      next, that ends on an address answered without a redirect: that
      address is the result, and every address of the chain was requested. */
  lemma ChainAnswered(a: seq<string>, head: string -> HeadOutcome)
    requires 0 < |a| <= MaxRequests && Distinct(a) && Scheme(a[0]) != ""
    requires forall j :: 0 <= j < |a| - 1 ==> Leads(head, a[j], a[j + 1])
    requires head(a[|a| - 1]).Status? && !IsRedirect(head(a[|a| - 1]).code)
    ensures GetFinalURL(a[0], head) == (Ok(a[|a| - 1]), a)
  {
    assert !ScanScheme(a[0], 0).LeadingColon?;
    assert a[..0] == [];
    FollowAlong(a, 0, head);
    FreshAt(a, |a| - 1);
    SliceExtends(a, |a| - 1);
    assert a[..|a|] == a;
  }

  /** Such a chain ending on a redirect without a Location header fails
      with the invalid-location error after requesting every address. */
  lemma ChainWithoutLocation(a: seq<string>, head: string -> HeadOutcome)
    requires 0 < |a| <= MaxRequests && Distinct(a) && Scheme(a[0]) != ""
    requires forall j :: 0 <= j < |a| - 1 ==> Leads(head, a[j], a[j + 1])
    requires head(a[|a| - 1]).Status? && IsRedirect(head(a[|a| - 1]).code) && head(a[|a| - 1]).location.None?
    ensures GetFinalURL(a[0], head) == (Err(InvalidLocationHeader), a)
  {
    assert !ScanScheme(a[0], 0).LeadingColon?;
    assert a[..0] == [];
    FollowAlong(a, 0, head);
    FreshAt(a, |a| - 1);
    SliceExtends(a, |a| - 1);
    assert a[..|a|] == a;
  }

  /** Where the redirect of the last address of a chain leads; None when
      the chain is empty or the last answer is no redirect. */
  function LoopTarget(head: string -> HeadOutcome, chain: seq<string>): Option<string> {
    if |chain| == 0 then None
    else
      var h := head(chain[|chain| - 1]);
      if h.Status? && IsRedirect(h.code) && h.location.Some? then Some(NextURL(chain[|chain| - 1], h.location.value)) else None
  }

  /** Every address the loop requests is new, and each one after the first
      is where the previous one's redirect led. */
  lemma {:induction false} FollowChain(current: string, head: string -> HeadOutcome, chain: seq<string>)
    requires |chain| <= MaxRequests && Distinct(chain)
    requires |chain| > 0 ==> Leads(head, chain[|chain| - 1], current)
    requires forall j :: 0 <= j < |chain| - 1 ==> Leads(head, chain[j], chain[j + 1])
    ensures var out := Follow(current, head, chain).1;
      && Distinct(out)
      && (|out| > |chain| ==> out[|chain|] == current)
      && (forall j :: 0 <= j < |out| - 1 ==> Leads(head, out[j], out[j + 1]))
    decreases MaxRequests - |chain|
  {
    if |chain| < MaxRequests && current !in chain {
      var chain' := chain + [current];
      assert Distinct(chain');
      assert forall j :: 0 <= j < |chain'| - 1 ==> Leads(head, chain'[j], chain'[j + 1]) by {
        forall j | 0 <= j < |chain'| - 1
          ensures Leads(head, chain'[j], chain'[j + 1])
        {
          assert chain'[j] == chain[j];
          if j < |chain| - 1 {
            assert chain'[j + 1] == chain[j + 1];
          }
        }
      }
      var h := head(current);
      if h.Status? && IsRedirect(h.code) && h.location.Some? {
        var next := NextURL(current, h.location.value);
        assert Follow(current, head, chain) == Follow(next, head, chain');
        FollowChain(next, head, chain');
        var out := Follow(next, head, chain').1;
        assert out[..|chain'|] == chain';
        assert out[|chain|] == chain'[|chain|];
      } else {
        assert Follow(current, head, chain).1 == chain';
      }
    }
  }

  /** The loop error is raised exactly when a redirect leads back to an
      address already requested. */
  lemma {:induction false} LoopMeansRevisit(current: string, head: string -> HeadOutcome, chain: seq<string>)
    requires |chain| <= MaxRequests
    requires |chain| > 0 ==> Leads(head, chain[|chain| - 1], current)
    ensures var r := Follow(current, head, chain);
      r.0.Err? && r.0.error.LoopDetected? ==>
        && r.0.error.chain == r.1 && |r.1| > 0
        && LoopTarget(head, r.1).Some? && LoopTarget(head, r.1).value in r.1
    decreases MaxRequests - |chain|
  {
    var r := Follow(current, head, chain);
    if |chain| == MaxRequests {
      assert r.0 == Err(MaxRedirectsExceeded);
    } else if current in chain {
      assert r == (Err(LoopDetected(chain)), chain);
      assert LoopTarget(head, chain) == Some(current);
    } else {
      var chain' := chain + [current];
      var h := head(current);
      if h.Status? && IsRedirect(h.code) && h.location.Some? {
        var next := NextURL(current, h.location.value);
        assert r == Follow(next, head, chain');
        assert chain'[|chain'| - 1] == current;
        LoopMeansRevisit(next, head, chain');
      } else {
        assert r.1 == chain';
        assert !r.0.Err? || !r.0.error.LoopDetected?;
      }
    }
  }

  /** Two addresses that redirect to each other: the call fails with the
      loop error after requesting both. */
  lemma TwoCycle(a: string, b: string, head: string -> HeadOutcome)
    requires Scheme(a) != "" && a != b
    requires Leads(head, a, b) && Leads(head, b, a)
    ensures GetFinalURL(a, head) == (Err(LoopDetected([a, b])), [a, b])
  {
    assert !ScanScheme(a, 0).LeadingColon?;
    assert [] + [a] == [a];
    assert Follow(a, head, []) == Follow(b, head, [a]);
    assert [a] + [b] == [a, b];
    assert Follow(b, head, [a]) == Follow(a, head, [a, b]);
  }

  /** An address that answers with anything but a redirect is the result. */
  lemma Direct(a: string, head: string -> HeadOutcome)
    requires Scheme(a) != "" && head(a).Status? && !IsRedirect(head(a).code)
    ensures GetFinalURL(a, head) == (Ok(a), [a])
  {
    assert !ScanScheme(a, 0).LeadingColon?;
    assert [] + [a] == [a];
  }
}

=== FILE: results.dfy ===
/** Failure-carrying values shared by every module: Go's `(value, error)`
    pairs become `Result`, absent values become `Option`. */
module Results {

  datatype Option<+T> = None | Some(value: T)

  datatype Result<+T, +E> = Ok(value: T) | Err(error: E)

  /** One byte of a Go string or byte slice. */
  type Byte = b: int | 0 <= b < 256
}

/** Instants are Go time.Time values counted in nanoseconds; Unix() readings
    are whole seconds. */
module Clock {
  const Second: int := 1_000_000_000
  const Minute: int := 60 * Second
  const Hour: int := 60 * Minute

  /** 2 to the power n: the factor of the n-th wait of an exponential
      back-off. */
  function Pow2(n: nat): (p: nat)
    ensures p >= 1
  {
    if n == 0 then 1 else 2 * Pow2(n - 1)
  }

  /** time.Time.Unix(): whole seconds, rounded down. */
  function UnixSeconds(t: int): int {
    t / Second
  }
}

/** The retry loops of both storage clients: at most three attempts, a new
    one only after an outcome the loop retries. */
module Retry {
  const MaxAttempts: nat := 3

  /** The number of attempts the loop makes from attempt i on: it stops
      after the first outcome it does not retry, or after the last allowed
      attempt. */
  function TriesFrom<A>(outcome: nat -> A, retry: A -> bool, i: nat): (n: nat)
    requires i < MaxAttempts
    ensures i < n <= MaxAttempts
    ensures forall j :: i <= j < n - 1 ==> retry(outcome(j))
    ensures n < MaxAttempts ==> !retry(outcome(n - 1))
    decreases MaxAttempts - i
  {
    if i + 1 == MaxAttempts || !retry(outcome(i)) then i + 1 else TriesFrom(outcome, retry, i + 1)
  }

  function Tries<A>(outcome: nat -> A, retry: A -> bool): (n: nat)
    ensures 1 <= n <= MaxAttempts
  {
    TriesFrom(outcome, retry, 0)
  }

  /** The attempt count is determined by the outcomes: n attempts are made
      exactly when all but the last are retried and the last is not, unless
      it is the third. */
  lemma TriesExactly<A>(outcome: nat -> A, retry: A -> bool, n: nat)
    ensures n == Tries(outcome, retry) <==>
      && 1 <= n <= MaxAttempts
      && (forall j :: 0 <= j < n - 1 ==> retry(outcome(j)))
      && (n < MaxAttempts ==> !retry(outcome(n - 1)))
  {
  }
}

=== FILE: scanner.dfy ===
/** The STRM synchronisation rules of internal/core/scanner.go: the set of
    files a scan produced, option parsing, OpenList path joining, file
    classification, the link written into a .strm file, and the database
    bookkeeping after a scan (recording what was produced in batches, and
    selecting stale history rows for deletion). Concurrency, the directory
    walk and the filesystem writes are not modelled. */
module Scanner {
  import opened Results
  import opened Text
  import opened GoPath
  import opened Decimal
  import opened Models
  import opened UrlEscape
  import StreamSign

  // ---------------------------------------------------------------------
  // FileTracker

  /** The local paths the running scan has produced or kept. */
  datatype FileTracker = FileTracker(files: set<string>)

  predicate Has(t: FileTracker, path: string) {
    path in t.files
  }

  function Add(t: FileTracker, path: string): (r: FileTracker)
    ensures Has(r, path)
    ensures forall q :: Has(r, q) <==> Has(t, q) || q == path
  {
    FileTracker(t.files + {path})
  }

  /** Keys: every tracked path, each exactly once, in no particular order. */
  method Keys(t: FileTracker) returns (keys: seq<string>)
    ensures forall p :: p in keys <==> Has(t, p)
    ensures Distinct(keys)
    ensures |keys| == |t.files|
  {
    keys := [];
    var rest := t.files;
    while rest != {}
      invariant rest <= t.files
      invariant forall p :: p in keys <==> p in t.files && p !in rest
      invariant Distinct(keys)
      invariant |keys| + |rest| == |t.files|
      decreases |rest|
    {
      var p :| p in rest;
      keys := keys + [p];
      rest := rest - {p};
    }
  }

  // ---------------------------------------------------------------------
  // Task options

  const MinThreads: int := 1
  const MaxThreads: int := 16

  /** The worker count a scan uses for the configured `threads`. */
  function ClampThreads(threads: int): (r: int)
    ensures MinThreads <= r <= MaxThreads
    ensures MinThreads <= threads <= MaxThreads ==> r == threads
    ensures threads < MinThreads ==> r == MinThreads
    ensures threads > MaxThreads ==> r == MaxThreads
  {
    if threads < MinThreads then MinThreads
    else if threads > MaxThreads then MaxThreads
    else threads
  }

  /** One entry of an extension list, lower-cased and trimmed. */
  function NormalizeExtension(part: string): string {
    TrimSpace(ToLower(part))
  }

  function Normalized(parts: seq<string>): (r: seq<string>)
    ensures |r| == |parts|
    ensures forall i :: 0 <= i < |parts| ==> r[i] == NormalizeExtension(parts[i])
  {
    if |parts| == 0 then [] else [NormalizeExtension(parts[0])] + Normalized(parts[1..])
  }

  /** The keys a list of normalised entries puts into the extension map. */
  function NonBlank(keys: seq<string>): set<string> {
    if |keys| == 0 then {}
    else (if keys[0] == "" then {} else {keys[0]}) + NonBlank(keys[1..])
  }

  lemma {:induction false} NonBlankMembers(keys: seq<string>, e: string)
    ensures e in NonBlank(keys) <==> e != "" && e in keys
    decreases |keys|
  {
    if |keys| > 0 {
      NonBlankMembers(keys[1..], e);
      assert keys == [keys[0]] + keys[1..];
    }
  }

  /** parseExtensions: the map from extension to true, given as the set of
      keys mapped to true (a missing key reads as false). */
  function ParseExtensions(list: string): set<string> {
    NonBlank(Normalized(Split(list, ',')))
  }

  /** An extension is enabled exactly when some comma-separated entry of the
      list, lower-cased and trimmed, is that extension; blank entries enable
      nothing. */
  lemma {:induction false} ParseExtensionsMembers(list: string, e: string)
    ensures e in ParseExtensions(list) <==> e != "" && e in Normalized(Split(list, ','))
  {
    NonBlankMembers(Normalized(Split(list, ',')), e);
  }

  // ---------------------------------------------------------------------
  // OpenList paths

  /** What joinOpenListPath keeps of one part, None when it skips the part.
      `first` is whether the part is the first argument; `zeroSkipped`
      whether a "0" is skipped at this position. */
  function KeptPart(p: string, first: bool, zeroSkipped: bool): Option<string> {
    var t := TrimSpace(p);
    if t == "" || (zeroSkipped && t == "0") then None
    else if first then (if t == "/" then Some("") else Some("/" + TrimLeft(t, '/')))
    else Some(Trim(t, '/'))
  }

  function Kept(o: Option<string>): seq<string> {
    if o.None? then [] else [o.value]
  }

  /** The elements the loop of joinOpenListPath collects. `zeroEverywhere`
      selects between skipping "0" at every position and only at the first. */
  function KeptParts(parts: seq<string>, zeroEverywhere: bool): seq<string>
    decreases |parts|
  {
    if |parts| == 0 then []
    else
      var n := |parts| - 1;
      KeptParts(parts[..n], zeroEverywhere) + Kept(KeptPart(parts[n], n == 0, zeroEverywhere || n == 0))
  }

  /** A part that adds no path element. */
  predicate Blank(p: string, first: bool, zeroSkipped: bool) {
    var t := TrimSpace(p);
    t == "" || (zeroSkipped && t == "0") || (first && t == "/")
  }

  lemma {:induction false} BlankPartsKeepNothing(parts: seq<string>, zeroEverywhere: bool)
    ensures (forall i :: 0 <= i < |parts| ==> Blank(parts[i], i == 0, zeroEverywhere || i == 0)) ==>
      forall j :: 0 <= j < |KeptParts(parts, zeroEverywhere)| ==> KeptParts(parts, zeroEverywhere)[j] == ""
    decreases |parts|
  {
    if |parts| > 0 {
      var n := |parts| - 1;
      assert forall i :: 0 <= i < n ==> parts[..n][i] == parts[i];
      BlankPartsKeepNothing(parts[..n], zeroEverywhere);
    }
  }

  /** A rooted path whose root is written once. */
  predicate SingleRoot(p: string) {
    HasPrefix(p, "/") && !HasPrefix(p[1..], "/")
  }

  /** The loop of joinOpenListPath followed by path.Join and the rooting. */
  function JoinKept(parts: seq<string>, zeroEverywhere: bool): (r: string)
    ensures SingleRoot(r)
    ensures (forall i :: 0 <= i < |parts| ==> Blank(parts[i], i == 0, zeroEverywhere || i == 0)) ==> r == "/"
  {
    var joined := PathJoin(KeptParts(parts, zeroEverywhere));
    BlankPartsKeepNothing(parts, zeroEverywhere);
    if HasPrefix(joined, "/") then joined
    else
      assert ("/" + joined)[1..] == joined;
      "/" + joined
  }

  /** joinOpenListPath as written: a part that trims to "0" is skipped at
      every position. */
  function JoinOpenListPathAsWritten(parts: seq<string>): (r: string)
    ensures SingleRoot(r)
    ensures (forall i :: 0 <= i < |parts| ==> Blank(parts[i], i == 0, true)) ==> r == "/"
  {
    JoinKept(parts, true)
  }

  /** joinOpenListPath with "0" standing for the root only as the first
      part, which is the reading the rest of the model uses. */
  function JoinOpenListPath(parts: seq<string>): (r: string)
    ensures SingleRoot(r)
    ensures (forall i :: 0 <= i < |parts| ==> Blank(parts[i], i == 0, i == 0)) ==> r == "/"
  {
    JoinKept(parts, false)
  }

  lemma KeptOne(a: string, zeroEverywhere: bool)
    ensures KeptParts([a], zeroEverywhere) == Kept(KeptPart(a, true, true))
  {
    assert [a][..0] == [];
  }

  lemma KeptPair(a: string, b: string, zeroEverywhere: bool)
    ensures KeptParts([a, b], zeroEverywhere) == Kept(KeptPart(a, true, true)) + Kept(KeptPart(b, false, zeroEverywhere))
  {
    assert [a, b][..1] == [a];
    KeptOne(a, zeroEverywhere);
  }

  /** A file or directory name without separators, dot segments or
      surrounding white space. */
  predicate TidyName(s: string) {
    PlainSegment(s) && !IsSpace(s[0]) && !IsSpace(s[|s| - 1])
  }

  predicate TidyNames(segs: seq<string>) {
    forall i :: 0 <= i < |segs| ==> TidyName(segs[i])
  }

  /** The absolute OpenList path of a list of names. */
  function Rooted(segs: seq<string>): string {
    "/" + Join(segs, '/')
  }

  lemma {:induction false} JoinSnoc(segs: seq<string>, s: string, sep: char)
    requires |segs| > 0
    ensures Join(segs + [s], sep) == Join(segs, sep) + [sep] + s
    decreases |segs|
  {
    var q := segs + [s];
    if |segs| == 1 {
      assert q == [segs[0], s];
      assert q[1..] == [s];
    } else {
      assert q[1..] == segs[1..] + [s];
      JoinSnoc(segs[1..], s, sep);
    }
  }

  lemma {:induction false} JoinLastChar(segs: seq<string>, sep: char)
    requires |segs| > 0 && segs[|segs| - 1] != ""
    ensures |Join(segs, sep)| > 0
    ensures Join(segs, sep)[|Join(segs, sep)| - 1] == segs[|segs| - 1][|segs[|segs| - 1]| - 1]
    decreases |segs|
  {
    if |segs| > 1 {
      JoinLastChar(segs[1..], sep);
    }
  }

  lemma TrimSpaceTidy(s: string)
    requires |s| > 0 && !IsSpace(s[0]) && !IsSpace(s[|s| - 1])
    ensures TrimSpace(s) == s
  {
    assert TrimLeftSpace(s) == s;
  }

  lemma TidyKept(name: string, zeroSkipped: bool)
    requires TidyName(name) && (zeroSkipped ==> name != "0")
    ensures KeptPart(name, false, zeroSkipped) == Some(name)
  {
    TrimSpaceTidy(name);
    assert TrimLeft(name, '/') == name;
    assert TrimRight(name, '/') == name;
  }

  /** A rooted directory path given as the first part is kept whole. */
  lemma RootedKept(segs: seq<string>)
    requires TidyNames(segs)
    ensures |segs| == 0 ==> KeptPart(Rooted(segs), true, true) == Some("")
    ensures |segs| > 0 ==> KeptPart(Rooted(segs), true, true) == Some(Rooted(segs))
  {
    var p := Rooted(segs);
    if |segs| > 0 {
      var j := Join(segs, '/');
      SplitFirstPart(segs);
      JoinLastChar(segs, '/');
      assert p[|p| - 1] == j[|j| - 1];
      TrimSpaceTidy(p);
      assert p[1..] == j;
      assert TrimLeft(j, '/') == j;
      assert TrimLeft(p, '/') == j;
    } else {
      assert p == "/";
      TrimSpaceTidy(p);
    }
  }

  /** The elements collected for a directory path and one further part. */
  function ChildElements(segs: seq<string>, child: string): seq<string> {
    if |segs| == 0 then ["", child] else [Rooted(segs), child]
  }

  lemma PathJoinChild(segs: seq<string>, name: string)
    requires TidyNames(segs) && TidyName(name)
    ensures |segs| == 0 ==> PathJoin(ChildElements(segs, name)) == name
    ensures |segs| > 0 ==> PathJoin(ChildElements(segs, name)) == Rooted(segs + [name])
  {
    if |segs| == 0 {
      assert PathJoin(["", name]) == PathJoin([name]) by {
        assert ["", name][1..] == [name];
      }
      CleanRelativePlain([name]);
    } else {
      JoinSnoc(segs, name, '/');
      assert Join([Rooted(segs), name], '/') == Rooted(segs + [name]);
      assert PlainSegments(segs + [name]);
      CleanRootedPlain(segs + [name]);
    }
  }

  lemma {:induction false} KeptChild(segs: seq<string>, name: string)
    requires TidyNames(segs) && TidyName(name)
    ensures KeptParts([Rooted(segs), name], false) == ChildElements(segs, name)
  {
    var first := if |segs| == 0 then "" else Rooted(segs);
    assert KeptPart(Rooted(segs), true, true) == Some(first) by { RootedKept(segs); }
    assert KeptPart(name, false, false) == Some(name) by { TidyKept(name, false); }
    KeptPairSome(Rooted(segs), name, first);
  }

  lemma {:induction false} KeptPairSome(a: string, b: string, first: string)
    requires KeptPart(a, true, true) == Some(first) && KeptPart(b, false, false) == Some(b)
    ensures KeptParts([a, b], false) == [first, b]
  {
    KeptPair(a, b, false);
    PairOf(first, b);
  }

  /** Joining a directory path and a child name appends the name. */
  lemma {:induction false} JoinChild(segs: seq<string>, name: string)
    requires TidyNames(segs) && TidyName(name)
    ensures JoinOpenListPath([Rooted(segs), name]) == Rooted(segs + [name])
  {
    var parts := [Rooted(segs), name];
    KeptChild(segs, name);
    var joined := PathJoin(ChildElements(segs, name));
    assert JoinOpenListPath(parts) == (if HasPrefix(joined, "/") then joined else "/" + joined);
    if |segs| == 0 {
      assert joined == name by { PathJoinChild(segs, name); }
      assert !HasPrefix(joined, "/") by { assert name[0] != '/'; }
      assert Rooted(segs + [name]) == "/" + name by { assert segs + [name] == [name]; }
    } else {
      assert joined == Rooted(segs + [name]) by { PathJoinChild(segs, name); }
    }
  }

  /** As written, a child named "0" joins to its parent itself. */
  lemma ZeroChildAsWritten(segs: seq<string>)
    requires TidyNames(segs)
    ensures JoinOpenListPathAsWritten([Rooted(segs), "0"]) == Rooted(segs)
  {
    var elems := if |segs| == 0 then [""] else [Rooted(segs)];
    assert KeptParts([Rooted(segs), "0"], true) == elems by {
      RootedKept(segs);
      TrimSpaceTidy("0");
      KeptPair(Rooted(segs), "0", true);
    }
    PathJoinParent(segs);
  }

  lemma {:induction false} KeptPartsAgree(parts: seq<string>)
    requires forall i :: 1 <= i < |parts| ==> TrimSpace(parts[i]) != "0"
    ensures KeptParts(parts, true) == KeptParts(parts, false)
    decreases |parts|
  {
    if |parts| > 0 {
      var n := |parts| - 1;
      var init := parts[..n];
      assert forall i :: 1 <= i < n ==> init[i] == parts[i];
      KeptPartsAgree(init);
      KeptPartAgrees(parts[n], n == 0);
      KeptPartsLast(parts, true);
      KeptPartsLast(parts, false);
    }
  }

  lemma KeptPartsLast(parts: seq<string>, zeroEverywhere: bool)
    requires |parts| > 0
    ensures var n := |parts| - 1;
      KeptParts(parts, zeroEverywhere) == KeptParts(parts[..n], zeroEverywhere) + Kept(KeptPart(parts[n], n == 0, zeroEverywhere || n == 0))
  {
  }

  lemma KeptPartAgrees(p: string, first: bool)
    requires first || TrimSpace(p) != "0"
    ensures KeptPart(p, first, true) == KeptPart(p, first, first)
  {
  }

  /** The two joins differ only on a later part that trims to "0". */
  lemma JoinsAgree(parts: seq<string>)
    requires forall i :: 1 <= i < |parts| ==> TrimSpace(parts[i]) != "0"
    ensures JoinOpenListPath(parts) == JoinOpenListPathAsWritten(parts)
  {
    KeptPartsAgree(parts);
  }

  /** A child with a '.' in it (every file the scan classifies has an
      extension) joins the same way under both readings. */
  lemma DottedJoinsAgree(folder: string, child: string)
    requires '.' in child
    ensures JoinOpenListPath([folder, child]) == JoinOpenListPathAsWritten([folder, child])
  {
    TrimSpaceKeeps(child, '.');
    JoinsAgree([folder, child]);
  }

  /** So the metadata identity of any file the scan does not ignore is the
      same under the join as written. */
  lemma ClassifiedMetaAgrees(folder: string, file: FileInfo, strmList: string, metaList: string)
    requires Classify(file.fileName, ParseExtensions(strmList), ParseExtensions(metaList)) != Ignored
    ensures MetaIdentity(OpenList, folder, file) == StringId(JoinOpenListPathAsWritten([folder, file.fileName]))
  {
    if '.' !in file.fileName {
      UndottedIgnored(file.fileName, strmList, metaList);
      assert false;
    }
    DottedJoinsAgree(folder, file.fileName);
  }

  /** Likewise the OpenList identity of a file whose relative path has an
      extension. */
  lemma RealIdentityAgrees(account: Account, task: Task, file: FileInfo, cloudRelPath: string)
    requires account.kind == OpenList && '.' in cloudRelPath
    ensures RealIdentity(account, task, file, cloudRelPath) == JoinOpenListPathAsWritten([task.sourceFolderID, cloudRelPath])
  {
    DottedJoinsAgree(task.sourceFolderID, cloudRelPath);
  }

  lemma PathJoinParent(segs: seq<string>)
    requires TidyNames(segs)
    ensures |segs| > 0 ==> PathJoin([Rooted(segs)]) == Rooted(segs)
    ensures |segs| == 0 ==> PathJoin([""]) == "" && Rooted(segs) == "/"
  {
    if |segs| > 0 {
      CleanRootedPlain(segs);
    }
  }

  /** Where a scan starts: an OpenList task configured with "" or the
      123Pan root id "0" starts at "/". */
  function StartFolder(kind: AccountType, sourceFolderID: string): (r: string)
    ensures kind == OpenList && (sourceFolderID == "" || sourceFolderID == "0") ==> r == "/"
    ensures kind != OpenList || (sourceFolderID != "" && sourceFolderID != "0") ==> r == sourceFolderID
  {
    if kind == OpenList && (sourceFolderID == "0" || sourceFolderID == "") then "/" else sourceFolderID
  }

  // ---------------------------------------------------------------------
  // Classification and .strm names

  datatype FileKind = StrmSource | MetaFile | Ignored

  /** The key a file name is looked up under: its extension, lower-cased,
      without the dot. */
  function ExtensionKey(name: string): (e: string)
    ensures '.' !in name ==> e == ""
    ensures '.' !in e && '/' !in e
  {
    var ext := Ext(name);
    var bare := TrimPrefix(ext, ".");
    assert ext != "" ==> bare == ext[1..];
    assert forall i :: 0 <= i < |ToLower(bare)| ==> ToLower(bare)[i] == LowerChar(bare[i]);
    ToLower(bare)
  }

  /** STRM extensions take precedence over metadata extensions; a file
      matching neither is ignored. */
  function Classify(name: string, strm: set<string>, meta: set<string>): (k: FileKind)
    ensures k == StrmSource <==> ExtensionKey(name) in strm
    ensures k == MetaFile <==> ExtensionKey(name) !in strm && ExtensionKey(name) in meta
    ensures k == Ignored <==> ExtensionKey(name) !in strm && ExtensionKey(name) !in meta
  {
    var e := ExtensionKey(name);
    if e in strm then StrmSource else if e in meta then MetaFile else Ignored
  }

  lemma {:induction false} ExtOfDotted(stem: string, ext: string)
    requires '.' !in ext && '/' !in ext
    ensures Ext(stem + "." + ext) == "." + ext
    decreases |ext|
  {
    var p := stem + "." + ext;
    if |ext| > 0 {
      var init := ext[..|ext| - 1];
      assert p[..|p| - 1] == stem + "." + init;
      assert p[|p| - 1] == ext[|ext| - 1];
      ExtOfDotted(stem, init);
      assert "." + init + [ext[|ext| - 1]] == "." + ext;
    }
  }

  /** A name "stem.ext" is classified under the lower-cased ext. */
  lemma ExtensionKeyOf(stem: string, ext: string)
    requires '.' !in ext && '/' !in ext
    ensures ExtensionKey(stem + "." + ext) == ToLower(ext)
  {
    ExtOfDotted(stem, ext);
    assert TrimPrefix("." + ext, ".") == ext;
  }

  /** A name without a dot is never a STRM source nor a metadata file,
      whatever the task's extension lists say. */
  lemma UndottedIgnored(name: string, strmList: string, metaList: string)
    requires '.' !in name
    ensures Classify(name, ParseExtensions(strmList), ParseExtensions(metaList)) == Ignored
  {
    ParseExtensionsMembers(strmList, "");
    ParseExtensionsMembers(metaList, "");
  }

  /** The .strm file name: the final extension replaced by ".strm". */
  function StrmName(name: string): (r: string)
    ensures HasSuffix(r, ".strm")
    ensures r[..|r| - 5] + Ext(name) == name
  {
    var stem := TrimSuffix(name, Ext(name));
    assert stem + Ext(name) == name;
    var r := stem + ".strm";
    assert r[..|r| - 5] == stem;
    r
  }

  lemma StrmNameOf(stem: string, ext: string)
    requires '.' !in ext && '/' !in ext
    ensures StrmName(stem + "." + ext) == stem + ".strm"
  {
    ExtOfDotted(stem, ext);
    assert HasSuffix(stem + "." + ext, "." + ext);
    assert (stem + "." + ext)[..|stem|] == stem;
  }

  const DefaultStrmBase: string := "http://127.0.0.1:12398"

  /** The base of every link: one trailing '/' is dropped, and an empty base
      falls back to the local default. */
  function StrmBaseURL(configured: string): (r: string)
    ensures r != ""
    ensures configured == "" || configured == "/" ==> r == DefaultStrmBase
    ensures configured != "" && configured != "/" ==>
      if HasSuffix(configured, "/") then r + "/" == configured else r == configured
  {
    var trimmed := if |configured| > 0 && configured[|configured| - 1] == '/'
      then configured[..|configured| - 1] else configured;
    if trimmed == "" then DefaultStrmBase else trimmed
  }

  // ---------------------------------------------------------------------
  // Stream links

  /** The route every link points at, below the base URL. */
  const StreamRoute: string := "/api/v1/stream/s"

  /** A link as written into a .strm file: base, the path below the stream
      route, and the signature of a signed link. */
  datatype Link = Link(base: string, path: string, sign: Option<string>)

  function Render(l: Link): string {
    l.base + StreamRoute + l.path + (if l.sign.Some? then "?sign=" + l.sign.value else "")
  }

  function WithLeadingSlash(p: string): (r: string)
    ensures HasPrefix(r, "/")
  {
    if HasPrefix(p, "/") then p else "/" + p
  }

  /** A path below the stream route: given a leading '/' and escaped
      segment by segment. */
  function LinkPath(p: string): (r: string)
    ensures HasPrefix(r, "/") && '?' !in r
  {
    EscapeSegmentsCharwise(WithLeadingSlash(p));
    EscapeSegments(WithLeadingSlash(p))
  }

  /** What the stream handler should resolve a file to: its OpenList path
      below the task's source folder, or its 123Pan file id in decimal. */
  function RealIdentity(account: Account, task: Task, file: FileInfo, cloudRelPath: string): (r: string)
    ensures account.kind == OpenList ==> SingleRoot(r)
    ensures account.kind != OpenList ==> !HasPrefix(r, "/")
    ensures account.kind != OpenList && InInt64(file.fileId) ==> ParseInt64(r) == Valid(file.fileId)
  {
    if account.kind == OpenList then JoinOpenListPath([task.sourceFolderID, cloudRelPath])
    else
      if InInt64(file.fileId) then ParseIntFormat(file.fileId); FormatInt(file.fileId)
      else FormatInt(file.fileId)
  }

  /** The link createStrmFile writes for `file`, found at `cloudRelPath`
      below the task's source folder; signing happens at `now` with the
      random `salt`, and a signing failure means no file is written. */
  function StreamLink(account: Account, task: Task, file: FileInfo, cloudRelPath: string,
                      signer: StreamSign.Signer, now: int, salt: Option<seq<Byte>>): (r: Result<Link, StreamSign.SignError>)
    requires salt.Some? ==> |salt.value| == StreamSign.SaltLength
    ensures r.Err? <==> task.encodePath && StreamSign.Sign(signer, task.accountID, RealIdentity(account, task, file, cloudRelPath), now, salt).Err?
    ensures r.Ok? ==> r.value.base == StrmBaseURL(account.strmBaseURL)
    ensures r.Ok? ==> (r.value.sign.Some? <==> task.encodePath)
    ensures r.Ok? ==> HasPrefix(r.value.path, "/") && '?' !in r.value.path
  {
    var base := StrmBaseURL(account.strmBaseURL);
    var identity := RealIdentity(account, task, file, cloudRelPath);
    if task.encodePath then
      match StreamSign.Sign(signer, task.accountID, identity, now, salt)
      case Err(e) => Err(e)
      case Ok(sign) => Ok(Link(base, LinkPath(cloudRelPath), Some(sign)))
    else if account.kind == OpenList then
      EscapeSegmentsCharwise(identity);
      assert !('?' in FormatNat(task.accountID));
      Ok(Link(base, "/" + FormatNat(task.accountID) + EscapeSegments(identity), None))
    else
      assert '?' !in FormatNat(task.accountID) && '?' !in FormatInt(file.fileId);
      Ok(Link(base, "/" + FormatNat(task.accountID) + "/" + FormatInt(file.fileId) + LinkPath(cloudRelPath), None))
  }

  /** The layouts of a link below the stream route: the escaped relative
      path with the signature, "/account" and the escaped OpenList path, or
      "/account/fileId" and the escaped relative path. */
  lemma LinkLayout(account: Account, task: Task, file: FileInfo, cloudRelPath: string,
                   signer: StreamSign.Signer, now: int, salt: Option<seq<Byte>>)
    requires salt.Some? ==> |salt.value| == StreamSign.SaltLength
    ensures var r := StreamLink(account, task, file, cloudRelPath, signer, now, salt);
      task.encodePath && r.Ok? ==>
        && r.value.path == LinkPath(cloudRelPath)
        && r.value.sign == Some(StreamSign.Sign(signer, task.accountID, RealIdentity(account, task, file, cloudRelPath), now, salt).value)
    ensures !task.encodePath && account.kind == OpenList ==>
      StreamLink(account, task, file, cloudRelPath, signer, now, salt)
        == Ok(Link(StrmBaseURL(account.strmBaseURL),
                   "/" + FormatNat(task.accountID) + EscapeSegments(RealIdentity(account, task, file, cloudRelPath)), None))
    ensures !task.encodePath && account.kind != OpenList ==>
      StreamLink(account, task, file, cloudRelPath, signer, now, salt)
        == Ok(Link(StrmBaseURL(account.strmBaseURL),
                   "/" + FormatNat(task.accountID) + "/" + FormatInt(file.fileId) + LinkPath(cloudRelPath), None))
  {
  }

  /** The identifier a metadata file is downloaded by. */
  function MetaIdentity(kind: AccountType, folderID: string, file: FileInfo): (r: Identifier)
    ensures kind == OpenList ==> r.StringId? && HasPrefix(r.text, "/")
    ensures kind != OpenList ==> r == Int64Id(file.fileId)
  {
    if kind == OpenList then StringId(JoinOpenListPath([folderID, file.fileName])) else Int64Id(file.fileId)
  }

  /** Below a tidy OpenList folder, a metadata file is downloaded by the
      folder's path with the file's name appended. */
  lemma MetaIdentityChild(segs: seq<string>, file: FileInfo)
    requires TidyNames(segs) && TidyName(file.fileName)
    ensures MetaIdentity(OpenList, Rooted(segs), file) == StringId(Rooted(segs + [file.fileName]))
  {
    JoinChild(segs, file.fileName);
  }

  // ---------------------------------------------------------------------
  // Recording the produced files

  const BatchSize: nat := 500

  function Flatten<T>(batches: seq<seq<T>>): seq<T> {
    if |batches| == 0 then [] else Flatten(batches[..|batches| - 1]) + batches[|batches| - 1]
  }

  /** The insert loop of updateFileRecordsOptimized: records accumulate and
      are flushed once 500 are pending, and at the last path. */
  method FlushBatches(paths: seq<string>) returns (batches: seq<seq<string>>)
    ensures Flatten(batches) == paths
    ensures forall k :: 0 <= k < |batches| ==> 0 < |batches[k]| <= BatchSize
    ensures forall k :: 0 <= k < |batches| - 1 ==> |batches[k]| == BatchSize
  {
    batches := [];
    var records: seq<string> := [];
    for i := 0 to |paths|
      invariant Flatten(batches) + records == paths[..i]
      invariant |records| < BatchSize
      invariant i == |paths| ==> records == []
      invariant forall k :: 0 <= k < |batches| ==> 0 < |batches[k]| <= BatchSize
      invariant forall k :: 0 <= k < |batches| ==> |batches[k]| == BatchSize || (k == |batches| - 1 && i == |paths|)
    {
      records := records + [paths[i]];
      assert paths[..i + 1] == paths[..i] + [paths[i]];
      if |records| >= BatchSize || i == |paths| - 1 {
        assert (batches + [records])[..|batches|] == batches;
        batches := batches + [records];
        records := [];
      }
    }
    assert paths[..|paths|] == paths;
  }

  lemma {:induction false} FlattenMembers<T>(batches: seq<seq<T>>, x: T)
    ensures x in Flatten(batches) <==> exists k :: 0 <= k < |batches| && x in batches[k]
    decreases |batches|
  {
    if |batches| > 0 {
      var n := |batches| - 1;
      FlattenMembers(batches[..n], x);
      assert forall k :: 0 <= k < n ==> batches[..n][k] == batches[k];
    }
  }

  /** updateFileRecordsOptimized: every tracked path is written in exactly
      one batch, and no batch holds more than 500 records. */
  method RecordBatches(tracker: FileTracker) returns (batches: seq<seq<string>>)
    ensures forall p :: p in Flatten(batches) <==> Has(tracker, p)
    ensures Distinct(Flatten(batches))
    ensures forall k :: 0 <= k < |batches| ==> 0 < |batches[k]| <= BatchSize
    ensures tracker.files == {} <==> batches == []
  {
    var paths := Keys(tracker);
    if |paths| == 0 {
      assert tracker.files == {};
      return [];
    }
    batches := FlushBatches(paths);
    assert batches != [];
    assert tracker.files != {} by {
      assert Has(tracker, paths[0]);
    }
  }

  // ---------------------------------------------------------------------
  // Sync delete

  /** The rows with an id above `after`, in order. */
  function After(rows: seq<TaskFile>, after: int): seq<TaskFile> {
    if |rows| == 0 then []
    else if rows[0].id > after then [rows[0]] + After(rows[1..], after)
    else After(rows[1..], after)
  }

  /** A task's history rows as the query returns them, by ascending id. */
  predicate Ascending(rows: seq<TaskFile>) {
    forall i, j :: 0 <= i < j < |rows| ==> rows[i].id < rows[j].id
  }

  lemma {:induction false} AfterSplit(rows: seq<TaskFile>, after: int, k: nat)
    requires k <= |rows|
    requires forall i :: 0 <= i < k ==> rows[i].id <= after
    requires forall i :: k <= i < |rows| ==> rows[i].id > after
    ensures After(rows, after) == rows[k..]
    decreases |rows|
  {
    if |rows| > 0 {
      if k > 0 {
        AfterSplit(rows[1..], after, k - 1);
        assert rows[1..][k - 1..] == rows[k..];
      } else {
        AfterSplit(rows[1..], after, 0);
        assert [rows[0]] + rows[1..] == rows;
      }
    }
  }

  /** Ids of the rows whose path the scan did not produce, in row order. */
  function StaleIds(rows: seq<TaskFile>, tracker: FileTracker): seq<nat> {
    if |rows| == 0 then []
    else
      var last := rows[|rows| - 1];
      StaleIds(rows[..|rows| - 1], tracker) + (if Has(tracker, last.filePath) then [] else [last.id])
  }

  lemma {:induction false} StaleIdsAppend(a: seq<TaskFile>, b: seq<TaskFile>, tracker: FileTracker)
    ensures StaleIds(a + b, tracker) == StaleIds(a, tracker) + StaleIds(b, tracker)
    decreases |b|
  {
    if |b| > 0 {
      var n := |b| - 1;
      assert (a + b)[..|a + b| - 1] == a + b[..n];
      StaleIdsAppend(a, b[..n], tracker);
    } else {
      assert a + b == a;
    }
  }

  const PageSize: nat := 1000

  /** One page of the query: the next rows after `lastID`, at most 1000. */
  function NextPage(rows: seq<TaskFile>, lastID: int): seq<TaskFile> {
    var pending := After(rows, lastID);
    pending[..if |pending| < PageSize then |pending| else PageSize]
  }

  lemma PageAt(rows: seq<TaskFile>, lastID: int, done: nat)
    requires done <= |rows|
    requires forall i :: 0 <= i < done ==> rows[i].id <= lastID
    requires forall i :: done <= i < |rows| ==> rows[i].id > lastID
    ensures NextPage(rows, lastID) == rows[done..if |rows| - done < PageSize then |rows| else done + PageSize]
  {
    AfterSplit(rows, lastID, done);
  }

  /** The inner loop over one page: the ids of rows whose path is untracked. */
  method ScanPage(page: seq<TaskFile>, tracker: FileTracker) returns (stale: seq<nat>)
    ensures stale == StaleIds(page, tracker)
  {
    stale := [];
    for j := 0 to |page|
      invariant stale == StaleIds(page[..j], tracker)
    {
      assert page[..j + 1][..j] == page[..j];
      if !Has(tracker, page[j].filePath) {
        stale := stale + [page[j].id];
      }
    }
    assert page[..|page|] == page;
  }

  /** The paging loop of performSafeSyncDeleteOptimized over a task's
      history rows: the ids it deletes. */
  method SelectStale(rows: seq<TaskFile>, tracker: FileTracker) returns (stale: seq<nat>)
    requires Ascending(rows)
    requires forall i :: 0 <= i < |rows| ==> rows[i].id > 0
    ensures stale == StaleIds(rows, tracker)
  {
    stale := [];
    var lastID := 0;
    ghost var done := 0;
    while true
      invariant 0 <= done <= |rows|
      invariant forall i :: 0 <= i < done ==> rows[i].id <= lastID
      invariant forall i :: done <= i < |rows| ==> rows[i].id > lastID
      invariant stale == StaleIds(rows[..done], tracker)
      decreases |rows| - done
    {
      var page := NextPage(rows, lastID);
      PageAt(rows, lastID, done);
      if |page| == 0 {
        break;
      }
      var more := ScanPage(page, tracker);
      stale := stale + more;
      ghost var next := done + |page|;
      assert rows[..done] + page == rows[..next];
      StaleIdsAppend(rows[..done], page, tracker);
      lastID := page[|page| - 1].id;
      assert lastID == rows[next - 1].id;
      done := next;
    }
    assert rows[..done] == rows;
  }

  /** A history row is deleted exactly when the scan did not produce its
      path; rows of produced paths are kept. */
  lemma {:induction false} StaleExactly(rows: seq<TaskFile>, tracker: FileTracker, i: nat)
    requires Ascending(rows) && i < |rows|
    ensures rows[i].id in StaleIds(rows, tracker) <==> !Has(tracker, rows[i].filePath)
    decreases |rows|
  {
    var n := |rows| - 1;
    var init := rows[..n];
    if i < n {
      StaleExactly(init, tracker, i);
      assert init[i] == rows[i];
      assert rows[i].id != rows[n].id;
    } else {
      StaleOnlyFrom(init, tracker, rows[n].id);
    }
  }

  /** Every id selected belongs to a row of the listing whose path the
      scan did not produce: nothing else is deleted. */
  lemma {:induction false} StaleFromRows(rows: seq<TaskFile>, tracker: FileTracker, x: nat)
    ensures x in StaleIds(rows, tracker) ==>
      exists i :: 0 <= i < |rows| && rows[i].id == x && !Has(tracker, rows[i].filePath)
    decreases |rows|
  {
    if |rows| > 0 && x in StaleIds(rows, tracker) {
      var n := |rows| - 1;
      var init := rows[..n];
      if x in StaleIds(init, tracker) {
        StaleFromRows(init, tracker, x);
        var i :| 0 <= i < |init| && init[i].id == x && !Has(tracker, init[i].filePath);
        assert rows[i] == init[i];
      } else {
        assert rows[n].id == x && !Has(tracker, rows[n].filePath);
      }
    }
  }

  /** An id above every row's id is not selected. */
  lemma {:induction false} StaleOnlyFrom(rows: seq<TaskFile>, tracker: FileTracker, id: nat)
    requires forall i :: 0 <= i < |rows| ==> rows[i].id < id
    ensures id !in StaleIds(rows, tracker)
    decreases |rows|
  {
    if |rows| > 0 {
      StaleOnlyFrom(rows[..|rows| - 1], tracker, id);
    }
  }
}

=== FILE: scheduler.dfy ===
/** The running-task registry (internal/core/scheduler.go): task id to the
    state of the scan's cancel function. A scan owns its id from the moment
    it is registered until it returns (the release in RunScanTask,
    internal/core/scanner.go). */
module Scheduler {

  /** For each registered task id, whether its cancel function was called. */
  type Registry = map<nat, bool>

  /** The check-and-register step shared by RunManualTask and the scheduled
      job: a registered id is refused and the registry left alone. */
  function Claim(reg: Registry, id: nat): (r: (Registry, bool))
    ensures r.1 <==> id !in reg
    ensures r.1 ==> r.0 == reg[id := false]
    ensures !r.1 ==> r.0 == reg
    ensures id in r.0
  {
    if id in reg then (reg, false) else (reg[id := false], true)
  }

  /** StopTask: cancels a registered scan without releasing its id; an
      unknown id is ignored. */
  function Stop(reg: Registry, id: nat): (r: Registry)
    ensures r.Keys == reg.Keys
    ensures id in reg ==> r[id]
    ensures forall k :: k in reg && k != id ==> r[k] == reg[k]
  {
    if id in reg then reg[id := true] else reg
  }

  /** The release when a scan returns. */
  function Finish(reg: Registry, id: nat): (r: Registry)
    ensures r.Keys == reg.Keys - {id}
    ensures forall k :: k in r ==> r[k] == reg[k]
  {
    reg - {id}
  }

  /** RefreshScheduler: every registered scan is cancelled and forgotten. */
  function Refresh(reg: Registry): (r: (Registry, set<nat>))
    ensures r.0 == map[]
    ensures r.1 == reg.Keys
  {
    (map[], reg.Keys)
  }

  /** IsTaskRunning. */
  predicate IsRunning(reg: Registry, id: nat) {
    id in reg
  }

  datatype Event = Manual(id: nat) | Scheduled(id: nat) | StopTask(id: nat) | Done(id: nat) | RefreshAll

  /** Applies events in order; the ids of the scans each event started. */
  function Replay(reg: Registry, events: seq<Event>): (r: (Registry, seq<nat>))
    ensures |r.1| <= |events|
    decreases |events|
  {
    if |events| == 0 then (reg, [])
    else
      var e := events[0];
      var (next, started) :=
        match e
        case Manual(id) => var c := Claim(reg, id); (c.0, if c.1 then [id] else [])
        case Scheduled(id) => var c := Claim(reg, id); (c.0, if c.1 then [id] else [])
        case StopTask(id) => (Stop(reg, id), [])
        case Done(id) => (Finish(reg, id), [])
        case RefreshAll => (Refresh(reg).0, []);
      var rest := Replay(next, events[1..]);
      (rest.0, started + rest.1)
  }

  predicate Releases(e: Event, id: nat) {
    e == Done(id) || e == RefreshAll
  }

  /** No second scan of a task starts while one is registered: until the
      scan's release or a refresh, every manual or scheduled start of the
      same id is refused, and a stop does not lift that. */
  lemma {:induction false} SingleRunner(reg: Registry, events: seq<Event>, id: nat)
    requires id in reg
    requires forall i :: 0 <= i < |events| ==> !Releases(events[i], id)
    ensures id !in Replay(reg, events).1
    ensures id in Replay(reg, events).0
    decreases |events|
  {
    if |events| > 0 {
      var e := events[0];
      var next := match e
        case Manual(x) => Claim(reg, x).0
        case Scheduled(x) => Claim(reg, x).0
        case StopTask(x) => Stop(reg, x)
        case Done(x) => Finish(reg, x)
        case RefreshAll => Refresh(reg).0;
      assert !Releases(e, id);
      assert id in next;
      assert Replay(reg, events).0 == Replay(next, events[1..]).0;
      SingleRunner(next, events[1..], id);
    }
  }

  /** A stopped task still reports as running until its scan returns. */
  lemma StoppedStillRunning(reg: Registry, id: nat)
    requires IsRunning(reg, id)
    ensures IsRunning(Stop(reg, id), id)
    ensures !IsRunning(Finish(Stop(reg, id), id), id)
    ensures Claim(Finish(Stop(reg, id), id), id).1
  {
  }
}

=== FILE: session.dfy ===
/** Administrator sessions (internal/auth/jwt.go): login, the claims a session
    token carries, and the middleware that admits a request. Token signing
    and parsing are done by the JWT library; the model receives the parsed
    claims of a token through `decode`, which yields None for a token whose
    structure or HS256 signature is wrong. */
module Session {
  import opened Results
  import opened Text
  import opened Clock
  import opened Models

  /** Seconds a session token is valid (7 days). */
  const SessionLifetime: int := 7 * 24 * 60 * 60

  /** The claims generateToken signs; exp and iat are Unix seconds. */
  datatype Claims = Claims(username: string, version: int, exp: int, iat: int)

  /** generateToken at instant `now` (nanoseconds). */
  function IssueClaims(username: string, version: int, now: int): (c: Claims)
    ensures c.username == username && c.version == version
    ensures c.exp - c.iat == SessionLifetime
    ensures c.iat * Second <= now < (c.iat + 1) * Second
  {
    Claims(username, version, UnixSeconds(now) + SessionLifetime, UnixSeconds(now))
  }

  datatype LoginError = MissingField | WrongCredentials

  /** LoginHandler: both fields are required; an unknown user and a wrong
      password give the same answer. `check` is bcrypt's comparison of a
      password with a stored hash. */
  function Login(users: map<string, User>, username: string, password: string,
                 check: (string, string) -> bool, now: int): (r: Result<Claims, LoginError>)
    ensures username == "" || password == "" ==> r == Err(MissingField)
    ensures r.Ok? <==>
      && username != "" && password != "" && username in users
      && check(password, users[username].passwordHash)
    ensures r.Ok? ==>
      && r.value.username == username && r.value.version == users[username].tokenVersion
      && r.value.iat == UnixSeconds(now) && r.value.exp == UnixSeconds(now) + SessionLifetime
  {
    if username == "" || password == "" then Err(MissingField)
    else if username !in users then Err(WrongCredentials)
    else if !check(password, users[username].passwordHash) then Err(WrongCredentials)
    else Ok(IssueClaims(username, users[username].tokenVersion, now))
  }

  /** The longest prefix of `s` without white space. */
  function FirstWord(s: string): (w: string)
    ensures HasPrefix(s, w)
    ensures forall i :: 0 <= i < |w| ==> !IsSpace(w[i])
    ensures |w| < |s| ==> IsSpace(s[|w|])
  {
    if |s| == 0 || IsSpace(s[0]) then "" else [s[0]] + FirstWord(s[1..])
  }

  /** What fmt.Sscanf(header, "Bearer %s", &token) leaves in `token`: the
      literal "Bearer", at least one space, then the next run of non-space
      chars; "" when any of these is missing. */
  function BearerToken(h: string): (t: string)
    ensures forall i :: 0 <= i < |t| ==> !IsSpace(t[i])
    ensures t != "" ==> HasPrefix(h, "Bearer") && |h| > 6 && IsSpace(h[6])
  {
    if !HasPrefix(h, "Bearer") || |h| == 6 || !IsSpace(h[6]) then ""
    else FirstWord(TrimLeftSpace(h[6..]))
  }

  /** The header the web client sends is read back as the token it carries. */
  lemma BearerOfHeader(token: string)
    requires token != "" && forall i :: 0 <= i < |token| ==> !IsSpace(token[i])
    ensures BearerToken("Bearer " + token) == token
  {
    var h := "Bearer " + token;
    assert HasPrefix(h, "Bearer");
    assert h[6..] == " " + token;
    assert TrimLeftSpace(h[6..]) == token by {
      assert TrimLeftSpace(token) == token;
    }
    FirstWordWhole(token);
  }

  lemma {:induction false} FirstWordWhole(s: string)
    requires forall i :: 0 <= i < |s| ==> !IsSpace(s[i])
    ensures FirstWord(s) == s
  {
    if |s| > 0 {
      FirstWordWhole(s[1..]);
    }
  }

  datatype AuthError = MissingHeader | MalformedHeader | InvalidToken | UnknownUser | RevokedToken

  /** The jwt library's acceptance of decoded claims at instant `now`: the
      expiry must still be ahead. */
  predicate Unexpired(c: Claims, now: int) {
    now < c.exp * Second
  }

  /** JWTAuthMiddleware: the user name a request is admitted as, or why it is
      answered with 401. */
  function Authenticate(header: string, decode: string -> Option<Claims>, now: int,
                        users: map<string, User>): (r: Result<string, AuthError>)
    ensures header == "" <==> r == Err(MissingHeader)
    ensures r.Ok? <==>
      var c := decode(BearerToken(header));
      && header != "" && BearerToken(header) != ""
      && c.Some? && Unexpired(c.value, now)
      && c.value.username in users
      && users[c.value.username].tokenVersion == c.value.version
    ensures r.Ok? ==> r.value == decode(BearerToken(header)).value.username
  {
    if header == "" then Err(MissingHeader)
    else
      var token := BearerToken(header);
      if token == "" then Err(MalformedHeader)
      else match decode(token)
        case None => Err(InvalidToken)
        case Some(c) =>
          if !Unexpired(c, now) then Err(InvalidToken)
          else if c.username !in users then Err(UnknownUser)
          else if users[c.username].tokenVersion != c.version then Err(RevokedToken)
          else Ok(c.username)
  }

  /** A token issued at login admits its user until the seventh day after the
      login second, as long as the user's token version is unchanged. */
  lemma LoginAdmits(users: map<string, User>, username: string, password: string,
                    check: (string, string) -> bool, issued: int,
                    token: string, decode: string -> Option<Claims>, now: int)
    requires Login(users, username, password, check, issued).Ok?
    requires token != "" && forall i :: 0 <= i < |token| ==> !IsSpace(token[i])
    requires decode(token) == Some(Login(users, username, password, check, issued).value)
    ensures Authenticate("Bearer " + token, decode, now, users) == Ok(username)
      <==> now < (UnixSeconds(issued) + SessionLifetime) * Second
  {
    BearerOfHeader(token);
  }
}

=== FILE: stream_handler.dfy ===
/** UnifiedStreamHandler (internal/api/handlers/stream_handler.go), served
    for GET and HEAD on /api/v1/stream/s/ followed by any path: it works out which account
    and which file a .strm link names, asks the account's client for a
    download address and redirects the player there. The database becomes
    a map from account id to account, and the client's GetDownloadURL the
    oracle `resolve`. */
module StreamHandler {
  import opened Results
  import opened Text
  import opened Decimal
  import opened Bytes
  import opened Models
  import opened UrlEscape
  import opened StreamSign
  import opened Scanner

  /** What the handler answers: a 302 to the download address, or a status
      with a plain-text body. */
  datatype Reply = Redirect(location: string) | Refused(status: int, text: string)

  /** The error texts of VerifyStreamSign. */
  function VerifyErrorText(e: VerifyError): string {
    match e
    case BadFormat => "invalid sign format"
    case BadAccountEncoding => "invalid account encoding"
    case BadAccountId => "invalid account id"
    case BadExpiry => "invalid expiry"
    case Expired => "link expired"
    case BadIdentityEncoding => "invalid real identity encoding"
    case SignatureMismatch => "signature mismatch"
  }

  /** How a signed identity is handed to the client: a path stays text, a
      decimal that fits in 64 bits becomes a number, anything else stays
      text. */
  function IdentifierOf(identity: string): (r: Identifier)
    ensures r.StringId? || r.Int64Id?
    ensures r.StringId? ==> r.text == identity
    ensures r.Int64Id? <==> !HasPrefix(identity, "/") && ParseInt64(identity).Valid?
    ensures r.Int64Id? ==> ParseInt64(identity) == Valid(r.n)
  {
    if HasPrefix(identity, "/") then StringId(identity)
    else
      match ParseInt64(identity)
      case Valid(n) => Int64Id(n)
      case Invalid(_, _) => StringId(identity)
  }

  /** The account and identifier a request names, or the reply that ends it
      early. `rawPath` is the route's path parameter, `sign` the query's
      `sign` value, `now` the time in Unix seconds. */
  function Target(rawPath: string, sign: string, k: Signer, now: int, accounts: map<nat, Account>): (r: Result<(nat, Identifier), Reply>)
    ensures r.Err? ==> r.error.Refused?
    ensures sign != "" ==> (r.Ok? <==> Verify(k, sign, now).Ok?)
    ensures sign != "" && r.Ok? ==> r.value == (Verify(k, sign, now).value.0, IdentifierOf(Verify(k, sign, now).value.1))
    ensures sign != "" && r.Err? ==> r.error.status == 403
    ensures sign == "" ==> UnsignedAnswer(Split(TrimPrefix(rawPath, "/"), '/'), accounts, r)
  {
    if sign != "" then
      match Verify(k, sign, now)
      case Err(e) => Err(Refused(403, "Invalid signature: " + VerifyErrorText(e)))
      case Ok((account, identity)) => Ok((account, IdentifierOf(identity)))
    else PathTarget(rawPath, accounts)
  }

  /** What the unsigned form promises for the '/'-separated parts of a path:
      fewer than two parts, an account id that is not a 32-bit decimal, or a
      123Pan file id that is not a 64-bit decimal are 400; an unknown
      account is 404; an OpenList account gets the rest of the path, rooted,
      and a 123Pan account the file id, whatever follows it. */
  predicate UnsignedAnswer(parts: seq<string>, accounts: map<nat, Account>, r: Result<(nat, Identifier), Reply>) {
    if |parts| < 2 then r == Err(Refused(400, "Invalid URL format"))
    else if ParseUint(parts[0], W32).Invalid? then r == Err(Refused(400, "Invalid Account ID"))
    else
      var id := ParseUint(parts[0], W32).n;
      if id !in accounts then r == Err(Refused(404, "Account not found"))
      else if accounts[id].kind == OpenList then r == Ok((id, StringId(WithLeadingSlash(Join(parts[1..], '/')))))
      else if ParseInt64(parts[1]).Invalid? then r == Err(Refused(400, "Invalid File ID format for 123Pan"))
      else r == Ok((id, Int64Id(ParseInt64(parts[1]).n)))
  }

  /** The unsigned form: "/{accountID}/{identifier...}". */
  function PathTarget(rawPath: string, accounts: map<nat, Account>): (r: Result<(nat, Identifier), Reply>)
    ensures UnsignedAnswer(Split(TrimPrefix(rawPath, "/"), '/'), accounts, r)
    ensures r.Ok? ==>
      var parts := Split(TrimPrefix(rawPath, "/"), '/');
      && |parts| >= 2
      && ParseUint(parts[0], W32) == Valid(r.value.0)
      && r.value.0 in accounts
      && (accounts[r.value.0].kind == OpenList <==> r.value.1.StringId?)
    ensures r.Err? ==> r.error.Refused? && r.error.status in {400, 404}
  {
    PartsTarget(Split(TrimPrefix(rawPath, "/"), '/'), accounts)
  }

  /** The same, from the '/'-separated parts of the path. */
  function PartsTarget(parts: seq<string>, accounts: map<nat, Account>): (r: Result<(nat, Identifier), Reply>)
    ensures UnsignedAnswer(parts, accounts, r)
    ensures r.Ok? ==>
      && |parts| >= 2
      && ParseUint(parts[0], W32) == Valid(r.value.0)
      && r.value.0 in accounts
      && (accounts[r.value.0].kind == OpenList <==> r.value.1.StringId?)
    ensures r.Err? ==> r.error.Refused? && r.error.status in {400, 404}
  {
    if |parts| < 2 then Err(Refused(400, "Invalid URL format"))
    else match ParseUint(parts[0], W32)
      case Invalid(_, _) => Err(Refused(400, "Invalid Account ID"))
      case Valid(id) =>
        if id !in accounts then Err(Refused(404, "Account not found"))
        else if accounts[id].kind == OpenList then Ok((id, StringId(WithLeadingSlash(Join(parts[1..], '/')))))
        else match ParseInt64(parts[1])
          case Invalid(_, _) => Err(Refused(400, "Invalid File ID format for 123Pan"))
          case Valid(fileId) => Ok((id, Int64Id(fileId)))
  }

  /** A 123Pan request reads only the account and the file id: whatever
      follows them in the path changes nothing. */
  lemma PanIgnoresRest(parts: seq<string>, accounts: map<nat, Account>)
    requires |parts| >= 2 && ParseUint(parts[0], W32).Valid?
    requires ParseUint(parts[0], W32).n in accounts && accounts[ParseUint(parts[0], W32).n].kind != OpenList
    ensures PartsTarget(parts, accounts) == PartsTarget(parts[..2], accounts)
    ensures PartsTarget(parts, accounts).Ok? <==> ParseInt64(parts[1]).Valid?
  {
    assert parts[..2][0] == parts[0] && parts[..2][1] == parts[1];
  }

  /** UnifiedStreamHandler. */
  function Handle(rawPath: string, sign: string, k: Signer, now: int, accounts: map<nat, Account>,
                  resolve: (Account, Identifier) -> Result<string, string>): (r: Reply)
    ensures r.Redirect? <==>
      && Target(rawPath, sign, k, now, accounts).Ok?
      && Target(rawPath, sign, k, now, accounts).value.0 in accounts
      && resolve(accounts[Target(rawPath, sign, k, now, accounts).value.0], Target(rawPath, sign, k, now, accounts).value.1).Ok?
    ensures r.Redirect? ==>
      var t := Target(rawPath, sign, k, now, accounts).value;
      r.location == resolve(accounts[t.0], t.1).value
    ensures r.Refused? ==> r.status in {400, 403, 404, 500}
    ensures sign != "" && Verify(k, sign, now).Err? ==> r.Refused? && r.status == 403
  {
    match Target(rawPath, sign, k, now, accounts)
    case Err(reply) => reply
    case Ok((id, identifier)) => Fetch(accounts, id, identifier, resolve)
  }

  /** The common tail: load the account and redirect to what its client
      resolves the identifier to. */
  function Fetch(accounts: map<nat, Account>, id: nat, identifier: Identifier,
                 resolve: (Account, Identifier) -> Result<string, string>): (r: Reply)
    ensures r.Redirect? <==> id in accounts && resolve(accounts[id], identifier).Ok?
    ensures r.Redirect? ==> r.location == resolve(accounts[id], identifier).value
    ensures id !in accounts ==> r == Refused(404, "Account not found")
    ensures r.Refused? && id in accounts ==> r.status == 500
  {
    if id !in accounts then Refused(404, "Account not found")
    else match resolve(accounts[id], identifier)
      case Err(e) => Refused(500, "Failed to get link: " + e)
      case Ok(location) => Redirect(location)
  }

  /** A player following a link: the server percent-decodes the path before
      routing, and the query carries the signature when there is one. An
      undecodable path never reaches the handler. */
  function Follow(l: Link, k: Signer, now: int, accounts: map<nat, Account>,
                  resolve: (Account, Identifier) -> Result<string, string>): Option<Reply>
  {
    match Unescape(l.path)
    case None => None
    case Some(p) => Some(Handle(p, if l.sign.Some? then l.sign.value else "", k, now, accounts, resolve))
  }

  /** The identifier a link written for `file` is meant to resolve to. */
  function Intended(account: Account, task: Task, file: FileInfo, cloudRelPath: string): Identifier {
    if account.kind == OpenList then StringId(RealIdentity(account, task, file, cloudRelPath))
    else Int64Id(file.fileId)
  }

  /** The digits and separators of a link path survive decoding as they are. */
  lemma DigitsVerbatim(s: string)
    requires forall i :: 0 <= i < |s| ==> IsDigit(s[i]) || s[i] == '-' || s[i] == '/'
    ensures Verbatim(s) && IsBytes(s)
  {
  }

  /** A verbatim head followed by escaped bytes decodes to the head and
      the bytes. */
  lemma DecodeEscaped(head: string, p: string)
    requires Verbatim(head) && IsBytes(head) && IsBytes(p)
    ensures Unescape(head + EscapeSegments(p)) == Some(head + p)
  {
    EscapeSegmentsCharwise(p);
    EscapeVerbatim(head);
    EscapeAppend(head, p);
    assert IsBytes(head + p);
    UnescapeEscape(head + p);
  }

  /** The unsigned 123Pan request path names the account and the file id. */
  lemma PanTarget(account: nat, fileId: int, p: string, k: Signer, at: int, accounts: map<nat, Account>)
    requires account <= MaxUint32 && account in accounts && accounts[account].kind != OpenList
    requires InInt64(fileId) && HasPrefix(p, "/")
    ensures Target("/" + FormatNat(account) + "/" + FormatInt(fileId) + p, "", k, at, accounts)
      == Ok((account, Int64Id(fileId)))
  {
    var a := FormatNat(account);
    var f := FormatInt(fileId);
    var rest := p[1..];
    var decoded := "/" + a + "/" + f + p;
    assert TrimPrefix(decoded, "/") == a + ['/'] + (f + ['/'] + rest);
    SplitAround(a, f + ['/'] + rest, '/');
    SplitAround(f, rest, '/');
    assert '/' !in a && '/' !in f;
    SplitWithoutSeparator(a, '/');
    SplitWithoutSeparator(f, '/');
    assert Split(TrimPrefix(decoded, "/"), '/') == [a] + ([f] + Split(rest, '/'));
    ParseUintFormat(account, W32);
    ParseIntFormat(fileId);
  }

  /** The unsigned OpenList request path names the account and the path. */
  lemma OpenListTarget(account: nat, identity: string, k: Signer, at: int, accounts: map<nat, Account>)
    requires account <= MaxUint32 && account in accounts && accounts[account].kind == OpenList
    requires SingleRoot(identity)
    ensures Target("/" + FormatNat(account) + identity, "", k, at, accounts) == Ok((account, StringId(identity)))
  {
    var a := FormatNat(account);
    var rest := identity[1..];
    assert TrimPrefix("/" + a + identity, "/") == a + ['/'] + rest by {
      assert identity == "/" + rest;
    }
    SplitAfterField(a, rest);
    ParseUintFormat(account, W32);
    OpenListParts(a, rest, account, accounts);
    assert "/" + rest == identity;
  }

  /** A field without '/' in front of a '/' is the first part. */
  lemma SplitAfterField(a: string, rest: string)
    requires AllDigits(a)
    ensures Split(a + ['/'] + rest, '/') == [a] + Split(rest, '/')
  {
    SplitAround(a, rest, '/');
    assert '/' !in a;
    SplitWithoutSeparator(a, '/');
  }

  /** Parts naming an OpenList account: the rest, rejoined, is the path. */
  lemma OpenListParts(a: string, rest: string, account: nat, accounts: map<nat, Account>)
    requires ParseUint(a, W32) == Valid(account) && account in accounts && accounts[account].kind == OpenList
    requires !HasPrefix(rest, "/")
    ensures PartsTarget([a] + Split(rest, '/'), accounts) == Ok((account, StringId("/" + rest)))
  {
    var parts := [a] + Split(rest, '/');
    assert parts[1..] == Split(rest, '/');
    JoinSplit(rest, '/');
  }

  /** An unsigned 123Pan link names its account and file id. */
  lemma UnsignedPanLink(account: Account, task: Task, file: FileInfo, rel: string,
                        signer: Signer, now: int, salt: Option<seq<Byte>>,
                        k: Signer, at: int, accounts: map<nat, Account>)
    requires salt.Some? ==> |salt.value| == SaltLength
    requires account.kind != OpenList && !task.encodePath
    requires task.accountID <= MaxUint32 && task.accountID in accounts && accounts[task.accountID] == account
    requires InInt64(file.fileId) && IsBytes(rel)
    ensures var l := StreamLink(account, task, file, rel, signer, now, salt).value;
      && l.sign.None?
      && Unescape(l.path).Some?
      && Target(Unescape(l.path).value, "", k, at, accounts) == Ok((task.accountID, Int64Id(file.fileId)))
  {
    LinkLayout(account, task, file, rel, signer, now, salt);
    PanPathDecodes(task.accountID, file.fileId, WithLeadingSlash(rel), k, at, accounts);
    assert LinkPath(rel) == EscapeSegments(WithLeadingSlash(rel));
  }

  /** The unsigned 123Pan link path of a file decodes to a request naming
      the account and the file id. */
  lemma PanPathDecodes(account: nat, fileId: int, p: string, k: Signer, at: int, accounts: map<nat, Account>)
    requires account <= MaxUint32 && account in accounts && accounts[account].kind != OpenList
    requires InInt64(fileId) && HasPrefix(p, "/") && IsBytes(p)
    ensures var head := "/" + FormatNat(account) + "/" + FormatInt(fileId);
      && Unescape(head + EscapeSegments(p)) == Some(head + p)
      && Target(head + p, "", k, at, accounts) == Ok((account, Int64Id(fileId)))
  {
    var head := "/" + FormatNat(account) + "/" + FormatInt(fileId);
    DigitsVerbatim(head);
    DecodeEscaped(head, p);
    PanTarget(account, fileId, p, k, at, accounts);
  }

  /** An unsigned OpenList link names its account and the file's full path. */
  lemma UnsignedOpenListLink(account: Account, task: Task, file: FileInfo, rel: string,
                             signer: Signer, now: int, salt: Option<seq<Byte>>,
                             k: Signer, at: int, accounts: map<nat, Account>)
    requires salt.Some? ==> |salt.value| == SaltLength
    requires account.kind == OpenList && !task.encodePath
    requires task.accountID <= MaxUint32 && task.accountID in accounts && accounts[task.accountID] == account
    requires IsBytes(RealIdentity(account, task, file, rel))
    ensures var l := StreamLink(account, task, file, rel, signer, now, salt).value;
      && l.sign.None?
      && Unescape(l.path).Some?
      && Target(Unescape(l.path).value, "", k, at, accounts)
         == Ok((task.accountID, StringId(RealIdentity(account, task, file, rel))))
  {
    LinkLayout(account, task, file, rel, signer, now, salt);
    OpenListPathDecodes(task.accountID, RealIdentity(account, task, file, rel), k, at, accounts);
  }

  /** The unsigned OpenList link path of an identity decodes to a request
      naming the account and that identity. */
  lemma OpenListPathDecodes(account: nat, identity: string, k: Signer, at: int, accounts: map<nat, Account>)
    requires account <= MaxUint32 && account in accounts && accounts[account].kind == OpenList
    requires SingleRoot(identity) && IsBytes(identity)
    ensures Unescape("/" + FormatNat(account) + EscapeSegments(identity)) == Some("/" + FormatNat(account) + identity)
    ensures Target("/" + FormatNat(account) + identity, "", k, at, accounts) == Ok((account, StringId(identity)))
  {
    var head := "/" + FormatNat(account);
    DigitsVerbatim(head);
    DecodeEscaped(head, identity);
    OpenListTarget(account, identity, k, at, accounts);
  }

  /** A signed link names its account and identity through the signature,
      until the signature expires. */
  lemma SignedLink(account: Account, task: Task, file: FileInfo, rel: string,
                   k: Signer, now: int, salt: seq<Byte>, at: int, accounts: map<nat, Account>)
    requires |k.secret| > 0 && |salt| == SaltLength
    requires task.encodePath
    requires task.accountID <= MaxUint32
    requires IsBytes(rel) && IsBytes(RealIdentity(account, task, file, rel))
    requires account.kind != OpenList ==> InInt64(file.fileId)
    requires InInt64(now + LinkLifetime) && at <= now + LinkLifetime
    ensures StreamLink(account, task, file, rel, k, now, Some(salt)).Ok?
    ensures var l := StreamLink(account, task, file, rel, k, now, Some(salt)).value;
      && l.sign.Some?
      && Unescape(l.path).Some?
      && Target(Unescape(l.path).value, l.sign.value, k, at, accounts)
         == Ok((task.accountID, Intended(account, task, file, rel)))
  {
    var identity := RealIdentity(account, task, file, rel);
    VerifySign(k, task.accountID, identity, now, salt, at);
    var sign := Sign(k, task.accountID, identity, now, Some(salt)).value;
    LinkLayout(account, task, file, rel, k, now, Some(salt));
    SignedPathDecodes(account, task, file, rel, sign, k, at, accounts);
  }

  /** The path of a signed link decodes to the file's relative path, and a
      valid signature for the file's identity names the intended file. */
  lemma SignedPathDecodes(account: Account, task: Task, file: FileInfo, rel: string,
                          sign: string, k: Signer, at: int, accounts: map<nat, Account>)
    requires IsBytes(rel) && (account.kind != OpenList ==> InInt64(file.fileId))
    requires Verify(k, sign, at) == Ok((task.accountID, RealIdentity(account, task, file, rel)))
    ensures Unescape(EscapeSegments(WithLeadingSlash(rel))) == Some(WithLeadingSlash(rel))
    ensures Target(WithLeadingSlash(rel), sign, k, at, accounts) == Ok((task.accountID, Intended(account, task, file, rel)))
  {
    RootedEscapes(rel);
    SignedTarget(WithLeadingSlash(rel), sign, k, at, accounts);
    IntendedIdentifier(account, task, file, rel);
  }

  /** A relative path, rooted and escaped segment by segment, decodes back
      to the rooted path. */
  lemma RootedEscapes(rel: string)
    requires IsBytes(rel)
    ensures Unescape(EscapeSegments(WithLeadingSlash(rel))) == Some(WithLeadingSlash(rel))
  {
    var p := WithLeadingSlash(rel);
    assert IsBytes(p) by {
      if !HasPrefix(rel, "/") {
        assert forall i :: 0 < i < |p| ==> p[i] == rel[i - 1];
      }
    }
    EscapeSegmentsCharwise(p);
    UnescapeEscape(p);
  }

  /** A request with a valid signature names what the signature carries,
      whatever its path. */
  lemma SignedTarget(rawPath: string, sign: string, k: Signer, at: int, accounts: map<nat, Account>)
    requires Verify(k, sign, at).Ok?
    ensures Target(rawPath, sign, k, at, accounts) == Ok((Verify(k, sign, at).value.0, IdentifierOf(Verify(k, sign, at).value.1)))
  {
    assert sign != "" by {
      assert |Split(sign, ':')| == 5;
    }
  }

  /** The identity a link is signed with is handed to the client as the
      identifier the link is meant for. */
  lemma IntendedIdentifier(account: Account, task: Task, file: FileInfo, rel: string)
    requires account.kind != OpenList ==> InInt64(file.fileId)
    ensures IdentifierOf(RealIdentity(account, task, file, rel)) == Intended(account, task, file, rel)
  {
  }

  /** Every link the scanner writes leads the player to the download
      address of the file it was written for, as long as its account still
      exists (and, for a signed link, before it expires). */
  lemma LinkLeadsToFile(account: Account, task: Task, file: FileInfo, rel: string,
                        k: Signer, now: int, salt: seq<Byte>, at: int, accounts: map<nat, Account>,
                        resolve: (Account, Identifier) -> Result<string, string>)
    requires |k.secret| > 0 && |salt| == SaltLength
    requires task.accountID <= MaxUint32 && task.accountID in accounts && accounts[task.accountID] == account
    requires IsBytes(rel) && IsBytes(RealIdentity(account, task, file, rel))
    requires account.kind != OpenList ==> InInt64(file.fileId)
    requires InInt64(now + LinkLifetime) && at <= now + LinkLifetime
    ensures StreamLink(account, task, file, rel, k, now, Some(salt)).Ok?
    ensures Follow(StreamLink(account, task, file, rel, k, now, Some(salt)).value, k, at, accounts, resolve)
      == Some(Fetch(accounts, task.accountID, Intended(account, task, file, rel), resolve))
  {
    if task.encodePath {
      SignedLink(account, task, file, rel, k, now, salt, at, accounts);
    } else if account.kind == OpenList {
      UnsignedOpenListLink(account, task, file, rel, k, now, Some(salt), k, at, accounts);
    } else {
      UnsignedPanLink(account, task, file, rel, k, now, Some(salt), k, at, accounts);
    }
  }
}

=== FILE: stream_sign.dfy ===
/** Signed stream links (internal/auth/jwt.go, SignStreamURL and
    VerifyStreamSign): five ':'-separated fields
      base64url(account id) : expiry : hex HMAC : base64url(identity) : base64url(salt)
    where the HMAC-SHA256 (RFC 2104) covers "account:expiry:identity:salt".
    The HMAC itself is a parameter; the encodings are concrete. */
module StreamSign {
  import opened Results
  import opened Text
  import opened Decimal
  import opened Bytes
  import B64 = Base64Url
  import Hex

  /** Seconds a link stays valid after signing (24 hours). */
  const LinkLifetime: int := 24 * 60 * 60

  /** Bytes of random salt per link. */
  const SaltLength: nat := 8

  /** The process-wide secret, and HMAC-SHA256 keyed by its first argument. */
  datatype Signer = Signer(secret: seq<Byte>, mac: (seq<Byte>, seq<Byte>) -> seq<Byte>)

  datatype SignError = SecretMissing | SaltUnavailable

  datatype VerifyError =
    | BadFormat
    | BadAccountEncoding
    | BadAccountId
    | BadExpiry
    | Expired
    | BadIdentityEncoding
    | SignatureMismatch

  /** The text the HMAC covers: "%d:%d:%s:%s". */
  function Payload(account: nat, expiry: int, identity: string, saltB64: string): string {
    FormatNat(account) + ":" + FormatInt(expiry) + ":" + identity + ":" + saltB64
  }

  function Digest(k: Signer, account: nat, expiry: int, identity: string, saltB64: string): string {
    Hex.Encode(k.mac(k.secret, ToBytes(Payload(account, expiry, identity, saltB64))))
  }

  /** SignStreamURL at Unix time `now`; `salt` is what crypto/rand produced,
      None when it failed. */
  function Sign(k: Signer, account: nat, identity: string, now: int, salt: Option<seq<Byte>>): (r: Result<string, SignError>)
    requires salt.Some? ==> |salt.value| == SaltLength
    ensures |k.secret| == 0 <==> r == Err(SecretMissing)
    ensures |k.secret| > 0 ==> (r.Ok? <==> salt.Some?)
    ensures r.Ok? ==>
      var f := Split(r.value, ':');
      && |f| == 5
      && B64.Decode(f[0]) == Some(ToBytes(FormatNat(account)))
      && (InInt64(now + LinkLifetime) ==> ParseInt64(f[1]) == Valid(now + LinkLifetime))
      && f[2] == Digest(k, account, now + LinkLifetime, identity, f[4])
      && B64.Decode(f[3]) == Some(ToBytes(identity))
      && B64.Decode(f[4]) == salt
  {
    if |k.secret| == 0 then Err(SecretMissing)
    else match salt
      case None => Err(SaltUnavailable)
      case Some(bytes) =>
        var accB64 := B64.Encode(ToBytes(FormatNat(account)));
        var expiry := now + LinkLifetime;
        var expStr := FormatInt(expiry);
        var idB64 := B64.Encode(ToBytes(identity));
        var saltB64 := B64.Encode(bytes);
        var sig := Digest(k, account, expiry, identity, saltB64);
        var fields := [accB64, expStr, sig, idB64, saltB64];
        FieldsWithoutColon(fields);
        SplitJoin(fields, ':');
        B64.DecodeEncode(ToBytes(FormatNat(account)));
        B64.DecodeEncode(ToBytes(identity));
        B64.DecodeEncode(bytes);
        if InInt64(expiry) then
          ParseIntFormat(expiry);
          Ok(Join(fields, ':'))
        else
          Ok(Join(fields, ':'))
  }

  /** None of the five fields a signer produces contains ':'. */
  lemma FieldsWithoutColon(fields: seq<string>)
    requires |fields| == 5
    requires forall j :: 0 <= j < |fields[0]| ==> B64.InAlphabet(fields[0][j])
    requires forall j :: 0 <= j < |fields[1]| ==> IsDigit(fields[1][j]) || fields[1][j] == '-'
    requires forall j :: 0 <= j < |fields[2]| ==> Hex.IsHexDigit(fields[2][j])
    requires forall j :: 0 <= j < |fields[3]| ==> B64.InAlphabet(fields[3][j])
    requires forall j :: 0 <= j < |fields[4]| ==> B64.InAlphabet(fields[4][j])
    ensures forall i :: 0 <= i < |fields| ==> ':' !in fields[i]
  {
    assert !B64.InAlphabet(':') && !Hex.IsHexDigit(':') && !IsDigit(':');
    forall i | 0 <= i < |fields| ensures ':' !in fields[i] {
      assert forall j :: 0 <= j < |fields[i]| ==> fields[i][j] != ':';
    }
  }

  /** VerifyStreamSign at Unix time `now`: the account id and identity the
      link carries, or the first check it fails. */
  function Verify(k: Signer, s: string, now: int): (r: Result<(nat, string), VerifyError>)
    ensures |Split(s, ':')| != 5 ==> r == Err(BadFormat)
    ensures r.Ok? ==>
      var f := Split(s, ':');
      && |f| == 5
      && ParseInt64(f[1]).Valid? && now <= ParseInt64(f[1]).n
      && f[2] == Digest(k, r.value.0, ParseInt64(f[1]).n, r.value.1, f[4])
      && r.value.0 <= MaxUint32
      && B64.Decode(f[3]) == Some(ToBytes(r.value.1))
  {
    var f := Split(s, ':');
    if |f| != 5 then Err(BadFormat) else VerifyFields(k, f, now)
  }

  /** The checks of Verify on the five ':'-separated fields, in order:
      account, expiry, signature, identity, salt. */
  function VerifyFields(k: Signer, f: seq<string>, now: int): (r: Result<(nat, string), VerifyError>)
    requires |f| == 5
    ensures r.Ok? ==>
      && B64.Decode(f[0]).Some? && ParseUint(FromBytes(B64.Decode(f[0]).value), W32) == Valid(r.value.0)
      && ParseInt64(f[1]).Valid? && now <= ParseInt64(f[1]).n
      && f[2] == Digest(k, r.value.0, ParseInt64(f[1]).n, r.value.1, f[4])
      && r.value.0 <= MaxUint32
      && B64.Decode(f[3]) == Some(ToBytes(r.value.1))
    ensures ParseInt64(f[1]).Valid? && now > ParseInt64(f[1]).n ==> r.Err?
  {
    match B64.Decode(f[0])
    case None => Err(BadAccountEncoding)
    case Some(accBytes) =>
      var acc := ParseUint(FromBytes(accBytes), W32);
      if acc.Invalid? then Err(BadAccountId)
      else
        var exp := ParseInt64(f[1]);
        if exp.Invalid? then Err(BadExpiry)
        else if now > exp.n then Err(Expired)
        else match B64.Decode(f[3])
          case None => Err(BadIdentityEncoding)
          case Some(idBytes) =>
            var identity := FromBytes(idBytes);
            ToFromBytes(idBytes);
            if Digest(k, acc.n, exp.n, identity, f[4]) != f[2] then Err(SignatureMismatch)
            else Ok((acc.n, identity))
  }

  /** Round trip: a link signed for an account id that fits in 32 bits
      verifies, until its expiry, to that account and identity. */
  lemma VerifySign(k: Signer, account: nat, identity: string, now: int, salt: seq<Byte>, at: int)
    requires |k.secret| > 0 && |salt| == SaltLength
    requires account <= MaxUint32 && IsBytes(identity)
    requires InInt64(now + LinkLifetime) && at <= now + LinkLifetime
    ensures Sign(k, account, identity, now, Some(salt)).Ok?
    ensures Verify(k, Sign(k, account, identity, now, Some(salt)).value, at) == Ok((account, identity))
  {
    var s := Sign(k, account, identity, now, Some(salt)).value;
    var f := Split(s, ':');
    assert IsBytes(FormatNat(account));
    FromToBytes(FormatNat(account));
    FromToBytes(identity);
    ParseUintFormat(account, W32);
  }

  /** A signed link is valid exactly up to and including its expiry second. */
  lemma ValidUntilExpiry(k: Signer, account: nat, identity: string, now: int, salt: seq<Byte>, at: int)
    requires |k.secret| > 0 && |salt| == SaltLength
    requires account <= MaxUint32 && IsBytes(identity)
    requires InInt64(now + LinkLifetime)
    ensures Verify(k, Sign(k, account, identity, now, Some(salt)).value, at).Ok? <==> at <= now + LinkLifetime
  {
    if at <= now + LinkLifetime {
      VerifySign(k, account, identity, now, salt, at);
    }
  }

  /** Changing the signature field of a valid link makes it fail: the only
      signature accepted for given other fields is the digest. */
  lemma TamperedSignatureRejected(k: Signer, s: string, forged: string, now: int)
    requires |Split(s, ':')| == 5
    requires ':' !in forged
    requires Verify(k, s, now).Ok?
    requires forged != Split(s, ':')[2]
    ensures var f := Split(s, ':');
      Verify(k, Join([f[0], f[1], forged, f[3], f[4]], ':'), now) == Err(SignatureMismatch)
  {
    var f := Split(s, ':');
    var g := [f[0], f[1], forged, f[3], f[4]];
    SplitJoin(g, ':');
    assert Split(Join(g, ':'), ':') == g;
  }
}

=== FILE: text.dfy ===
/** The parts of Go's `strings` package the service relies on, over ASCII.
    Go strings are byte strings; here each char stands for one byte, and the
    white-space and case tables are the ASCII ones. */
module Text {

  /** ASCII white space, as trimmed by strings.TrimSpace. */
  predicate IsSpace(c: char) {
    c == ' ' || c == '\t' || c == '\n' || c == '\r' || c == '\U{000B}' || c == '\U{000C}'
  }

  predicate HasPrefix(s: string, p: string) {
    |p| <= |s| && s[..|p|] == p
  }

  predicate HasSuffix(s: string, p: string) {
    |p| <= |s| && s[|s| - |p|..] == p
  }

  predicate OccursAt(s: string, sub: string, i: int) {
    0 <= i && i + |sub| <= |s| && s[i..i + |sub|] == sub
  }

  /** strings.Contains */
  predicate Contains(s: string, sub: string) {
    exists i | 0 <= i <= |s| :: OccursAt(s, sub, i)
  }

  /** strings.TrimPrefix */
  function TrimPrefix(s: string, p: string): (r: string)
    ensures HasPrefix(s, p) ==> s == p + r
    ensures !HasPrefix(s, p) ==> r == s
  {
    if HasPrefix(s, p) then s[|p|..] else s
  }

  /** strings.TrimSuffix */
  function TrimSuffix(s: string, p: string): (r: string)
    ensures HasSuffix(s, p) ==> s == r + p
    ensures !HasSuffix(s, p) ==> r == s
  {
    if HasSuffix(s, p) then s[..|s| - |p|] else s
  }

  /** strings.TrimLeft with a one-character cutset. */
  function TrimLeft(s: string, c: char): (r: string)
    ensures |r| <= |s| && r == s[|s| - |r|..]
    ensures forall i :: 0 <= i < |s| - |r| ==> s[i] == c
    ensures r == [] || r[0] != c
  {
    if |s| > 0 && s[0] == c then TrimLeft(s[1..], c) else s
  }

  /** strings.TrimRight with a one-character cutset. */
  function TrimRight(s: string, c: char): (r: string)
    ensures |r| <= |s| && r == s[..|r|]
    ensures forall i :: |r| <= i < |s| ==> s[i] == c
    ensures r == [] || r[|r| - 1] != c
  {
    if |s| > 0 && s[|s| - 1] == c then TrimRight(s[..|s| - 1], c) else s
  }

  /** strings.Trim with a one-character cutset. */
  function Trim(s: string, c: char): (r: string)
    ensures r == [] || (r[0] != c && r[|r| - 1] != c)
  {
    TrimRight(TrimLeft(s, c), c)
  }

  function TrimLeftSpace(s: string): (r: string)
    ensures |r| <= |s| && r == s[|s| - |r|..]
    ensures r == [] || !IsSpace(r[0])
  {
    if |s| > 0 && IsSpace(s[0]) then TrimLeftSpace(s[1..]) else s
  }

  function TrimRightSpace(s: string): (r: string)
    ensures |r| <= |s| && r == s[..|r|]
    ensures r == [] || !IsSpace(r[|r| - 1])
    ensures |s| > 0 && !IsSpace(s[0]) ==> |r| > 0 && r[0] == s[0]
  {
    if |s| > 0 && IsSpace(s[|s| - 1]) then TrimRightSpace(s[..|s| - 1]) else s
  }

  /** Trimming white space keeps every other char. */
  lemma {:induction false} TrimLeftSpaceKeeps(s: string, c: char)
    requires c in s && !IsSpace(c)
    ensures c in TrimLeftSpace(s)
    decreases |s|
  {
    if |s| > 0 && IsSpace(s[0]) {
      assert c in s[1..] by {
        var i :| 0 <= i < |s| && s[i] == c;
        assert i > 0 && s[1..][i - 1] == c;
      }
      TrimLeftSpaceKeeps(s[1..], c);
    }
  }

  lemma {:induction false} TrimRightSpaceKeeps(s: string, c: char)
    requires c in s && !IsSpace(c)
    ensures c in TrimRightSpace(s)
    decreases |s|
  {
    if |s| > 0 && IsSpace(s[|s| - 1]) {
      assert c in s[..|s| - 1] by {
        var i :| 0 <= i < |s| && s[i] == c;
        assert i < |s| - 1 && s[..|s| - 1][i] == c;
      }
      TrimRightSpaceKeeps(s[..|s| - 1], c);
    }
  }

  lemma TrimSpaceKeeps(s: string, c: char)
    requires c in s && !IsSpace(c)
    ensures c in TrimSpace(s)
  {
    TrimLeftSpaceKeeps(s, c);
    TrimRightSpaceKeeps(TrimLeftSpace(s), c);
  }

  /** strings.TrimSpace: no white space is left at either end. */
  function TrimSpace(s: string): (r: string)
    ensures r == [] || (!IsSpace(r[0]) && !IsSpace(r[|r| - 1]))
    ensures |r| <= |s|
  {
    TrimRightSpace(TrimLeftSpace(s))
  }

  function LowerChar(c: char): char {
    if 'A' <= c <= 'Z' then (c as int + 32) as char else c
  }

  /** strings.ToLower on ASCII letters. */
  function ToLower(s: string): (r: string)
    ensures |r| == |s|
    ensures forall i :: 0 <= i < |s| ==> r[i] == LowerChar(s[i])
  {
    seq(|s|, i requires 0 <= i < |s| => LowerChar(s[i]))
  }

  /** strings.Split with a one-character separator: never empty, and no part
      holds the separator. */
  function Split(s: string, sep: char): (parts: seq<string>)
    ensures |parts| >= 1
    ensures forall i :: 0 <= i < |parts| ==> sep !in parts[i]
  {
    if |s| == 0 then [""]
    else
      var rest := Split(s[1..], sep);
      if s[0] == sep then [""] + rest
      else [[s[0]] + rest[0]] + rest[1..]
  }

  /** Two one-element sequences concatenate to the pair. */
  lemma PairOf<T>(x: T, y: T)
    ensures [x] + [y] == [x, y]
  {
  }

  /** strings.Join with a one-character separator. */
  function Join(parts: seq<string>, sep: char): string {
    if |parts| == 0 then ""
    else if |parts| == 1 then parts[0]
    else parts[0] + [sep] + Join(parts[1..], sep)
  }

  lemma SplitWithoutSeparator(s: string, sep: char)
    requires sep !in s
    ensures Split(s, sep) == [s]
  {
    if |s| > 0 {
      assert sep !in s[1..];
      SplitWithoutSeparator(s[1..], sep);
      assert [s[0]] + s[1..] == s;
    }
  }

  /** Joining the parts of a split gives back the original string. */
  lemma {:induction false} JoinSplit(s: string, sep: char)
    ensures Join(Split(s, sep), sep) == s
  {
    if |s| > 0 {
      var rest := Split(s[1..], sep);
      JoinSplit(s[1..], sep);
      if s[0] == sep {
        assert Join(Split(s, sep), sep) == "" + [sep] + Join(rest, sep);
      } else if |rest| == 1 {
        assert Join(Split(s, sep), sep) == [s[0]] + rest[0];
      } else {
        assert Join(rest, sep) == rest[0] + [sep] + Join(rest[1..], sep);
        assert Join(Split(s, sep), sep) == ([s[0]] + rest[0]) + [sep] + Join(rest[1..], sep);
      }
    }
  }

  /** Splitting around one separator splits both sides independently. */
  lemma {:induction false} SplitAround(a: string, b: string, sep: char)
    ensures Split(a + [sep] + b, sep) == Split(a, sep) + Split(b, sep)
  {
    if |a| == 0 {
      assert a + [sep] + b == [sep] + b;
      assert ([sep] + b)[1..] == b;
    } else {
      assert (a + [sep] + b)[0] == a[0];
      assert (a + [sep] + b)[1..] == a[1..] + [sep] + b;
      SplitAround(a[1..], b, sep);
    }
  }

  /** Splitting a join of separator-free parts gives back the parts. */
  lemma {:induction false} SplitJoin(parts: seq<string>, sep: char)
    requires |parts| >= 1
    requires forall i :: 0 <= i < |parts| ==> sep !in parts[i]
    ensures Split(Join(parts, sep), sep) == parts
  {
    if |parts| == 1 {
      SplitWithoutSeparator(parts[0], sep);
    } else {
      SplitJoin(parts[1..], sep);
      SplitWithoutSeparator(parts[0], sep);
      SplitAround(parts[0], Join(parts[1..], sep), sep);
      assert [parts[0]] + parts[1..] == parts;
    }
  }

  /** A join of separator-free parts holds the separator only between parts. */
  lemma JoinWithoutSeparator(parts: seq<string>, sep: char, c: char)
    requires c != sep
    requires forall i :: 0 <= i < |parts| ==> c !in parts[i]
    ensures c !in Join(parts, sep)
  {
    if |parts| > 1 {
      JoinWithoutSeparator(parts[1..], sep, c);
    }
  }

  /** No element occurs twice. */
  predicate Distinct<T(==)>(s: seq<T>) {
    forall i, j :: 0 <= i < j < |s| ==> s[i] != s[j]
  }
}

=== FILE: url_escape.dfy ===
/** Percent-encoding of URL path segments (RFC 3986 section 2.1) as Go's
    url.PathEscape applies it, and the decoding net/http applies to a
    request path before the router sees it. Chars stand for bytes. */
module UrlEscape {
  import opened Results
  import opened Text
  import opened Bytes

  /** Chars url.PathEscape leaves as they are: the unreserved set of RFC 3986
      section 2.3 and the sub-delimiters a segment may carry, except
      '/', ';', ',' and '?'. */
  predicate Unescaped(c: char) {
    || 'a' <= c <= 'z' || 'A' <= c <= 'Z' || '0' <= c <= '9'
    || c == '-' || c == '_' || c == '.' || c == '~'
    || c == '$' || c == '&' || c == '+' || c == ':' || c == '=' || c == '@'
  }

  function UpperHex(v: nat): char
    requires v < 16
  {
    if v < 10 then ('0' as int + v) as char else ('A' as int + v - 10) as char
  }

  /** The value of a hex digit of either case. */
  function HexValue(c: char): (r: Option<nat>)
    ensures r.Some? ==> r.value < 16
  {
    if '0' <= c <= '9' then Some(c as int - '0' as int)
    else if 'a' <= c <= 'f' then Some(c as int - 'a' as int + 10)
    else if 'A' <= c <= 'F' then Some(c as int - 'A' as int + 10)
    else None
  }

  lemma HexValueOfUpper(v: nat)
    requires v < 16
    ensures HexValue(UpperHex(v)) == Some(v)
  {
  }

  /** One byte as url.PathEscape writes it. */
  function EscapeChar(c: char): (r: string)
    ensures |r| >= 1 && '/' !in r && '?' !in r
    ensures r[0] == '%' <==> !Unescaped(c)
  {
    if Unescaped(c) then [c]
    else
      var b := (c as int) % 256;
      ['%', UpperHex(b / 16), UpperHex(b % 16)]
  }

  /** url.PathEscape: a '/' inside the segment is escaped too. */
  function PathEscape(s: string): (r: string)
    ensures '/' !in r
  {
    if |s| == 0 then "" else EscapeChar(s[0]) + PathEscape(s[1..])
  }

  function EscapeEach(parts: seq<string>): (r: seq<string>)
    ensures |r| == |parts|
  {
    if |parts| == 0 then [] else [PathEscape(parts[0])] + EscapeEach(parts[1..])
  }

  /** How the scanner escapes a path: split at '/', escape every segment,
      join again with '/'. */
  function EscapeSegments(p: string): string {
    Join(EscapeEach(Split(p, '/')), '/')
  }

  /** The same escaping read one char at a time: separators stay. */
  function EscapeKeepingSlashes(p: string): (r: string)
    ensures '?' !in r
    ensures |p| > 0 && p[0] == '/' ==> |r| > 0 && r[0] == '/'
  {
    if |p| == 0 then ""
    else (if p[0] == '/' then "/" else EscapeChar(p[0])) + EscapeKeepingSlashes(p[1..])
  }

  lemma {:induction false} EscapeSegmentsCharwise(p: string)
    ensures EscapeSegments(p) == EscapeKeepingSlashes(p)
  {
    if |p| > 0 {
      EscapeSegmentsCharwise(p[1..]);
      if p[0] == '/' {
        EscapeAfterSlash(p);
      } else {
        EscapeAfterChar(p);
      }
    }
  }

  /** A leading '/' opens an empty first segment. */
  lemma EscapeAfterSlash(p: string)
    requires |p| > 0 && p[0] == '/'
    requires EscapeSegments(p[1..]) == EscapeKeepingSlashes(p[1..])
    ensures EscapeSegments(p) == EscapeKeepingSlashes(p)
  {
    var rest := Split(p[1..], '/');
    var er := EscapeEach(rest);
    assert Split(p, '/') == [""] + rest;
    assert EscapeEach([""] + rest) == [""] + er;
    assert Join([""] + er, '/') == "/" + Join(er, '/');
  }

  /** Any other leading char joins the first segment, escaped. */
  lemma EscapeAfterChar(p: string)
    requires |p| > 0 && p[0] != '/'
    requires EscapeSegments(p[1..]) == EscapeKeepingSlashes(p[1..])
    ensures EscapeSegments(p) == EscapeKeepingSlashes(p)
  {
    var rest := Split(p[1..], '/');
    var er := EscapeEach(rest);
    var head := [p[0]] + rest[0];
    assert EscapeEach(Split(p, '/')) == [EscapeChar(p[0]) + er[0]] + er[1..] by {
      assert Split(p, '/') == [head] + rest[1..];
      assert head[1..] == rest[0];
      assert PathEscape(head) == EscapeChar(p[0]) + PathEscape(rest[0]);
      assert EscapeEach([head] + rest[1..]) == [PathEscape(head)] + EscapeEach(rest[1..]);
      assert er == [PathEscape(rest[0])] + EscapeEach(rest[1..]);
    }
    JoinConsHead(EscapeChar(p[0]), er);
  }

  /** Prefixing the first part prefixes the joined text. */
  lemma {:induction false} JoinConsHead(x: string, parts: seq<string>)
    requires |parts| >= 1
    ensures Join([x + parts[0]] + parts[1..], '/') == x + Join(parts, '/')
  {
    var q := [x + parts[0]] + parts[1..];
    assert q[0] == x + parts[0];
    if |parts| > 1 {
      assert q[1..] == parts[1..];
      var tail := Join(parts[1..], '/');
      assert Join(q, '/') == (x + parts[0]) + ['/'] + tail;
      assert Join(parts, '/') == parts[0] + ['/'] + tail;
      assert (x + parts[0]) + ['/'] + tail == x + (parts[0] + ['/'] + tail);
    } else {
      assert |q| == 1;
    }
  }

  lemma {:induction false} EscapeAppend(a: string, b: string)
    ensures EscapeKeepingSlashes(a + b) == EscapeKeepingSlashes(a) + EscapeKeepingSlashes(b)
    decreases |a|
  {
    if |a| > 0 {
      assert (a + b)[1..] == a[1..] + b;
      EscapeAppend(a[1..], b);
    } else {
      assert a + b == b;
    }
  }

  /** Text the escaping leaves as it is. */
  predicate Verbatim(s: string) {
    forall i :: 0 <= i < |s| ==> Unescaped(s[i]) || s[i] == '/'
  }

  lemma {:induction false} EscapeVerbatim(s: string)
    requires Verbatim(s)
    ensures EscapeKeepingSlashes(s) == s
    decreases |s|
  {
    if |s| > 0 {
      EscapeVerbatim(s[1..]);
      assert [s[0]] + s[1..] == s;
    }
  }

  /** Percent-decoding of a request path: "%XX" with two hex digits of
      either case is the byte XX; a '%' without them makes the request
      path invalid; every other char stands for itself. */
  function Unescape(s: string): Option<string> {
    if |s| == 0 then Some("")
    else if s[0] != '%' then
      match Unescape(s[1..])
      case None => None
      case Some(rest) => Some([s[0]] + rest)
    else if |s| < 3 || HexValue(s[1]).None? || HexValue(s[2]).None? then None
    else
      match Unescape(s[3..])
      case None => None
      case Some(rest) => Some([(HexValue(s[1]).value * 16 + HexValue(s[2]).value) as char] + rest)
  }

  lemma UnescapeChar(c: char, t: string)
    requires c as int < 256
    ensures Unescape(EscapeChar(c) + t) ==
      match Unescape(t)
      case None => None
      case Some(rest) => Some([c] + rest)
  {
    var e := EscapeChar(c) + t;
    if Unescaped(c) {
      assert e[1..] == t;
    } else {
      var b := c as int;
      HexValueOfUpper(b / 16);
      HexValueOfUpper(b % 16);
      assert e[3..] == t;
    }
  }

  /** Decoding undoes the scanner's escaping of a byte string. */
  lemma {:induction false} UnescapeEscape(p: string)
    requires IsBytes(p)
    ensures Unescape(EscapeKeepingSlashes(p)) == Some(p)
  {
    if |p| > 0 {
      var t := EscapeKeepingSlashes(p[1..]);
      UnescapeEscape(p[1..]);
      if p[0] == '/' {
        assert ("/" + t)[1..] == t;
      } else {
        UnescapeChar(p[0], t);
      }
      assert [p[0]] + p[1..] == p;
    }
  }
}
